=== FILE: README.md ===
# Identifikacije mail merge: a Dafny model

This project models the template mail-merge engine of the "identifikacije"
screen, in which a school prints identification cards. The steps are:

1. A table is pasted: the first line gives the column headers and every
   further line is a pupil.
2. A `.docx` or `.odt` template is uploaded. Placeholders written as
   `{name}` are found in its XML, even when the word processor has split
   them across several XML runs.
3. Each placeholder is mapped to the most similar column header. A second
   phone column is guessed when the template holds a phone placeholder.
4. The body of the template is repeated once per page. Occurrence `i` of a
   placeholder on a page is filled from the row `i` places after the page's
   first row. Grades, phone numbers and letter case get special formatting.
5. The pages are joined with the format's page break.

The older, superseded version of the screen lives in
`components/identifikacije.tsx`. It is modelled too, with its own scorer,
its 0.5 threshold, its list reordering and its one-row substitution.

Modules, one per file:

- `text.dfy` (`Text`): the string primitives the source uses.
  - ASCII case mapping, `trim`, `indexOf`/`lastIndexOf`/`includes`, and `split`/`join` on one character.
  - White-space collapsing, tag and brace stripping, and `parseInt`/number printing.
- `levenshtein.dfy` (`Levenshtein`): the edit-distance matrix both scorers compute.
- `scorer.dfy` (`Scorer`): the tiered `stringSimilarity` of `utils.ts`.
- `formatters.dfy` (`Formatters`): `applyPlaceholderCasing`, `getFormattedTelefonValue` and `getFormattedRazredValue`.
- `sheet.dfy` (`SheetData`): the paste parser of `use-sheet-data.ts`, with the hook state as a class.
- `pmap.dfy` (`PlaceholderMap`): the insertion-ordered JavaScript `Map` from placeholder name to raw token.
- `extraction.dfy` (`Extraction`): the placeholder extraction of `handleFileUpload`.
  - The DOCX brace-span scan.
  - The ODT brace-depth scan and its regular-expression fallback.
  - The empty-document error.
- `mapping.dfy` (`Mappings`): the initial mappings, the secondary phone column, `updateMapping`, and the upload hook's state as a class.
- `adapters.dfy` (`Adapters`): the DOCX/ODT body split and page breaks.
- `merge.dfy` (`Merge`): `DocumentProcessor`, which covers the mapping dictionary, the placeholder counts, `processValue`, `replacePlaceholders` and `process`. It also holds `generateDocuments`.
- `legacy.dfy` (`Legacy`): the superseded screen.

The loops of the source are methods proved against specification
functions. The specification functions carry the properties, as lemmas and
postconditions. Objects whose fields change become classes:
- the sheet hook;
- the upload hook;
- the document processor;
- the legacy screen.

## Model

| member | source | states |
|---|---|---|
| Text.Lookup | components/identifikacije/hooks/use-document-generator.ts:153 | A record read with a missing key gives "", and a present key gives its value. |
| Text.Lower | components/identifikacije/utils.ts:9-10 | Lower-casing keeps the length and maps every character on its own. |
| Text.Upper | components/identifikacije/utils.ts:94-95 | Upper-casing keeps the length and maps every character on its own. |
| Text.LowerIdempotent | components/identifikacije/utils.ts:9-10 | Lower-casing twice is lower-casing once. |
| Text.TrimStart | components/identifikacije/utils.ts:9-10 | The cut is a white-space prefix, and what remains does not start with white space. |
| Text.TrimEnd | components/identifikacije/utils.ts:9-10 | The cut is a white-space suffix, and what remains does not end with white space. |
| Text.Trim | components/identifikacije/utils.ts:9-10 | The result has no white space at either end. A string without any is unchanged. |
| Text.TrimIdempotent | components/identifikacije/utils.ts:9-10 | Trimming twice is trimming once. |
| Text.TrimEmptyIffBlank | components/identifikacije/hooks/use-sheet-data.ts:12 | A text trims to "" exactly when it is all white space. |
| Text.BlankTrimStart | components/identifikacije/hooks/use-sheet-data.ts:12 | An all-white-space text trims to "" from the start and overall. |
| Text.OccursInConcat | components/identifikacije/hooks/use-document-generator.ts:211-218 | An occurrence survives text appended after it. Text put before it shifts it by that text's length. |
| Text.OccursInSuffix | components/identifikacije/hooks/use-document-generator.ts:215-217 | An occurrence at or after a cut point is an occurrence in the text after the cut, shifted. |
| Text.IndexOfFrom | components/identifikacije/hooks/use-document-generator.ts:245 | `indexOf` gives the first occurrence at or after the start, or none when no occurrence exists. |
| Text.ContainsIff | components/identifikacije/utils.ts:18 | `includes` holds exactly when some occurrence exists. |
| Text.StartsOrEndsImpliesContains | components/identifikacije/utils.ts:13-18 | A prefix or a suffix is contained. |
| Text.IndexOfChar | components/identifikacije/hooks/use-sheet-data.ts:15 | The first index of a character at or after a position, or none. |
| Text.IndexOfCharIs | components/identifikacije/hooks/use-sheet-data.ts:15 | The first index is the one with no earlier match. |
| Text.Split | components/identifikacije/hooks/use-sheet-data.ts:15 | `split` gives at least one piece, and no piece holds the separator. |
| Text.JoinSplit | components/identifikacije/hooks/use-sheet-data.ts:26 | Joining the pieces of a split with the same separator gives the text back. |
| Text.SplitJoin | components/identifikacije/utils.ts:104-106 | Splitting a join of separator-free pieces gives the pieces back. |
| Text.FirstWhitespace | components/identifikacije/utils.ts:24-25 | The first white-space character at or after a position, or none. |
| Text.SkipWhitespace | components/identifikacije/utils.ts:24-25 | The end of the white-space run at a position. |
| Text.SplitWhitespace | components/identifikacije/utils.ts:24-25 | `split(/\s+/)` gives at least one word, and no word holds white space. |
| Text.CollapseWhitespace | components/identifikacije/hooks/use-file-processing.ts:52 | Collapsing never lengthens the text. |
| Text.CollapseWhitespaceCollapses | components/identifikacije/hooks/use-file-processing.ts:52 | After collapsing, every white-space character is a single space with no white space after it. |
| Text.CollapseHead | components/identifikacije/hooks/use-file-processing.ts:92 | Collapsing keeps a leading character that is not white space. |
| Text.CollapseWhitespaceIdempotent | components/identifikacije/hooks/use-file-processing.ts:92 | Collapsing an already collapsed text changes nothing. |
| Text.RemoveChars | components/identifikacije/hooks/use-file-processing.ts:72 | No removed character is left. A text without any is unchanged. |
| Text.StripTags | components/identifikacije/hooks/use-file-processing.ts:125 | Tag stripping never lengthens the text. |
| Text.StripTagsLeavesNoTag | components/identifikacije/hooks/use-file-processing.ts:125 | After stripping, no `<` is followed by a `>`. |
| Text.StripTagsNoMarkup | components/identifikacije/hooks/use-file-processing.ts:139 | A text without `<` is unchanged. |
| Text.RemoveCharsConcat | components/identifikacije/hooks/use-file-processing.ts:126 | Removing characters distributes over concatenation. |
| Text.StripTagsChars | components/identifikacije/hooks/use-file-processing.ts:125 | Stripping only removes characters. |
| Text.StripTagsPrepend | components/identifikacije/hooks/use-file-processing.ts:125 | Text without `<` in front passes through unchanged. |
| Text.StripTagsAppend | components/identifikacije/hooks/use-file-processing.ts:125 | A tail without `<` or `>` passes through unchanged. |
| Text.DigitChar | components/identifikacije/utils.ts:172 | The printed digit reads back as its value. |
| Text.LeadingDigits | components/identifikacije/utils.ts:163 | The longest run of digits at the start. |
| Text.NatToString | components/identifikacije/utils.ts:172 | A printed number is digits without a leading zero. |
| Text.NatToStringValue | components/identifikacije/utils.ts:172 | Printed digits read back as the number. |
| Text.ParsePrintedInt | components/identifikacije/utils.ts:163-172 | `parseInt` reads back a printed integer, whatever non-digit text follows. |
| Text.ParsePrintedNat | components/identifikacije/utils.ts:163-172 | The same round trip for a natural number, digit by digit. |
| Text.LeadingDigitsOf | components/identifikacije/utils.ts:163 | The leading digits of digits followed by a non-digit are those digits. |
| Text.ParseLeadingInt | components/identifikacije/utils.ts:163 | Definition of `parseInt(…, 10)`: an optional sign, then the leading digits; nothing when there are none. Text.ParsePrintedInt, Text.ParseNegated and Text.ParseNoLeadingDigit state its meaning. |
| Text.ParseNoLeadingDigit | components/identifikacije/utils.ts:163-166 | A text whose first character is neither a sign nor a digit parses to nothing (`NaN`). |
| Text.ParseNegated | components/identifikacije/utils.ts:163 | A minus sign, the decimal digits of a positive number and a non-digit rest parse to the negated number. |
| Text.IntToString | components/identifikacije/utils.ts:172 | Definition of printing an integer in decimal, with a minus sign when negative. Text.ParsePrintedInt states that `parseInt` reads the printed number back. |
| Text.IndexOfFromOccurs | components/identifikacije/hooks/use-document-generator.ts:245 | A position `indexOf` returns is an occurrence. |
| Text.IndexOfFromFirst | components/identifikacije/hooks/use-document-generator.ts:245 | `indexOf` returns the first occurrence at or after the start, and nothing only when there is no occurrence there. |
| Text.SplitCons | components/identifikacije/hooks/use-sheet-data.ts:15 | Splitting a part without the separator, then the separator, then a rest gives that part followed by the split of the rest. |
| Text.TrimOffset | components/identifikacije/utils.ts:9-10 | The trimmed text is a slice of the original. |
| Text.LowerTrimLower | components/identifikacije/utils.ts:9-10 | Lower-casing after trimming a lower-cased text changes nothing. |
| Text.LowerCharIdempotent | components/identifikacije/utils.ts:9-10 | Lower-casing a character twice is lower-casing it once. |
| Text.StripTagsCons | components/identifikacije/hooks/use-file-processing.ts:125 | A character other than `<` in front of a text survives tag stripping, and the rest is stripped as before. |
| Levenshtein.Min3 | components/identifikacije/utils.ts:58-62 | `Math.min` of three values is one of them and no larger than any. |
| Levenshtein.DistAtMostLonger | components/identifikacije/utils.ts:52-64 | The distance is at most the longer length. |
| Levenshtein.DistZeroIffEqual | components/identifikacije/utils.ts:52-64 | The distance is 0 exactly for equal strings. |
| Levenshtein.DistSymmetric | components/identifikacije.tsx:91-103 | The distance does not depend on the order of the strings. |
| Levenshtein.EditDistanceFacts | components/identifikacije/utils.ts:68 | It is bounded by the longer length, 0 exactly for equal strings, and symmetric. |
| Levenshtein.ComputeEditDistance | components/identifikacije/utils.ts:48-68 | Each matrix cell (i, j) holds the distance of the first i and j characters, so the corner is the edit distance. |
| Levenshtein.Dist | components/identifikacije/utils.ts:52-64 | Definition of the matrix cell `matrix[i][j]`: the edit distance of the first `i` and `j` characters. Levenshtein.DistAtMostLonger, Levenshtein.DistZeroIffEqual and Levenshtein.DistSymmetric state its properties. |
| Levenshtein.FillRow | components/identifikacije/utils.ts:56-63 | The inner loop fills row `i` with the edit distances of the prefixes, given the filled row above, and leaves every other row unchanged. |
| Scorer.CommonPrefixLength | components/identifikacije/utils.ts:71-75 | The strings agree on that many leading characters and differ just after. |
| Scorer.CommonPrefixBounds | components/identifikacije/utils.ts:71-75 | Counting on from an agreed prefix reaches the longest common prefix. |
| Scorer.StringSimilarity | components/identifikacije/utils.ts:7-84 | The early-return computation gives the tiered score. |
| Scorer.MatchWords | components/identifikacije/utils.ts:28-41 | The nested word loops give the word tier: 0.7 for an equal word, 0.6 for a prefix or suffix, skipping placeholder words under 3 characters. |
| Scorer.CountCommonPrefix | components/identifikacije/utils.ts:71-75 | The counter loop gives the common prefix length. |
| Scorer.SimilarityNormalized | components/identifikacije/utils.ts:9-10 | The score depends only on the lower-cased, trimmed inputs. |
| Scorer.NormalizeIdempotent | components/identifikacije/utils.ts:9-10 | Normalising twice is normalising once. |
| Scorer.PrefixTierCases | components/identifikacije/utils.ts:13-16 | Identical strings score 0.9, and so does an empty placeholder against any header. |
| Scorer.SimilarityTiers | components/identifikacije/utils.ts:13-83 | The tiers are 0.9 for a prefix or suffix, 0.8 for containment, then the word tier, then the Levenshtein fallback, in that order. |
| Scorer.SimilarityBounds | components/identifikacije/utils.ts:44-83 | Every score lies in [0.3, 0.9]. The both-empty guard cannot be reached. |
| Scorer.FallbackRange | components/identifikacije/utils.ts:44-83 | Past the first tiers the denominator is positive and the fallback lies in [0.3, 0.5). |
| Scorer.RatioInUnit | components/identifikacije/utils.ts:79-80 | A positive distance over a denominator no smaller lies in (0, 1]. |
| Scorer.WordTierValues | components/identifikacije/utils.ts:28-41 | The word tier answers 0.7 or 0.6, exactly when some long enough placeholder word is matched by some header word. |
| Scorer.WordMatchValues | components/identifikacije/utils.ts:31-39 | One placeholder word gets 0.7 only when the word itself is present, and an answer exactly when some header word matches. |
| Scorer.Asymmetric | components/identifikacije/utils.ts:13-21 | ("ime", "ime otroka") scores 0.9 but the swapped pair scores 0.7. |
| Scorer.ExampleWords | components/identifikacije/utils.ts:24-25 | The example names split into the expected words. |
| Scorer.SingleWord | components/identifikacije/utils.ts:24-25 | A string of letters is one word. |
| Scorer.NormalizeLowerTrimmed | components/identifikacije/utils.ts:9-10 | A lower-case string without surrounding spaces is already normalised. |
| Scorer.Similarity | components/identifikacije/utils.ts:7-84 | Definition of `stringSimilarity`: the prefix/suffix tier, the containment tier, the word tiers, then the edit-distance fallback. Scorer.SimilarityTiers, Scorer.SimilarityBounds and Scorer.Asymmetric state its properties. |
| Scorer.Normalize | components/identifikacije/utils.ts:9-10 | Definition of lower-casing and trimming. Scorer.NormalizeIdempotent and Scorer.NormalizeLowerTrimmed state its properties. |
| Scorer.ExampleSplit | components/identifikacije/utils.ts:24-25 | Splitting "ime otroka" on white space gives "ime" and "otroka". |
| Scorer.ExampleNormalized | components/identifikacije/utils.ts:9-10 | "ime otroka" is already normalised. |
| Formatters.CapitalizeWords | components/identifikacije/utils.ts:105 | Every word is capitalised on its own. |
| Formatters.ApplyPlaceholderCasing | components/identifikacije/utils.ts:92-112 | Casing keeps the length. Capitals give an upper-case value, title form gives title case word by word, and anything else gives lower case. |
| Formatters.TitleCaseRef | components/identifikacije/utils.ts:103-106 | A character is upper-cased when it starts the text or follows a space, and lower-cased otherwise. |
| Formatters.TitleCaseIsPointwise | components/identifikacije/utils.ts:103-106 | Split, capitalise and join agrees with the character-by-character rule. |
| Formatters.CapitalizeJoin | components/identifikacije/utils.ts:103-106 | Capitalising space-free pieces and joining is title-casing the joined text. |
| Formatters.TitleCaseRefConcat | components/identifikacije/utils.ts:103-106 | Title-casing around a space is title-casing each side. |
| Formatters.CapitalizeWordIsRef | components/identifikacije/utils.ts:105 | One capitalised word is its title case. |
| Formatters.CasingExamples | components/identifikacije/utils.ts:92-112 | "Rebeka" becomes REBEKA, Rebeka and rebeka under {IME}, {Ime} and {ime}. |
| Formatters.CasingIdempotent | components/identifikacije/utils.ts:92-112 | Applying the same casing twice is applying it once. |
| Formatters.PrimaryValue | components/identifikacije/utils.ts:129-136 | A non-empty primary value comes from a set header. |
| Formatters.FormattedTelefonValue | components/identifikacije/utils.ts:122-151 | Without a secondary field the result is the primary value. Otherwise both values give "p / s", and one value alone is kept as it is. |
| Formatters.TelefonSeparator | components/identifikacije/utils.ts:142-143 | With both numbers present, the result splits back at " / " into the two numbers. |
| Formatters.FormattedRazredValue | components/identifikacije/utils.ts:159-173 | A blank value gives "", and a value `parseInt` cannot read stays as it is. 0 gives "Predšolski", and n gives "n. razred". |
| Formatters.RazredLabel | components/identifikacije/utils.ts:163-172 | A printed grade formats to its label, and the label reads back as the grade. |
| Formatters.PrintedIntTrimmed | components/identifikacije/utils.ts:160-163 | A printed number, and the label built on it, is already trimmed. |
| Formatters.RazredIdempotent | components/identifikacije/utils.ts:159-173 | Formatting a grade twice is formatting it once. |
| Formatters.UpperExample | components/identifikacije/utils.ts:94-95 | An all-upper-case placeholder upper-cases the value. |
| Formatters.TitleExample | components/identifikacije/utils.ts:98-106 | A title-case placeholder capitalises each word of the value. |
| Formatters.LowerExample | components/identifikacije/utils.ts:109-110 | Any other placeholder lower-cases the value. |
| Formatters.PrintedIntEnds | components/identifikacije/utils.ts:172 | A printed number is non-empty and has no white space at either end. |
| Formatters.PreschoolFixed | components/identifikacije/utils.ts:166-169 | Formatting "Predšolski" returns it unchanged, because it does not parse as a number. |
| Formatters.LabelFixed | components/identifikacije/utils.ts:163-172 | A formatted grade label "n. razred" with `n` non-zero formats to itself. |
| PlaceholderMap.Keys | components/identifikacije/hooks/use-file-processing.ts:152 | The names, in insertion order. |
| PlaceholderMap.Get | components/identifikacije/hooks/use-document-generator.ts:111-112 | `get` finds an entry with that name, and nothing for an absent name. |
| PlaceholderMap.Set | components/identifikacije/hooks/use-file-processing.ts:75 | Setting a present name keeps the key order. A new name is appended. |
| PlaceholderMap.GetSet | components/identifikacije/hooks/use-file-processing.ts:75 | After setting, the name reads back the new token and other names are unaffected. |
| PlaceholderMap.SetDistinct | components/identifikacije/hooks/use-file-processing.ts:75 | Setting keeps the names distinct. |
| PlaceholderMap.SetEntries | components/identifikacije/hooks/use-file-processing.ts:75 | Every entry after a set is the new one or an old one. |
| SheetData.Delimiter | components/identifikacije/hooks/use-sheet-data.ts:22-23 | Tab exactly when the first line holds one, comma otherwise. |
| SheetData.RowOf | components/identifikacije/hooks/use-sheet-data.ts:29-35 | The record has exactly the headers as keys. |
| SheetData.Lines | components/identifikacije/hooks/use-sheet-data.ts:15 | The trimmed text splits into at least one line. |
| SheetData.ParseSheet | components/identifikacije/hooks/use-sheet-data.ts:10-46 | Blank exactly for white-space text. Otherwise there is one row per line after the first, each keyed by all headers. |
| SheetData.BuildRow | components/identifikacije/hooks/use-sheet-data.ts:29-35 | The reduction loop builds the record of the headers. |
| SheetData.SheetState.constructor | components/identifikacije/hooks/use-sheet-data.ts:5-8 | Empty text, headers, rows and error. |
| SheetData.SheetState.SetSheetData | components/identifikacije/hooks/use-sheet-data.ts:5 | Only the text changes. |
| SheetData.SheetState.ParseSheetData | components/identifikacije/hooks/use-sheet-data.ts:10-46 | Returns true exactly on a parse. Blank input touches nothing, one line sets the message, and a parse sets headers and rows and clears the error. |
| SheetData.TooFewIff | components/identifikacije/hooks/use-sheet-data.ts:15-19 | Too little data exactly when the trimmed text is non-empty and has no line break. |
| SheetData.HeadersOfFirstLine | components/identifikacije/hooks/use-sheet-data.ts:22-26 | Headers are the untrimmed pieces of the first line, with duplicates kept. They join back to that line. |
| SheetData.RowOfCell | components/identifikacije/hooks/use-sheet-data.ts:29-35 | A header's cell is its last column's value, or "" past the line's end. |
| SheetData.RowsOfLines | components/identifikacije/hooks/use-sheet-data.ts:27-36 | Row i is built from line i + 1, blank lines included. |
| SheetData.Rows | components/identifikacije/hooks/use-sheet-data.ts:27-36 | Definition of the rows built from the data lines. There is one row per data line. |
| SheetData.RowAt | components/identifikacije/hooks/use-sheet-data.ts:29-35 | Row `i` is the row built from data line `i`. |
| SheetData.ExtractRows | components/identifikacije/hooks/use-sheet-data.ts:27-36 | The row loop over the lines after the header line builds exactly the rows Rows defines. |
| SheetData.ParsedRowsKeyed | components/identifikacije/hooks/use-sheet-data.ts:22-36 | After a parse, every row has exactly the headers as its keys. |
| Extraction.NextBrace | components/identifikacije/hooks/use-file-processing.ts:55 | The first brace at or after a position, or none. |
| Extraction.BraceSpans | components/identifikacije/hooks/use-file-processing.ts:55-56 | Definition of the matches of the brace regular expression, scanned left to right. Extraction.BraceSpanAt, Extraction.BraceSpansFacts and Extraction.BraceSpansIncreasing state that they are brace-free spans without overlap. |
| Extraction.BraceSpansHead | components/identifikacije/hooks/use-file-processing.ts:135-136 | A brace-free span at the scan position is the first match. |
| Extraction.NextBraceAt | components/identifikacije/hooks/use-file-processing.ts:55 | The next brace is the one with no brace before it. |
| Extraction.DocxName | components/identifikacije/hooks/use-file-processing.ts:61-81 | With text runs, the span has a name exactly when the joined runs, trimmed and brace-stripped, are non-empty, and that is the name. A span without a run is its own text minus braces. No brace remains. |
| Extraction.ExtractDocx | components/identifikacije/hooks/use-file-processing.ts:52-82 | The DOCX loop builds the DOCX placeholder map. |
| Extraction.OpenBraces | components/identifikacije/hooks/use-file-processing.ts:96-101 | Exactly the positions of `{`, in order. |
| Extraction.CloseIndex | components/identifikacije/hooks/use-file-processing.ts:105-117 | Where the brace count returns to 0, which is a `}`. |
| Extraction.BalancedToken | components/identifikacije/hooks/use-file-processing.ts:119-121 | The token at a `{` ends with its matching `}` and occurs there. |
| Extraction.OdtName | components/identifikacije/hooks/use-file-processing.ts:124-126 | A name with tags and braces removed holds no brace. |
| Extraction.ExtractOdt | components/identifikacije/hooks/use-file-processing.ts:92-143 | The ODT loops build the ODT placeholder map. |
| Extraction.CollectOpenBraces | components/identifikacije/hooks/use-file-processing.ts:96-101 | The first loop collects the `{` positions. |
| Extraction.DepthScan | components/identifikacije/hooks/use-file-processing.ts:105-132 | The per-brace loop builds the depth map. |
| Extraction.DepthStep | components/identifikacije/hooks/use-file-processing.ts:106-131 | One brace adds its named token, or nothing. |
| Extraction.FallbackScan | components/identifikacije/hooks/use-file-processing.ts:135-143 | The fallback loop adds the names not yet present. |
| Extraction.FindClose | components/identifikacije/hooks/use-file-processing.ts:106-117 | The counting loop finds the closing index, or -1. |
| Extraction.ExtractTemplate | components/identifikacije/hooks/use-file-processing.ts:40-152 | Fails with "Could not extract content from document" exactly for empty content. Otherwise the placeholders are the map's keys in order. |
| Extraction.SpanTextIsToken | components/identifikacije/hooks/use-file-processing.ts:59 | A brace-free span's text is a DOCX token. |
| Extraction.DocxFoldDistinct | components/identifikacije/hooks/use-file-processing.ts:75-80 | The DOCX loop keeps names distinct. |
| Extraction.DepthFoldDistinct | components/identifikacije/hooks/use-file-processing.ts:129 | The depth loop keeps names distinct. |
| Extraction.DocxFoldTokens | components/identifikacije/hooks/use-file-processing.ts:58-81 | Every stored DOCX token is a brace span of the XML. |
| Extraction.DocxTokens | components/identifikacije/hooks/use-file-processing.ts:52-82 | Every DOCX raw token occurs in the collapsed XML, and names are distinct. |
| Extraction.CloseIndexBalanced | components/identifikacije/hooks/use-file-processing.ts:109-116 | The span closes where the depth first returns to 0. |
| Extraction.BalancedTokenIsToken | components/identifikacije/hooks/use-file-processing.ts:119-121 | The token of a `{` is an ODT token. |
| Extraction.CloseOfBraceFree | components/identifikacije/hooks/use-file-processing.ts:109-116 | A brace-free span closes at its own `}`. |
| Extraction.NameOfBraceFree | components/identifikacije/hooks/use-file-processing.ts:124-126 | For a brace-free span the depth scan's name is the fallback's name. |
| Extraction.DepthAddHas | components/identifikacije/hooks/use-file-processing.ts:128-130 | One step keeps every name and adds its own. |
| Extraction.DepthFoldHas | components/identifikacije/hooks/use-file-processing.ts:105-132 | Every named `{` has its name in the depth map. |
| Extraction.FallbackFoldNoop | components/identifikacije/hooks/use-file-processing.ts:138-143 | The fallback adds nothing when every name it finds is present. |
| Extraction.OdtFallbackAddsNothing | components/identifikacije/hooks/use-file-processing.ts:134-143 | The fallback never adds a placeholder: the ODT map equals the depth map. |
| Extraction.DepthFoldTokens | components/identifikacije/hooks/use-file-processing.ts:119-130 | Every depth-scan token is an ODT token. |
| Extraction.OdtTokens | components/identifikacije/hooks/use-file-processing.ts:92-143 | Every ODT raw token occurs in the collapsed XML, and names are distinct. |
| Extraction.BraceSpanAt | components/identifikacije/hooks/use-file-processing.ts:55-56 | Each match of the brace expression is brace-free inside, starts at or after the scan start, and is non-empty where empty matches are not allowed. |
| Extraction.BraceSpansFacts | components/identifikacije/hooks/use-file-processing.ts:55-56 | The same three facts, for all matches at once. |
| Extraction.BraceSpansIncreasing | components/identifikacije/hooks/use-file-processing.ts:55-56 | The matches are left to right without overlap. |
| Extraction.TextRuns | components/identifikacije/hooks/use-file-processing.ts:63-64 | Definition of the `<w:t …>…</w:t>` runs inside a match, left to right. Extraction.DocxName states how the readable name is built from them. |
| Extraction.DocxFoldStep | components/identifikacije/hooks/use-file-processing.ts:58-81 | One step of the DOCX loop adds the name of the next match to the map built so far. |
| Extraction.DocxMap | components/identifikacije/hooks/use-file-processing.ts:52-82 | Definition of the DOCX name-to-token map. Extraction.DocxTokens (soundness), Extraction.DocxMapHas (completeness) and Extraction.DocxFoldDistinct state its properties. |
| Extraction.DocxAddHas | components/identifikacije/hooks/use-file-processing.ts:74-81 | A DOCX step keeps every name already in the map and adds the span's name when it has one. |
| Extraction.DocxFoldHas | components/identifikacije/hooks/use-file-processing.ts:58-82 | Every span with a name has that name in the map after the loop. |
| Extraction.DocxMapHas | components/identifikacije/hooks/use-file-processing.ts:52-82 | Completeness of the DOCX scan: every brace match of the collapsed XML that has a name ends up in the map under that name. |
| Extraction.DepthMap | components/identifikacije/hooks/use-file-processing.ts:105-132 | Definition of the brace-depth scan map. Extraction.DepthFoldTokens and Extraction.DepthFoldHas state its properties. |
| Extraction.OdtMap | components/identifikacije/hooks/use-file-processing.ts:92-143 | Definition of the ODT map: the depth scan, then the fallback. Extraction.OdtTokens and Extraction.OdtFallbackAddsNothing state its properties. |
| Extraction.DocumentContent | components/identifikacije/hooks/use-file-processing.ts:40-89 | Definition of the XML the upload reads: `word/document.xml` of a `.docx`, `content.xml` of an `.odt`, otherwise nothing. Extraction.ExtractTemplate states that an empty one is the no-content error. |
| Mappings.BestHeader | components/identifikacije/hooks/use-file-processing.ts:161-170 | The strict-improvement loop gives the best header. |
| Mappings.InitialMappings | components/identifikacije/hooks/use-file-processing.ts:159-177 | One initial mapping per placeholder, in order. |
| Mappings.BestByIsMaximal | components/identifikacije/hooks/use-file-processing.ts:164-170 | No header scores more than the chosen one. |
| Mappings.BestByIsFirst | components/identifikacije/hooks/use-file-processing.ts:164-170 | With positive scores the choice is a header with its own score, and every earlier header scores less. Ties go to the first. |
| Mappings.BestOfIsFirstArgmax | components/identifikacije/hooks/use-file-processing.ts:159-177 | With headers, a placeholder is mapped to a header of its own similarity score, and every earlier header scores strictly less: ties go to the first. |
| Mappings.BestOfIsMaximal | components/identifikacije/hooks/use-file-processing.ts:159-177 | No header is more similar to the placeholder than the one it is mapped to. |
| Mappings.BestOfBounds | components/identifikacije/hooks/use-file-processing.ts:159-177 | With no header the mapping is "" at 0; with headers there is no threshold: the mapping is always one of them, scoring in [0.3, 0.9]. |
| Mappings.BestByIsFirstArgmax | components/identifikacije/hooks/use-file-processing.ts:164-170 | For any scoring between bounds `lo > 0` and `hi`, the choice is the first header of greatest score and its score lies between the bounds. |
| Mappings.TelefonPlaceholders | components/identifikacije/hooks/use-file-processing.ts:179-181 | Exactly the placeholders containing "telefon", case-insensitively. |
| Mappings.AssignedHeaders | components/identifikacije/hooks/use-file-processing.ts:186-188 | Exactly the non-empty headers of the mappings. |
| Mappings.AvailableHeaders | components/identifikacije/hooks/use-file-processing.ts:191-193 | Exactly the headers not taken. |
| Mappings.InferSecondary | components/identifikacije/hooks/use-file-processing.ts:179-239 | With at least one phone placeholder, and a best candidate from SecondaryOf over the unassigned headers whose score is above 0.4, phone handling is enabled with that header as the secondary field. In every other case the settings are unchanged. |
| Mappings.SecondarySearch | components/identifikacije/hooks/use-file-processing.ts:196-226 | The nested loops over the unassigned headers and the phone placeholders end with the header and score that SecondaryOf defines. |
| Mappings.InferSecondaryField | components/identifikacije/hooks/use-file-processing.ts:179-239 | The inference as the source runs it, with its loops, gives exactly the settings InferSecondary describes. |
| Mappings.WeightedFoldBelowKeyword | components/identifikacije/hooks/use-file-processing.ts:217-224 | A weighted similarity is at most 0.63, so it never displaces a keyword header. |
| Mappings.SecondaryBeforeKeyword | components/identifikacije/hooks/use-file-processing.ts:215-224 | Without keyword headers the best stays at most 0.63. |
| Mappings.SecondaryAfterKeyword | components/identifikacije/hooks/use-file-processing.ts:208-214 | Once a keyword header is taken at 0.8, nothing displaces it. |
| Mappings.FirstKeywordWins | components/identifikacije/hooks/use-file-processing.ts:199-226 | The first keyword candidate wins, at 0.8. |
| Mappings.SecondaryIsCandidate | components/identifikacije/hooks/use-file-processing.ts:196-226 | The chosen secondary header is "" or one of the candidates. |
| Mappings.SecondaryUnassigned | components/identifikacije/hooks/use-file-processing.ts:186-237 | A secondary field that is set is a header no mapping uses. |
| Mappings.KeywordHeaderApplied | components/identifikacije/hooks/use-file-processing.ts:179-238 | With a phone placeholder, the first unassigned keyword header becomes the secondary field and phone handling is enabled. |
| Mappings.UpdateMapping | components/identifikacije/hooks/use-file-processing.ts:250-257 | Only entry i's header changes. Its placeholder and similarity stay, and so do all other entries. |
| Mappings.ReadTemplate | components/identifikacije/hooks/use-file-processing.ts:40-145 | The content read is empty exactly when extraction fails. Otherwise the map is the extracted one. |
| Mappings.FileProcessing.constructor | components/identifikacije/hooks/use-file-processing.ts:10-24 | The initial hook state, including the default settings. |
| Mappings.FileProcessing.HandleFileUpload | components/identifikacije/hooks/use-file-processing.ts:26-248 | The template is recorded. When the document is empty, the error is "Error processing file: " plus the no-content message, and placeholders, map, mappings, settings and step are unchanged. Otherwise the error is cleared, the step is review, and placeholders, map, mappings and settings are those of UploadOf. |
| Mappings.FileProcessing.UpdateMappingAt | components/identifikacije/hooks/use-file-processing.ts:250-257 | The mappings become `updateMapping` of the old ones; placeholders, map, settings, error, template and step are all unchanged. |
| Mappings.UploadPlaceholdersDistinct | components/identifikacije/hooks/use-file-processing.ts:152 | The uploaded placeholder list has no duplicates. |
| Mappings.BestBy | components/identifikacije/hooks/use-file-processing.ts:161-170 | Definition of the best-header loop as a fold: a strictly higher score takes over. Mappings.BestByIsMaximal, Mappings.BestByIsFirst and Mappings.BestByIsFirstArgmax state its meaning. |
| Mappings.BestOfStep | components/identifikacije/hooks/use-file-processing.ts:164-169 | One iteration of the best-header loop: a strictly higher score replaces the best so far, and otherwise nothing changes. |
| Mappings.SimilarityScoreBounds | components/identifikacije/hooks/use-file-processing.ts:161-170 | Every header scores between 0.3 and 0.9 against a placeholder. |
| Mappings.SecondaryOf | components/identifikacije/hooks/use-file-processing.ts:196-226 | Definition of the secondary search: for each unassigned header, a keyword match scores 0.8, which no later header can beat, so the first keyword header wins; otherwise 0.7 times the best similarity to a phone placeholder is kept when strictly higher. Mappings.FirstKeywordWins and Mappings.SecondaryOfWithoutKeywords state its meaning. |
| Mappings.WeightedSearch | components/identifikacije/hooks/use-file-processing.ts:215-224 | The inner loop over the phone placeholders gives the fold over their weighted scores. |
| Mappings.WeightedFoldStep | components/identifikacije/hooks/use-file-processing.ts:216-223 | One iteration of the inner loop: a strictly higher weighted score takes over. |
| Mappings.ScoresOf | components/identifikacije/hooks/use-file-processing.ts:216-217 | The weighted scores of one header: 0.7 times its similarity to each phone placeholder. |
| Mappings.ScoreTable | components/identifikacije/hooks/use-file-processing.ts:196-224 | The weighted scores of every candidate header, one row per header. |
| Mappings.WeightedFoldIsFoldMax | components/identifikacije/hooks/use-file-processing.ts:215-224 | The inner loop is a running maximum over the weighted scores of the header. |
| Mappings.SecondaryOfIsTableMax | components/identifikacije/hooks/use-file-processing.ts:196-226 | Without keyword headers, the secondary search is a running maximum over the score table. |
| Mappings.FoldMaxFacts | components/identifikacije/hooks/use-file-processing.ts:215-224 | A running maximum is at least its start and every score. It equals the start exactly when no score is higher. Otherwise it holds the header and one of the scores. |
| Mappings.TableMaxBounds | components/identifikacije/hooks/use-file-processing.ts:196-226 | The table maximum is at least every score and at least 0, and is the empty result when no score is positive. |
| Mappings.TableMaxFirst | components/identifikacije/hooks/use-file-processing.ts:196-226 | A non-empty table maximum is one of the cells, and no earlier row has a score that reaches it. |
| Mappings.WeightedFoldMax | components/identifikacije/hooks/use-file-processing.ts:215-224 | The inner loop ends with a score at least the start and every weighted score. It keeps the start exactly when no weighted score is higher, and otherwise holds this header and one of its weighted scores. |
| Mappings.SecondaryOfMaximal | components/identifikacije/hooks/use-file-processing.ts:196-226 | Without keyword headers, the chosen score is at least 0.7 times the similarity of every candidate header to every phone placeholder. |
| Mappings.SecondaryOfNothing | components/identifikacije/hooks/use-file-processing.ts:196-226 | Without keyword headers, nothing is chosen exactly when no weighted score is positive. |
| Mappings.SecondaryOfFirstMax | components/identifikacije/hooks/use-file-processing.ts:196-226 | Without keyword headers, a chosen header is the first candidate that reaches the maximal weighted score (strict improvement only). |
| Mappings.SecondaryOfWithoutKeywords | components/identifikacije/hooks/use-file-processing.ts:196-226 | The three facts above together: maximal, nothing chosen exactly when no score is positive, and the first candidate that reaches the maximum. |
| Mappings.UploadOf | components/identifikacije/hooks/use-file-processing.ts:40-242 | Definition of the whole upload as a value: the extraction, the initial mappings and the inferred settings, or the no-content error. Mappings.UploadOfMeaning states its meaning. |
| Mappings.UploadOfMeaning | components/identifikacije/hooks/use-file-processing.ts:40-242 | The upload fails exactly when the document is empty, with the no-content message. Otherwise it holds the extracted placeholders and map, the initial mapping of every placeholder, and the inferred settings. |
| Mappings.ScanUpload | components/identifikacije/hooks/use-file-processing.ts:40-238 | The computation of the upload, with its loops, succeeds exactly when UploadOf does and then gives its result. |
| Mappings.FileProcessing.Commit | components/identifikacije/hooks/use-file-processing.ts:151-242 | The success path sets the template, placeholders, map, mappings and settings, clears the error and moves to review. |
| Mappings.FileProcessing.Reject | components/identifikacije/hooks/use-file-processing.ts:244-246 | The failure path records the template and sets the prefixed error, and changes nothing else. |
| Adapters.DialectOf | components/identifikacije/hooks/use-document-generator.ts:336-354 | DOCX exactly for a `.docx` name; ODT for an `.odt` name that is not `.docx`. |
| Adapters.LastIndexBelow | components/identifikacije/hooks/use-document-generator.ts:246 | The last occurrence below a bound, with none after it. |
| Adapters.LastIndexOf | components/identifikacije/hooks/use-document-generator.ts:246 | `lastIndexOf`: the last occurrence, or none. |
| Adapters.JsSubstring | components/identifikacije/hooks/use-document-generator.ts:253-255 | `substring` clamps both ends and swaps them when out of order. |
| Adapters.ExtractDocumentParts | components/identifikacije/hooks/use-document-generator.ts:237-257 | Fails with "Could not locate document body" exactly when a marker is missing. |
| Adapters.SplitAt | components/identifikacije/hooks/use-document-generator.ts:252-256 | The prefix ends with the opening marker and the suffix starts with the closing one. In order, the three parts rejoin. |
| Adapters.SplitRejoins | components/identifikacije/hooks/use-document-generator.ts:273-293 | For both formats: the prefix ends with the marker and the suffix starts with the closing marker. With the markers in order, prefix + content + suffix is the XML. |
| Adapters.ContentEntry | components/identifikacije/hooks/use-document-generator.ts:242-278 | Definition of the archive entry holding the document XML: `word/document.xml` for DOCX, `content.xml` for ODT. |
| Adapters.PageBreak | components/identifikacije/hooks/use-document-generator.ts:259-296 | Definition of `getPageBreak`: the DOCX page-break paragraph and the ODT soft page break, as constants. |
| Adapters.DocxSplit | components/identifikacije/hooks/use-document-generator.ts:237-257 | A DOCX split has a prefix that ends with `<w:body>` and a suffix that starts with `</w:body>`. When the body tags do not overlap, prefix, body and suffix rejoin to the XML. |
| Adapters.OdtSplit | components/identifikacije/hooks/use-document-generator.ts:273-293 | The same for ODT with `<office:text>` and `</office:text>`. |
| Adapters.OdtParts | components/identifikacije/hooks/use-document-generator.ts:273-293 | The ODT text opening tag is searched for after `<office:body>`. The parts are the substrings around it and the last closing tag. |
| Merge.RawToken | components/identifikacije/hooks/use-document-generator.ts:111-112 | The map's token, or `{p}` when it is absent or empty. It is never empty. |
| Merge.Matches | components/identifikacije/hooks/use-document-generator.ts:193 | Definition of `matchAll` on the escaped token: each match is searched for after the end of the previous one. Merge.MatchOccurs, Merge.MatchBounds, Merge.MatchesIncrease and the Merge.MatchesNone lemmas state its meaning. |
| Merge.MatchesOccur | components/identifikacije/hooks/use-document-generator.ts:114-119 | Every match is an occurrence of the token. |
| Merge.MatchesLeftmost | components/identifikacije/hooks/use-document-generator.ts:193 | No occurrence is skipped before, between or after the matches. |
| Merge.MatchesGap | components/identifikacije/hooks/use-document-generator.ts:193 | No occurrence starts between the end of one match and the start of the next. |
| Merge.MatchesOrdered | components/identifikacije/hooks/use-document-generator.ts:193 | The matches are ordered. |
| Merge.MappingDict | components/identifikacije/hooks/use-document-generator.ts:37-43 | The keys are exactly the mapped placeholders. |
| Merge.ProcessValue | components/identifikacije/hooks/use-document-generator.ts:125-167 | The grade rule when enabled and named, else the phone rule, else the cell with the placeholder's casing. |
| Merge.Filled | components/identifikacije/hooks/use-document-generator.ts:203-204 | One value per match while rows last. |
| Merge.PlaceholderStep | components/identifikacije/hooks/use-document-generator.ts:188-225 | An unmapped placeholder leaves the page alone. A filled page stays filled. |
| Merge.MinPositive | components/identifikacije/hooks/use-document-generator.ts:77-81 | The least positive count, or none when every count is 0. |
| Merge.Counts | components/identifikacije/hooks/use-document-generator.ts:106-123 | Each placeholder's count is its number of matches. |
| Merge.Advance | components/identifikacije/hooks/use-document-generator.ts:74-83 | The index always moves forward: by 1 after an unfilled page, and to the end without a positive count. |
| Merge.ProcessXml | components/identifikacije/hooks/use-document-generator.ts:47-90 | Fails exactly when the body split fails, with its message. |
| Merge.GenerateArchive | components/identifikacije/hooks/use-document-generator.ts:320-376 | The errors are "Template file is missing", the unsupported format, the missing entry and the missing body, all behind the "Error generating document: " prefix. On success only the document entry changes, to the processed XML. |
| Merge.DocumentProcessor.constructor | components/identifikacije/hooks/use-document-generator.ts:21-44 | The fields are stored and the mappings are reduced to the dictionary. |
| Merge.DocumentProcessor.GetPlaceholderCount | components/identifikacije/hooks/use-document-generator.ts:106-123 | Every placeholder, mapped or not, gets its number of matches. |
| Merge.DocumentProcessor.SmallestPositiveCount | components/identifikacije/hooks/use-document-generator.ts:77-81 | `Math.min` over the positive counts. |
| Merge.DocumentProcessor.ReplaceMatches | components/identifikacije/hooks/use-document-generator.ts:196-224 | The shifted-index loop replaces match i with the value of row idx + i while rows last. |
| Merge.DocumentProcessor.ReplacePlaceholders | components/identifikacije/hooks/use-document-generator.ts:169-232 | Each placeholder is handled in turn on the page the earlier ones left. |
| Merge.DocumentProcessor.Process | components/identifikacije/hooks/use-document-generator.ts:47-90 | The page loop builds prefix + merged pages + suffix. |
| Merge.SpliceOne | components/identifikacije/hooks/use-document-generator.ts:211-221 | Cutting before and after the shifted match and putting the value between advances the splice by one. The shift grows by the value's length minus the token's. |
| Merge.BuiltIdentity | components/identifikacije/hooks/use-document-generator.ts:211-218 | Putting back the token itself rebuilds the page prefix. |
| Merge.SplicedIdentity | components/identifikacije/hooks/use-document-generator.ts:211-218 | Replacing matches by the token gives the page back. |
| Merge.BuiltLength | components/identifikacije/hooks/use-document-generator.ts:221 | The spliced prefix's length follows the running shift. |
| Merge.SplicedLength | components/identifikacije/hooks/use-document-generator.ts:221 | The page grows by each value's length minus the token's. |
| Merge.BuiltPlacesValue | components/identifikacije/hooks/use-document-generator.ts:211-218 | Value k stands at match k's position plus the earlier growth. |
| Merge.SplicedKeepsTail | components/identifikacije/hooks/use-document-generator.ts:215-218 | The text after the last replaced match is kept. |
| Merge.SplicedKeepsLaterMatches | components/identifikacije/hooks/use-document-generator.ts:203-204 | Matches left when the rows run out stay, shifted by the growth. |
| Merge.ResumeBefore | components/identifikacije/hooks/use-document-generator.ts:215-217 | The kept text resumes no later than the next match. |
| Merge.ShiftedOccurrence | components/identifikacije/hooks/use-document-generator.ts:211-218 | An occurrence after the cut is shifted by the new prefix. |
| Merge.PlaceholderStepSplices | components/identifikacije/hooks/use-document-generator.ts:190-225 | A mapped placeholder with matches splices its values and marks the page filled. |
| Merge.PlaceholderStepFills | components/identifikacije/hooks/use-document-generator.ts:203-208 | Match k is filled from row idx + k. |
| Merge.MappingDictLastWins | components/identifikacije/hooks/use-document-generator.ts:37-43 | A placeholder takes the header of its last mapping. |
| Merge.PagesBounded | components/identifikacije/hooks/use-document-generator.ts:61-84 | Pages start at distinct rows within range, so there are never more pages than rows. |
| Merge.MergeFromBreaks | components/identifikacije/hooks/use-document-generator.ts:67-70 | Once output exists, every further page is preceded by one page break. |
| Merge.MergedLayout | components/identifikacije/hooks/use-document-generator.ts:61-84 | The body is the first page, then each later page after a break. |
| Merge.ZeroRows | components/identifikacije/hooks/use-document-generator.ts:57-87 | With no rows the output is exactly prefix + suffix. |
| Merge.MatchOccurs | components/identifikacije/hooks/use-document-generator.ts:193 | Every match is an occurrence of the token. |
| Merge.MatchBounds | components/identifikacije/hooks/use-document-generator.ts:193 | Every match lies inside the text, at or after the start of the search. |
| Merge.MatchesIncrease | components/identifikacije/hooks/use-document-generator.ts:193 | Matches do not overlap: each one ends before the next starts. |
| Merge.MatchesNoneBefore | components/identifikacije/hooks/use-document-generator.ts:193 | No occurrence is missed before the first match. |
| Merge.MatchesNoneBetween | components/identifikacije/hooks/use-document-generator.ts:193 | No occurrence is missed between two matches. |
| Merge.MatchesNoneAfter | components/identifikacije/hooks/use-document-generator.ts:193 | No occurrence is missed after the last match. |
| Merge.MatchesNext | components/identifikacije/hooks/use-document-generator.ts:193 | Searching after the end of match `k` finds match `k + 1`, or nothing after the last. |
| Merge.MatchesNextFirst | components/identifikacije/hooks/use-document-generator.ts:193 | The same for the first match. |
| Merge.Values | components/identifikacije/hooks/use-document-generator.ts:203-208 | The processed values of the rows from the page's first row, one per filled match. |
| Merge.ValueAt | components/identifikacije/hooks/use-document-generator.ts:206-208 | Value `i` is `processValue` of row `idx + i`. |
| Merge.ValueOfMatch | components/identifikacije/hooks/use-document-generator.ts:206-208 | Computing the value of one match gives value `i`. |
| Merge.Spliced | components/identifikacije/hooks/use-document-generator.ts:203-222 | Definition of the text with the first matches replaced by the values and the rest kept. Merge.SplicedLength, Merge.SplicedPlacesValue, Merge.SplicedKeepsTail and Merge.SplicedIdentity state its meaning. |
| Merge.FillMatches | components/identifikacije/hooks/use-document-generator.ts:203-222 | The fill loop, with its running offset, gives the spliced text of the filled matches. |
| Merge.BuiltEndsWithValue | components/identifikacije/hooks/use-document-generator.ts:211-218 | After `n` replacements, value `n - 1` sits at its match shifted by the growth of the earlier values. |
| Merge.BuiltKeepsOccurrence | components/identifikacije/hooks/use-document-generator.ts:211-221 | A later replacement keeps what earlier replacements put in. |
| Merge.SplicedPlacesValue | components/identifikacije/hooks/use-document-generator.ts:211-221 | Every value sits at its match, shifted by the growth of the earlier values. |
| Merge.PlaceholderStepPlaces | components/identifikacije/hooks/use-document-generator.ts:190-225 | After one placeholder's step, every filled value sits at its shifted match on the page. |
| Merge.PageAfter | components/identifikacije/hooks/use-document-generator.ts:169-232 | Definition of `replacePlaceholders`: the placeholders in order, each working on the page the earlier ones left. Merge.PlaceholderStepSplices and Merge.PlaceholderStepFills state each step. |
| Merge.MergeFrom | components/identifikacije/hooks/use-document-generator.ts:57-84 | Definition of the page loop: a page break before every page but the first, and the row index moved on by Advance. Merge.MergeFromBreaks, Merge.MergedLayout and Merge.PagesBounded state its meaning. |
| Merge.ProcessXmlParts | components/identifikacije/hooks/use-document-generator.ts:47-90 | A processed document is the prefix, the merged pages and the suffix. |
| Legacy.StringSimilarity | components/identifikacije.tsx:82-110 | The matrix computation gives 1 minus distance over the longer length, and 1 for two empty strings. |
| Legacy.LegacySimilarityFacts | components/identifikacije.tsx:82-110 | The score lies in [0, 1], is symmetric, and is 1 exactly for strings equal up to case. |
| Legacy.BestHeader | components/identifikacije.tsx:161-170 | The strict-improvement loop gives the best legacy header. |
| Legacy.InitialMappings | components/identifikacije.tsx:159-177 | Each placeholder gets its thresholded mapping, in order. |
| Legacy.BestByChosen | components/identifikacije.tsx:161-170 | The best score is at least 0. A score of 0 means no header. A positive score belongs to the first header reaching it. |
| Legacy.LegacyMappingThreshold | components/identifikacije.tsx:159-177 | The recorded score is the maximum in [0, 1]. The header is kept only above 0.5, and is then the first best header. |
| Legacy.AddName | components/identifikacije.tsx:152-154 | A set insertion keeps the names and adds the new one. |
| Legacy.NameFoldFacts | components/identifikacije.tsx:152-154 | The names are distinct and exactly those of the matches. |
| Legacy.LegacyPlaceholdersFacts | components/identifikacije.tsx:150-154 | Each name is non-empty and brace-free, and its braced form occurs in the document. Every match's name is listed, and none twice. |
| Legacy.InnerIsName | components/identifikacije.tsx:150 | The inside of a match is a non-empty brace-free name whose braced form occurs. |
| Legacy.Moved | components/identifikacije.tsx:189-205 | "up" and "down" swap with the neighbour and change nothing else. At the ends, or for any other direction, nothing changes. The result is always a permutation. |
| Legacy.Swapped | components/identifikacije.tsx:192-195 | The two entries are exchanged and the rest kept, so the list is a permutation of the old one. |
| Legacy.MoveUndo | components/identifikacije.tsx:189-205 | Moving up and then back down, or down and then back up, restores the list. |
| Legacy.Generate | components/identifikacije.tsx:218-289 | Fails exactly without a template, without the entry, or with a mapped placeholder and no row. Other formats come back unchanged, and otherwise only the document entry changes. |
| Legacy.GenerateMessage | components/identifikacije.tsx:286 | Every failure message carries the "Error generating document: " prefix. |
| Legacy.GrowthConstant | components/identifikacije.tsx:252 | n equal values grow the text by n times their length difference. |
| Legacy.ReplaceAllFacts | components/identifikacije.tsx:251-252 | Every occurrence is replaced: the value stands at occurrence k's shifted position, and the length changes per occurrence. Replacing a token by itself changes nothing. |
| Legacy.ReplaceAllLength | components/identifikacije.tsx:252 | The length changes by the difference per occurrence. |
| Legacy.ReplaceAllPlaces | components/identifikacije.tsx:252 | The value stands at the k-th occurrence's shifted position. |
| Legacy.FillUnmapped | components/identifikacije.tsx:248-254 | Placeholders without a header, or without a cell in the row, leave the document alone. |
| Legacy.FirstRowOnly | components/identifikacije.tsx:237 | Only the first row is read. |
| Legacy.Screen.constructor | components/identifikacije.tsx:33-43 | The initial screen state, on the paste step. |
| Legacy.Screen.SetSheetData | components/identifikacije.tsx:34 | Only the pasted text changes. |
| Legacy.Screen.ParseSheetData | components/identifikacije.tsx:46-79 | The table parser's rules, with the message "Not enough data - need at least headers and one row". |
| Legacy.Screen.HandlePaste | components/identifikacije.tsx:292-297 | It follows the three outcomes of the paste parser. Blank input changes nothing. Too few lines set the too-few error and keep headers and rows. A parse sets headers and rows, clears the error and moves to the upload step. The pasted text, placeholders, mappings and template are unchanged. |
| Legacy.Screen.HandleFileUpload | components/identifikacije.tsx:113-186 | Empty content sets the prefixed error. Otherwise the placeholders and thresholded mappings are set and the screen moves to review. |
| Legacy.Screen.MovePlaceholder | components/identifikacije.tsx:189-205 | Only the mappings change, by the move. |
| Legacy.Screen.UpdateMapping | components/identifikacije.tsx:208-215 | Only entry i's header changes. |
| Legacy.Screen.GenerateDocuments | components/identifikacije.tsx:218-289 | Returns the generated archive, or sets the error message. |
| Legacy.FillContent | components/identifikacije.tsx:248-254 | The `forEach` loop gives the filled document. Without a row it fails exactly when some placeholder is mapped. |
| Legacy.LegacySimilarity | components/identifikacije.tsx:82-110 | Definition of the legacy score: one minus the edit distance over the longer length, 1 for two empty strings. Legacy.LegacySimilarityFacts states its bounds. |
| Legacy.RatioFacts | components/identifikacije.tsx:105-109 | The ratio score lies between 0 and 1, and is 1 exactly when the distance is 0. |
| Legacy.LegacyMapping | components/identifikacije.tsx:159-177 | Definition of one initial mapping: the best header when its score is above 0.5, otherwise none. Legacy.LegacyMappingThreshold states its meaning. |
| Legacy.LegacyPlaceholders | components/identifikacije.tsx:150-154 | Definition of the placeholder names in first-occurrence order without repeats. Legacy.LegacyPlaceholdersFacts states its meaning. |
| Legacy.AddNameNoRepeats | components/identifikacije.tsx:152-154 | Adding a name to a list without repeats keeps it without repeats. |
| Legacy.NameFoldNoRepeats | components/identifikacije.tsx:152-154 | The collected names have no repeats. |
| Legacy.NameFoldMembers | components/identifikacije.tsx:150-154 | A name is collected exactly when it is the inside of some match. |
| Legacy.SwapTwice | components/identifikacije.tsx:192-195 | Swapping the same neighbours twice restores the list. |
| Legacy.ReplaceAll | components/identifikacije.tsx:251-252 | Definition of replacing every `{name}` by the value. Legacy.ReplaceAllFacts, Legacy.ReplaceAllLength, Legacy.ReplaceAllPlaces and Legacy.ReplaceAllSelf state its meaning. |
| Legacy.ReplaceAllSelf | components/identifikacije.tsx:251-252 | Replacing a token by itself gives back the text. |
| Legacy.Copies | components/identifikacije.tsx:251-252 | The list of `n` copies of a value. |
| Legacy.Fill | components/identifikacije.tsx:248-254 | Definition of the substitution of one row: each placeholder with a mapped header that the row has is replaced everywhere. Legacy.FillUnmapped and Legacy.FillContent state its meaning. |

## Left out

- Archive handling is not modelled:
  - reading the uploaded file;
  - unzipping and re-zipping;
  - the blob download (`use-document-generator.ts:360-367`, `identifikacije.tsx:275-282`).

  A template is its file name plus a map from archive entry to XML text. A file that is not a zip archive is not modelled.
- The model leaves out:
  - React state plumbing, including the `isProcessing` flags;
  - the step components;
  - the page components and `index.tsx`.
- Text.Lower: only ASCII letters change case. Unicode case mapping is not modelled.
- Text.Upper: only ASCII letters change case. JavaScript's `toUpperCase` can also change the length ("ß" becomes "SS"); the model keeps the length.
- Formatters.ApplyPlaceholderCasing: built on Text.Upper and Text.Lower, so it has the same ASCII-only case mapping and keeps the length of the value.
- White space (`Text.IsWhitespace`): only the ASCII white-space characters count, not the other Unicode spaces of `\s` and `trim()`.
- Text.ParseLeadingInt: `parseInt` is exact on unbounded integers. Floating-point precision for very long digit strings is not modelled.
- Scorer.Similarity: scores are exact reals. IEEE-754 rounding of the divisions and products is not modelled.
- Extraction.BraceSpans: the DOCX expression `\{((?:[^{}]|<[^>]*>)*)\}` is modelled as a brace-free span. This matches the expression when no XML tag inside a span holds a brace.
- Merge.Advance: when no count is positive, the source's `Math.min()` is Infinity and the row index passes the end. The model moves to the row count, which ends the loop the same way.
- Mappings.UpdateMapping: requires an index inside the list. The screen only passes the index of a shown entry.
- Legacy.Screen.MovePlaceholder: requires an index inside the list, for the same reason.
- Legacy.ReplaceAll: the legacy substitution builds its regular expression from the unescaped name and passes the value to `String.replace` (`identifikacije.tsx:251-252`). The model replaces the literal `{name}` with the literal value. It does not model regular-expression metacharacters in names or `$` patterns in values.
- The messages of runtime errors are stand-ins (`Merge.EntryMissingMessage` and its neighbours):
  - a missing archive entry;
  - a missing template in the legacy screen;
  - reading a cell of a missing row.
  
  The source shows the JavaScript engine's or JSZip's own text there. Only the "Error generating document: " prefix and the messages the source writes itself are exact.
- Record keys that collide with JavaScript object prototype properties are not modelled. Such keys are headers or placeholders like `__proto__` used as object keys.
- The `catch` branches of both paste parsers cannot be reached in the model, because nothing in the parse throws (`use-sheet-data.ts:42-44`, `identifikacije.tsx:75-77`).
- `templateContent` and `templateFile` are held as one optional template. The source's separate null checks are not modelled.


=== FILE: adapters.dfy ===
/** The two document formats the merge supports (use-document-generator.ts):
    where each keeps its document XML, how the XML is cut into the part
    before the body, the body that is repeated once per page, and the part
    after it, and the fragment that separates pages. The markers are the
    literal tags `<w:body>` (ECMA-376 Office Open XML, Part 1, section
    17.2.2) and `<office:text>` (OpenDocument 1.2, Part 1); the page breaks
    are a paragraph holding `<w:br w:type="page"/>` (ECMA-376 Part 1,
    section 17.3.3.1) and a paragraph holding `<text:soft-page-break/>`.
    Nothing else of either standard is implemented. */
module Adapters {
  import opened Text

  const BodyMissingMessage: string := "Could not locate document body"

  datatype Dialect = Docx | Odt

  /** The document XML, and where the body of one page starts and ends. */
  datatype Parts = Parts(prefix: string, content: string, suffix: string)

  const DocxBodyOpen: string := "<w:body>"
  const DocxBodyClose: string := "</w:body>"
  const OdtBodyOpen: string := "<office:body>"
  const OdtTextOpen: string := "<office:text>"
  const OdtTextClose: string := "</office:text>"

  /** The processor a file name selects: by its `.docx` or `.odt` ending. */
  function DialectOf(fileName: string): (d: Option<Dialect>)
    ensures d == Some(Docx) <==> EndsWith(fileName, ".docx")
    ensures d == Some(Odt) <==> !EndsWith(fileName, ".docx") && EndsWith(fileName, ".odt")
  {
    if EndsWith(fileName, ".docx") then Some(Docx)
    else if EndsWith(fileName, ".odt") then Some(Odt)
    else None
  }

  /** The archive entry holding the document XML. */
  function ContentEntry(d: Dialect): string {
    match d
    case Docx => "word/document.xml"
    case Odt => "content.xml"
  }

  /** `getPageBreak`. */
  function PageBreak(d: Dialect): string {
    match d
    case Docx => "<w:p><w:r><w:br w:type=\"page\"/></w:r></w:p>"
    case Odt => "<text:p text:style-name=\"Standard\"><text:soft-page-break/></text:p>"
  }

  /** `lastIndexOf`: the last position, below `n`, where `p` occurs. */
  function LastIndexBelow(s: string, p: string, n: nat): (r: Option<nat>)
    ensures r.Some? ==> r.value < n && OccursAt(s, p, r.value)
    ensures r.Some? ==> forall k :: r.value < k < n ==> !OccursAt(s, p, k)
    ensures r.None? ==> forall k :: 0 <= k < n ==> !OccursAt(s, p, k)
    decreases n
  {
    if n == 0 then None
    else if OccursAt(s, p, n - 1) then Some(n - 1)
    else LastIndexBelow(s, p, n - 1)
  }

  function LastIndexOf(s: string, p: string): (r: Option<nat>)
    ensures r.Some? ==> OccursAt(s, p, r.value) && forall k :: r.value < k ==> !OccursAt(s, p, k)
    ensures r.None? ==> forall k :: 0 <= k ==> !OccursAt(s, p, k)
  {
    LastIndexBelow(s, p, |s| + 1)
  }

  /** `String.prototype.substring`: both ends are clamped to the string and
      swapped when the start lies after the end. */
  function JsSubstring(s: string, start: int, end: int): (r: string)
    ensures var a := if start < 0 then 0 else if start > |s| then |s| else start;
            var b := if end < 0 then 0 else if end > |s| then |s| else end;
            r == if a <= b then s[a..b] else s[b..a]
  {
    var a := if start < 0 then 0 else if start > |s| then |s| else start;
    var b := if end < 0 then 0 else if end > |s| then |s| else end;
    if a <= b then s[a..b] else s[b..a]
  }

  /** `extractDocumentParts`: the prefix runs through the opening marker,
      the content up to the last closing marker, the suffix from there. */
  function ExtractDocumentParts(d: Dialect, xml: string): (r: Result<Parts>)
    ensures r.Failure? ==> r.error == BodyMissingMessage
    ensures r.Failure? <==> OpenIndex(d, xml).None? || LastIndexOf(xml, CloseMarker(d)).None?
  {
    match d
    case Docx =>
      (match (IndexOfFrom(xml, DocxBodyOpen, 0), LastIndexOf(xml, DocxBodyClose))
       case (Some(bodyStartIndex), Some(bodyEndIndex)) =>
         Success(Parts(JsSubstring(xml, 0, bodyStartIndex + 8),
                       JsSubstring(xml, bodyStartIndex + 8, bodyEndIndex),
                       JsSubstring(xml, bodyEndIndex, |xml|)))
       case _ => Failure(BodyMissingMessage))
    case Odt =>
      (match IndexOfFrom(xml, OdtBodyOpen, 0)
       case None => Failure(BodyMissingMessage)
       case Some(bodyStartIndex) =>
         match (IndexOfFrom(xml, OdtTextOpen, bodyStartIndex), LastIndexOf(xml, OdtTextClose))
         case (Some(textStartIndex), Some(textEndIndex)) =>
           Success(Parts(JsSubstring(xml, 0, textStartIndex + 13),
                         JsSubstring(xml, textStartIndex + 13, textEndIndex),
                         JsSubstring(xml, textEndIndex, |xml|)))
         case _ => Failure(BodyMissingMessage))
  }

  /** The opening marker of the body, and where the splitter finds it. */
  function OpenMarker(d: Dialect): string {
    match d
    case Docx => DocxBodyOpen
    case Odt => OdtTextOpen
  }

  function CloseMarker(d: Dialect): string {
    match d
    case Docx => DocxBodyClose
    case Odt => OdtTextClose
  }

  function OpenIndex(d: Dialect, xml: string): Option<nat> {
    match d
    case Docx => IndexOfFrom(xml, DocxBodyOpen, 0)
    case Odt =>
      match IndexOfFrom(xml, OdtBodyOpen, 0)
      case None => None
      case Some(b) => IndexOfFrom(xml, OdtTextOpen, b)
  }

  // ---------------------------------------------------------------------
  // Properties

  /** Cutting at an occurrence `a` of the opening marker and an occurrence
      `b` of the closing one. */
  lemma {:induction false} SplitAt(xml: string, open: string, close: string, a: nat, b: nat)
    requires OccursAt(xml, open, a) && OccursAt(xml, close, b)
    ensures var prefix, content, suffix :=
              JsSubstring(xml, 0, a + |open|), JsSubstring(xml, a + |open|, b), JsSubstring(xml, b, |xml|);
      && EndsWith(prefix, open) && StartsWith(suffix, close)
      && (a + |open| <= b ==> prefix + content + suffix == xml)
  {
    var prefix, content, suffix :=
      JsSubstring(xml, 0, a + |open|), JsSubstring(xml, a + |open|, b), JsSubstring(xml, b, |xml|);
    assert prefix == xml[..a + |open|];
    assert suffix == xml[b..];
    assert prefix[|prefix| - |open|..] == xml[a..a + |open|];
    assert suffix[..|close|] == xml[b..b + |close|];
    if a + |open| <= b {
      assert content == xml[a + |open|..b];
      assert xml[..a + |open|] + xml[a + |open|..b] + xml[b..] == xml;
    }
  }

  /** When both markers are found, the prefix ends with the opening marker
      and the suffix starts with the closing one; when the opening marker
      ends before the closing one starts, prefix, content and suffix put
      back together give the XML. */
  lemma {:induction false} SplitRejoins(d: Dialect, xml: string)
    requires ExtractDocumentParts(d, xml).Success?
    ensures var parts := ExtractDocumentParts(d, xml).value;
      && EndsWith(parts.prefix, OpenMarker(d))
      && StartsWith(parts.suffix, CloseMarker(d))
    ensures var parts := ExtractDocumentParts(d, xml).value;
      OpenIndex(d, xml).value + |OpenMarker(d)| <= LastIndexOf(xml, CloseMarker(d)).value ==>
        parts.prefix + parts.content + parts.suffix == xml
  {
    if d.Docx? {
      DocxSplit(xml);
    } else {
      OdtSplit(xml);
    }
  }

  lemma {:induction false} DocxSplit(xml: string)
    requires ExtractDocumentParts(Docx, xml).Success?
    ensures var parts := ExtractDocumentParts(Docx, xml).value;
      && EndsWith(parts.prefix, DocxBodyOpen) && StartsWith(parts.suffix, DocxBodyClose)
      && (OpenIndex(Docx, xml).value + |DocxBodyOpen| <= LastIndexOf(xml, DocxBodyClose).value ==>
            parts.prefix + parts.content + parts.suffix == xml)
  {
    IndexOfFromOccurs(xml, DocxBodyOpen, 0);
    var a := IndexOfFrom(xml, DocxBodyOpen, 0).value;
    var b := LastIndexOf(xml, DocxBodyClose).value;
    assert |DocxBodyOpen| == 8;
    assert ExtractDocumentParts(Docx, xml).value
        == Parts(JsSubstring(xml, 0, a + 8), JsSubstring(xml, a + 8, b), JsSubstring(xml, b, |xml|));
    SplitAt(xml, DocxBodyOpen, DocxBodyClose, a, b);
  }

  lemma {:induction false} OdtSplit(xml: string)
    requires ExtractDocumentParts(Odt, xml).Success?
    ensures var parts := ExtractDocumentParts(Odt, xml).value;
      && EndsWith(parts.prefix, OdtTextOpen) && StartsWith(parts.suffix, OdtTextClose)
      && (OpenIndex(Odt, xml).value + |OdtTextOpen| <= LastIndexOf(xml, OdtTextClose).value ==>
            parts.prefix + parts.content + parts.suffix == xml)
  {
    var bodyStart := IndexOfFrom(xml, OdtBodyOpen, 0).value;
    var a := IndexOfFrom(xml, OdtTextOpen, bodyStart).value;
    var b := LastIndexOf(xml, OdtTextClose).value;
    IndexOfFromOccurs(xml, OdtTextOpen, bodyStart);
    OdtParts(xml, bodyStart, a, b);
    SplitAt(xml, OdtTextOpen, OdtTextClose, a, b);
  }

  /** The ODT parts, cut at the found markers. */
  lemma {:induction false} OdtParts(xml: string, bodyStart: nat, a: nat, b: nat)
    requires IndexOfFrom(xml, OdtBodyOpen, 0) == Some(bodyStart)
    requires IndexOfFrom(xml, OdtTextOpen, bodyStart) == Some(a)
    requires LastIndexOf(xml, OdtTextClose) == Some(b)
    ensures OpenIndex(Odt, xml) == Some(a)
    ensures ExtractDocumentParts(Odt, xml)
         == Success(Parts(JsSubstring(xml, 0, a + |OdtTextOpen|), JsSubstring(xml, a + |OdtTextOpen|, b), JsSubstring(xml, b, |xml|)))
  {
    assert |OdtTextOpen| == 13;
  }
}

=== FILE: extraction.dfy ===
/** Placeholder extraction from a template (use-file-processing.ts). The
    document XML is first collapsed (every white-space run becomes one
    space); then a DOCX document is scanned for brace spans whose name is
    gathered from the `<w:t>` text runs inside, and an ODT document is
    scanned for brace-balanced spans, followed by a simple brace regex as a
    fallback. Both fill an insertion-ordered map from readable name to the
    raw token as it appears in the collapsed XML. */
module Extraction {
  import opened Text
  import opened PlaceholderMap

  const DocxContentEntry: string := "word/document.xml"
  const OdtContentEntry: string := "content.xml"
  const NoContentMessage: string := "Could not extract content from document"

  /** The positions of the opening and the closing brace of a match. */
  datatype Span = Span(open: nat, close: nat)

  /** A `{` ... `}` pair with no brace in between. */
  predicate BraceFree(s: string, sp: Span) {
    sp.open < sp.close < |s| && s[sp.open] == '{' && s[sp.close] == '}'
    && forall k :: sp.open < k < sp.close ==> s[k] !in Braces
  }

  function SpanText(s: string, sp: Span): string
    requires sp.open <= sp.close < |s|
  {
    s[sp.open..sp.close + 1]
  }

  /** The first brace at or after `from`. */
  function NextBrace(s: string, from: nat): (r: Option<nat>)
    ensures r.Some? ==> from <= r.value < |s| && s[r.value] in Braces
    ensures r.Some? ==> forall k :: from <= k < r.value ==> s[k] !in Braces
    ensures r.None? ==> forall k :: from <= k < |s| ==> s[k] !in Braces
    decreases |s| - from
  {
    if from >= |s| then None
    else if s[from] in Braces then Some(from)
    else NextBrace(s, from + 1)
  }

  /** `matchAll` of a brace regular expression, left to right without
      overlap: a `{` whose next brace is a `}` starts a match. With
      `allowEmpty` this is the DOCX expression (which also matches `{}`),
      without it the ODT fallback `\{([^{}]+)\}`. */
  function BraceSpans(s: string, from: nat, allowEmpty: bool): seq<Span>
    decreases |s| - from
  {
    if from >= |s| then []
    else if s[from] == '{' then
      match NextBrace(s, from + 1)
      case Some(q) =>
        if s[q] == '}' && (allowEmpty || q > from + 1) then
          [Span(from, q)] + BraceSpans(s, q + 1, allowEmpty)
        else BraceSpans(s, from + 1, allowEmpty)
      case None => BraceSpans(s, from + 1, allowEmpty)
    else BraceSpans(s, from + 1, allowEmpty)
  }

  /** Every match is a `{` and a `}` with no brace in between, starting at
      or after `from`; only with `allowEmpty` can there be nothing between
      them. */
  lemma {:induction false} BraceSpansFacts(s: string, from: nat, allowEmpty: bool)
    ensures forall k :: 0 <= k < |BraceSpans(s, from, allowEmpty)| ==>
      && BraceFree(s, BraceSpans(s, from, allowEmpty)[k])
      && from <= BraceSpans(s, from, allowEmpty)[k].open
      && (allowEmpty || BraceSpans(s, from, allowEmpty)[k].open + 1 < BraceSpans(s, from, allowEmpty)[k].close)
  {
    forall k | 0 <= k < |BraceSpans(s, from, allowEmpty)|
      ensures && BraceFree(s, BraceSpans(s, from, allowEmpty)[k])
              && from <= BraceSpans(s, from, allowEmpty)[k].open
              && (allowEmpty || BraceSpans(s, from, allowEmpty)[k].open + 1 < BraceSpans(s, from, allowEmpty)[k].close)
    {
      BraceSpanAt(s, from, allowEmpty, k);
    }
  }

  lemma {:induction false} BraceSpanAt(s: string, from: nat, allowEmpty: bool, k: nat)
    requires k < |BraceSpans(s, from, allowEmpty)|
    ensures var sp := BraceSpans(s, from, allowEmpty)[k];
      BraceFree(s, sp) && from <= sp.open && (allowEmpty || sp.open + 1 < sp.close)
    decreases |s| - from
  {
    var spans := BraceSpans(s, from, allowEmpty);
    if s[from] == '{' && NextBrace(s, from + 1).Some? && s[NextBrace(s, from + 1).value] == '}'
       && (allowEmpty || NextBrace(s, from + 1).value > from + 1) {
      var q := NextBrace(s, from + 1).value;
      var rest := BraceSpans(s, q + 1, allowEmpty);
      if k == 0 {
        assert spans[0] == Span(from, q);
      } else {
        assert spans[k] == rest[k - 1];
        BraceSpanAt(s, q + 1, allowEmpty, k - 1);
      }
    } else {
      assert spans == BraceSpans(s, from + 1, allowEmpty);
      BraceSpanAt(s, from + 1, allowEmpty, k);
    }
  }

  /** Each span ends before the next one begins. */
  predicate Increasing(spans: seq<Span>) {
    |spans| <= 1 || (spans[0].close < spans[1].open && Increasing(spans[1..]))
  }

  /** The matches do not overlap. */
  lemma {:induction false} BraceSpansIncreasing(s: string, from: nat, allowEmpty: bool)
    ensures Increasing(BraceSpans(s, from, allowEmpty))
    decreases |s| - from
  {
    if from < |s| && s[from] == '{' && NextBrace(s, from + 1).Some? && s[NextBrace(s, from + 1).value] == '}'
       && (allowEmpty || NextBrace(s, from + 1).value > from + 1) {
      var q := NextBrace(s, from + 1).value;
      var rest := BraceSpans(s, q + 1, allowEmpty);
      BraceSpansIncreasing(s, q + 1, allowEmpty);
      if |rest| > 0 {
        BraceSpanAt(s, q + 1, allowEmpty, 0);
      }
      assert ([Span(from, q)] + rest)[1..] == rest;
    } else if from < |s| {
      BraceSpansIncreasing(s, from + 1, allowEmpty);
    }
  }

  /** A brace-free `{`...`}` that starts at `from` is the first match. */
  lemma {:induction false} BraceSpansHead(s: string, from: nat, q: nat, allowEmpty: bool)
    requires BraceFree(s, Span(from, q)) && (allowEmpty || from + 1 < q)
    ensures BraceSpans(s, from, allowEmpty) == [Span(from, q)] + BraceSpans(s, q + 1, allowEmpty)
  {
    NextBraceAt(s, from + 1, q);
  }

  lemma {:induction false} NextBraceAt(s: string, i: nat, q: nat)
    requires i <= q < |s| && s[q] in Braces
    requires forall k :: i <= k < q ==> s[k] !in Braces
    ensures NextBrace(s, i) == Some(q)
    decreases q - i
  {
    if i < q {
      NextBraceAt(s, i + 1, q);
    }
  }

  // ---------------------------------------------------------------------
  // DOCX

  /** `matchAll(/<w:t[^>]*>(.*?)<\/w:t>/g)`: the text of each complete text
      run, scanned left to right. A match starts at `<w:t` (so `<w:tab .../>`
      qualifies too), its opening tag ends at the first `>`, and its text
      ends at the first `</w:t>` after that. */
  function TextRuns(span: string, from: nat): (runs: seq<string>)
    decreases |span| - from
  {
    if from >= |span| then []
    else if OccursAt(span, "<w:t", from) then
      match IndexOfChar(span, '>', from + 4)
      case Some(g) =>
        (match IndexOfFrom(span, "</w:t>", g + 1)
         case Some(e) => [span[g + 1..e]] + TextRuns(span, e + 6)
         case None => TextRuns(span, from + 1))
      case None => TextRuns(span, from + 1)
    else TextRuns(span, from + 1)
  }

  /** `join("")`. */
  function Flatten(parts: seq<string>): string
    decreases |parts|
  {
    if |parts| == 0 then "" else parts[0] + Flatten(parts[1..])
  }

  /** The readable name of a DOCX brace span: the joined text runs,
      trimmed and without braces, and nothing when that is empty; a span
      without a complete text run is named by itself without its braces,
      empty or not. */
  function DocxName(span: string): (r: Option<string>)
    ensures r.Some? ==> forall k :: 0 <= k < |r.value| ==> r.value[k] !in Braces
    ensures |TextRuns(span, 0)| == 0 ==> r == Some(RemoveChars(span, Braces))
    ensures |TextRuns(span, 0)| > 0 && r.Some? ==>
              r.value == RemoveChars(Trim(Flatten(TextRuns(span, 0))), Braces) && r.value != ""
    ensures |TextRuns(span, 0)| > 0 ==>
              (r.Some? <==> RemoveChars(Trim(Flatten(TextRuns(span, 0))), Braces) != "")
  {
    var textMatches := TextRuns(span, 0);
    if |textMatches| > 0 then
      var readableName := RemoveChars(Trim(Flatten(textMatches)), Braces);
      if readableName != "" then Some(readableName) else None
    else Some(RemoveChars(span, Braces))
  }

  function DocxAdd(m: PMap, s: string, sp: Span): PMap
    requires sp.open <= sp.close < |s|
  {
    match DocxName(SpanText(s, sp))
    case Some(name) => Set(m, name, SpanText(s, sp))
    case None => m
  }

  /** The map after the loop has handled `spans`, in order. */
  function DocxFold(s: string, spans: seq<Span>): PMap
    requires forall k :: 0 <= k < |spans| ==> spans[k].open <= spans[k].close < |s|
    decreases |spans|
  {
    if |spans| == 0 then []
    else DocxAdd(DocxFold(s, spans[..|spans| - 1]), s, spans[|spans| - 1])
  }

  lemma {:induction false} DocxFoldStep(s: string, spans: seq<Span>, i: nat)
    requires i < |spans| && forall k :: 0 <= k < |spans| ==> spans[k].open <= spans[k].close < |s|
    ensures DocxFold(s, spans[..i + 1]) == DocxAdd(DocxFold(s, spans[..i]), s, spans[i])
  {
    assert spans[..i + 1][..i] == spans[..i];
  }

  /** A DOCX step keeps every name and adds the span's name, if any. */
  lemma {:induction false} DocxAddHas(m: PMap, s: string, sp: Span)
    requires sp.open <= sp.close < |s|
    ensures forall n :: Has(m, n) ==> Has(DocxAdd(m, s, sp), n)
    ensures DocxName(SpanText(s, sp)).Some? ==> Has(DocxAdd(m, s, sp), DocxName(SpanText(s, sp)).value)
  {
    match DocxName(SpanText(s, sp)) {
      case None =>
      case Some(name) =>
        var r := Set(m, name, SpanText(s, sp));
        assert Keys(r)[..|Keys(m)|] == Keys(m);
    }
  }

  /** Every span with a name has that name in the DOCX fold. */
  lemma {:induction false} DocxFoldHas(s: string, spans: seq<Span>, j: nat)
    requires forall k :: 0 <= k < |spans| ==> spans[k].open <= spans[k].close < |s|
    requires j < |spans| && DocxName(SpanText(s, spans[j])).Some?
    ensures Has(DocxFold(s, spans), DocxName(SpanText(s, spans[j])).value)
    decreases |spans|
  {
    var init := spans[..|spans| - 1];
    DocxAddHas(DocxFold(s, init), s, spans[|spans| - 1]);
    if j < |spans| - 1 {
      assert init[j] == spans[j];
      DocxFoldHas(s, init, j);
    }
  }

  /** The placeholder map of a DOCX `word/document.xml`. */
  function DocxMap(xml: string): PMap {
    var s := CollapseWhitespace(xml);
    BraceSpansFacts(s, 0, true);
    DocxFold(s, BraceSpans(s, 0, true))
  }

  /** Completeness of the DOCX scan: every brace span of the collapsed XML
      whose name is not skipped has its name in the map. (The bound on the
      span always holds, by BraceSpanAt; it is stated so that its text is
      defined.) */
  lemma {:induction false} DocxMapHas(xml: string, k: nat)
    requires var s := CollapseWhitespace(xml); var spans := BraceSpans(s, 0, true);
      k < |spans| && spans[k].open <= spans[k].close < |s| && DocxName(SpanText(s, spans[k])).Some?
    ensures var s := CollapseWhitespace(xml); var spans := BraceSpans(s, 0, true);
      Has(DocxMap(xml), DocxName(SpanText(s, spans[k])).value)
  {
    var s := CollapseWhitespace(xml);
    BraceSpansFacts(s, 0, true);
    DocxFoldHas(s, BraceSpans(s, 0, true), k);
  }

  /** The DOCX branch of `handleFileUpload`: one `set` per span with a
      name. */
  method ExtractDocx(xml: string) returns (placeholderMap: PMap)
    ensures placeholderMap == DocxMap(xml)
  {
    var normalizedXml := CollapseWhitespace(xml);
    var matches := BraceSpans(normalizedXml, 0, true);
    BraceSpansFacts(normalizedXml, 0, true);
    placeholderMap := [];
    for i := 0 to |matches|
      invariant placeholderMap == DocxFold(normalizedXml, matches[..i])
    {
      DocxFoldStep(normalizedXml, matches, i);
      var fullPlaceholder := SpanText(normalizedXml, matches[i]);
      match DocxName(fullPlaceholder)
      case Some(name) =>
        placeholderMap := Set(placeholderMap, name, fullPlaceholder);
      case None =>
    }
    assert matches[..|matches|] == matches;
  }

  // ---------------------------------------------------------------------
  // ODT

  /** The positions of `{` below `n`, in increasing order. */
  function OpenBraces(s: string, n: nat): (ps: seq<nat>)
    requires n <= |s|
    ensures forall k :: 0 <= k < |ps| ==> ps[k] < n && s[ps[k]] == '{'
    ensures forall i :: 0 <= i < n && s[i] == '{' ==> i in ps
    decreases n
  {
    if n == 0 then []
    else OpenBraces(s, n - 1) + (if s[n - 1] == '{' then [n - 1] else [])
  }

  /** The change a character makes to the brace count. */
  function Delta(c: char): int {
    if c == '{' then 1 else if c == '}' then -1 else 0
  }

  /** The number of `{` minus the number of `}` in `t`. */
  function Depth(t: string): int
    decreases |t|
  {
    if |t| == 0 then 0 else Delta(t[0]) + Depth(t[1..])
  }

  /** The index at which a brace count of `count`, carried from position
      `i` onwards, first drops to zero. */
  function CloseIndex(s: string, i: nat, count: nat): (r: Option<nat>)
    requires count > 0
    ensures r.Some? ==> i <= r.value < |s| && s[r.value] == '}'
    decreases |s| - i
  {
    if i >= |s| then None
    else
      var c := count + Delta(s[i]);
      if c == 0 then Some(i) else CloseIndex(s, i + 1, c)
  }

  /** The token of the `{` at `pos`: up to and including the `}` that
      balances it, if there is one. */
  function BalancedToken(s: string, pos: nat): (r: Option<string>)
    requires pos < |s|
    ensures r.Some? ==> 2 <= |r.value| && r.value[|r.value| - 1] == '}' && OccursAt(s, r.value, pos)
  {
    match CloseIndex(s, pos + 1, 1)
    case None => None
    case Some(e) => Some(s[pos..e + 1])
  }

  /** The readable name of an ODT span: tags removed, then braces. */
  function OdtName(span: string): (name: string)
    ensures forall k :: 0 <= k < |name| ==> name[k] !in Braces
  {
    RemoveChars(StripTags(span), Braces)
  }

  /** The depth scan for the `{` at `pos`. */
  function DepthAdd(m: PMap, s: string, pos: nat): PMap
    requires pos < |s|
  {
    match BalancedToken(s, pos)
    case None => m
    case Some(t) => if OdtName(t) != "" then Set(m, OdtName(t), t) else m
  }

  function DepthFold(s: string, ps: seq<nat>): PMap
    requires forall k :: 0 <= k < |ps| ==> ps[k] < |s|
    decreases |ps|
  {
    if |ps| == 0 then [] else DepthAdd(DepthFold(s, ps[..|ps| - 1]), s, ps[|ps| - 1])
  }

  /** The name the fallback regex reads from a simple match. */
  function FallbackName(s: string, sp: Span): string
    requires sp.open < sp.close <= |s|
  {
    StripTags(s[sp.open + 1..sp.close])
  }

  /** The fallback for one simple match: a non-empty name that is not yet
      present is added with the token `{name}`. */
  function FallbackAdd(m: PMap, s: string, sp: Span): PMap
    requires sp.open < sp.close <= |s|
  {
    var name := FallbackName(s, sp);
    if name != "" && !Has(m, name) then Set(m, name, "{" + name + "}") else m
  }

  function FallbackFold(m: PMap, s: string, spans: seq<Span>): PMap
    requires forall k :: 0 <= k < |spans| ==> spans[k].open < spans[k].close <= |s|
    decreases |spans|
  {
    if |spans| == 0 then m
    else FallbackAdd(FallbackFold(m, s, spans[..|spans| - 1]), s, spans[|spans| - 1])
  }

  /** The placeholder map the depth scan builds. */
  function DepthMap(s: string): PMap {
    DepthFold(s, OpenBraces(s, |s|))
  }

  /** The placeholder map of an ODT `content.xml`. */
  function OdtMap(xml: string): PMap {
    var s := CollapseWhitespace(xml);
    BraceSpansFacts(s, 0, false);
    FallbackFold(DepthMap(s), s, BraceSpans(s, 0, false))
  }

  /** The ODT branch of `handleFileUpload`: collect the `{` positions,
      find each one's balancing `}` by counting and record the named
      spans, then run the fallback regex. */
  method ExtractOdt(xml: string) returns (placeholderMap: PMap)
    ensures placeholderMap == OdtMap(xml)
  {
    var normalizedXml := CollapseWhitespace(xml);
    var openBracePositions := CollectOpenBraces(normalizedXml);
    placeholderMap := DepthScan(normalizedXml, openBracePositions);
    var simpleMatches := BraceSpans(normalizedXml, 0, false);
    BraceSpansFacts(normalizedXml, 0, false);
    placeholderMap := FallbackScan(placeholderMap, normalizedXml, simpleMatches);
  }

  method CollectOpenBraces(s: string) returns (openBracePositions: seq<nat>)
    ensures openBracePositions == OpenBraces(s, |s|)
  {
    openBracePositions := [];
    for i := 0 to |s|
      invariant openBracePositions == OpenBraces(s, i)
    {
      if s[i] == '{' {
        openBracePositions := openBracePositions + [i];
      }
    }
  }

  method DepthScan(s: string, openBracePositions: seq<nat>) returns (placeholderMap: PMap)
    requires forall k :: 0 <= k < |openBracePositions| ==> openBracePositions[k] < |s|
    ensures placeholderMap == DepthFold(s, openBracePositions)
  {
    placeholderMap := [];
    for k := 0 to |openBracePositions|
      invariant placeholderMap == DepthFold(s, openBracePositions[..k])
    {
      assert openBracePositions[..k + 1][..k] == openBracePositions[..k];
      placeholderMap := DepthStep(placeholderMap, s, openBracePositions[k]);
    }
    assert openBracePositions[..|openBracePositions|] == openBracePositions;
  }

  /** The loop body for the `{` at `pos`. */
  method DepthStep(placeholderMap: PMap, s: string, pos: nat) returns (r: PMap)
    requires pos < |s|
    ensures r == DepthAdd(placeholderMap, s, pos)
  {
    r := placeholderMap;
    var endPos := FindClose(s, pos);
    if endPos > pos {
      var fullPlaceholder := s[pos..endPos + 1];
      var textContent := OdtName(fullPlaceholder);
      if textContent != "" {
        r := Set(r, textContent, fullPlaceholder);
      }
    }
  }

  method FallbackScan(depthMap: PMap, s: string, simpleMatches: seq<Span>) returns (placeholderMap: PMap)
    requires forall k :: 0 <= k < |simpleMatches| ==> simpleMatches[k].open < simpleMatches[k].close <= |s|
    ensures placeholderMap == FallbackFold(depthMap, s, simpleMatches)
  {
    placeholderMap := depthMap;
    for k := 0 to |simpleMatches|
      invariant placeholderMap == FallbackFold(depthMap, s, simpleMatches[..k])
    {
      assert simpleMatches[..k + 1][..k] == simpleMatches[..k];
      var sp := simpleMatches[k];
      var placeholder := StripTags(s[sp.open + 1..sp.close]);
      if placeholder != "" && !Has(placeholderMap, placeholder) {
        placeholderMap := Set(placeholderMap, placeholder, "{" + placeholder + "}");
      }
    }
    assert simpleMatches[..|simpleMatches|] == simpleMatches;
  }

  /** The counting loop for one `{`: the index where the count returns to
      zero, or -1. */
  method FindClose(s: string, pos: nat) returns (endPos: int)
    requires pos < |s|
    ensures CloseIndex(s, pos + 1, 1).None? ==> endPos == -1
    ensures CloseIndex(s, pos + 1, 1).Some? ==> endPos == CloseIndex(s, pos + 1, 1).value
  {
    var bracketCount: nat := 1;
    endPos := -1;
    for i := pos + 1 to |s|
      invariant bracketCount > 0 && endPos == -1
      invariant CloseIndex(s, pos + 1, 1) == CloseIndex(s, i, bracketCount)
    {
      bracketCount := bracketCount + Delta(s[i]);
      if bracketCount == 0 {
        endPos := i;
        break;
      }
    }
  }

  // ---------------------------------------------------------------------
  // The uploaded template

  /** What `handleFileUpload` extracts: the document XML, the placeholder
      names in first-discovery order and the name-to-token map. */
  datatype Template = Template(content: string, placeholders: seq<string>, tokens: PMap)

  /** The XML the upload reads: `word/document.xml` of a `.docx`,
      `content.xml` of an `.odt`, or nothing. */
  function DocumentContent(fileName: string, entries: map<string, string>): string {
    if EndsWith(fileName, ".docx") then Lookup(entries, DocxContentEntry)
    else if EndsWith(fileName, ".odt") then Lookup(entries, OdtContentEntry)
    else ""
  }

  /** The extraction part of `handleFileUpload`: an empty document is an
      error, finding no placeholder is not. */
  function ExtractTemplate(fileName: string, entries: map<string, string>): (r: Result<Template>)
    ensures r.Failure? <==> DocumentContent(fileName, entries) == ""
    ensures r.Failure? ==> r.error == NoContentMessage
    ensures r.Success? ==> r.value.content == DocumentContent(fileName, entries)
                           && r.value.placeholders == Keys(r.value.tokens)
  {
    var content := DocumentContent(fileName, entries);
    var tokens := if EndsWith(fileName, ".docx") then DocxMap(content)
                  else if EndsWith(fileName, ".odt") then OdtMap(content)
                  else [];
    if content == "" then Failure(NoContentMessage)
    else Success(Template(content, Keys(tokens), tokens))
  }

  // ---------------------------------------------------------------------
  // Properties

  /** A DOCX token: a `{`...`}` with no brace inside that occurs in the
      collapsed XML. */
  ghost predicate DocxToken(s: string, t: string) {
    2 <= |t| && t[0] == '{' && t[|t| - 1] == '}'
    && (forall k :: 0 < k < |t| - 1 ==> t[k] !in Braces)
    && exists i :: OccursAt(s, t, i)
  }

  /** An ODT token: a `{`...`}` whose braces balance and whose proper
      prefixes all hold more `{` than `}`, occurring in the collapsed XML. */
  ghost predicate OdtToken(s: string, t: string) {
    2 <= |t| && t[0] == '{' && t[|t| - 1] == '}' && Depth(t) == 0
    && (forall j :: 1 <= j < |t| ==> Depth(t[..j]) > 0)
    && exists i :: OccursAt(s, t, i)
  }

  lemma {:induction false} SpanTextIsToken(s: string, sp: Span)
    requires BraceFree(s, sp)
    ensures DocxToken(s, SpanText(s, sp))
  {
    var t := SpanText(s, sp);
    assert forall k :: 0 < k < |t| - 1 ==> t[k] == s[sp.open + k];
    assert OccursAt(s, t, sp.open);
  }

  /** Both folds keep the names distinct, so the placeholder list has no
      duplicates. */
  lemma {:induction false} DocxFoldDistinct(s: string, spans: seq<Span>)
    requires forall k :: 0 <= k < |spans| ==> spans[k].open <= spans[k].close < |s|
    ensures Distinct(DocxFold(s, spans))
    decreases |spans|
  {
    if |spans| > 0 {
      var m := DocxFold(s, spans[..|spans| - 1]);
      DocxFoldDistinct(s, spans[..|spans| - 1]);
      var sp := spans[|spans| - 1];
      match DocxName(SpanText(s, sp))
      case Some(name) => SetDistinct(m, name, SpanText(s, sp));
      case None =>
    }
  }

  lemma {:induction false} DepthFoldDistinct(s: string, ps: seq<nat>)
    requires forall k :: 0 <= k < |ps| ==> ps[k] < |s|
    ensures Distinct(DepthFold(s, ps))
    decreases |ps|
  {
    if |ps| > 0 {
      var m := DepthFold(s, ps[..|ps| - 1]);
      DepthFoldDistinct(s, ps[..|ps| - 1]);
      match BalancedToken(s, ps[|ps| - 1])
      case None =>
      case Some(t) => SetDistinct(m, OdtName(t), t);
    }
  }

  /** Every DOCX token is a brace span of the collapsed XML. */
  lemma {:induction false} DocxFoldTokens(s: string, spans: seq<Span>)
    requires forall k :: 0 <= k < |spans| ==> spans[k].open < spans[k].close < |s| && BraceFree(s, spans[k])
    ensures forall e :: e in DocxFold(s, spans) ==> DocxToken(s, e.token)
    decreases |spans|
  {
    if |spans| > 0 {
      var init := spans[..|spans| - 1];
      DocxFoldTokens(s, init);
      var m := DocxFold(s, init);
      var sp := spans[|spans| - 1];
      SpanTextIsToken(s, sp);
      match DocxName(SpanText(s, sp)) {
        case Some(name) => SetEntries(m, name, SpanText(s, sp));
        case None =>
      }
    }
  }

  /** The DOCX map: tokens are brace spans of the collapsed XML, and names
      are distinct and brace-free. */
  lemma {:induction false} DocxTokens(xml: string)
    ensures forall e :: e in DocxMap(xml) ==> DocxToken(CollapseWhitespace(xml), e.token)
    ensures Distinct(DocxMap(xml))
  {
    var s := CollapseWhitespace(xml);
    BraceSpansFacts(s, 0, true);
    DocxFoldTokens(s, BraceSpans(s, 0, true));
    DocxFoldDistinct(s, BraceSpans(s, 0, true));
  }

  /** The depth scan: a span ends at the first index where the count of
      `{` minus `}` returns to zero. */
  lemma {:induction false} CloseIndexBalanced(s: string, i: nat, count: nat)
    requires count > 0 && CloseIndex(s, i, count).Some?
    ensures var e := CloseIndex(s, i, count).value;
      && count + Depth(s[i..e + 1]) == 0
      && forall j :: i <= j <= e ==> count + Depth(s[i..j]) > 0
    decreases |s| - i
  {
    var e := CloseIndex(s, i, count).value;
    var c := count + Delta(s[i]);
    assert s[i..e + 1][0] == s[i] && s[i..e + 1][1..] == s[i + 1..e + 1];
    if c != 0 {
      CloseIndexBalanced(s, i + 1, c);
      forall j | i <= j <= e ensures count + Depth(s[i..j]) > 0 {
        if j > i {
          assert s[i..j][0] == s[i] && s[i..j][1..] == s[i + 1..j];
        }
      }
    } else {
      assert s[i + 1..e + 1] == [];
    }
  }

  /** The token of a `{` is brace-balanced, and no shorter prefix of it
      is. */
  lemma {:induction false} BalancedTokenIsToken(s: string, pos: nat)
    requires pos < |s| && s[pos] == '{' && BalancedToken(s, pos).Some?
    ensures OdtToken(s, BalancedToken(s, pos).value)
  {
    var e := CloseIndex(s, pos + 1, 1).value;
    var t := s[pos..e + 1];
    CloseIndexBalanced(s, pos + 1, 1);
    assert t[0] == '{' && t[1..] == s[pos + 1..e + 1];
    forall j | 1 <= j < |t| ensures Depth(t[..j]) > 0 {
      assert t[..j][0] == '{' && t[..j][1..] == s[pos + 1..pos + j];
    }
  }

  /** A brace-free `{`...`}` closes at its own `}`. */
  lemma {:induction false} CloseOfBraceFree(s: string, sp: Span, i: nat)
    requires BraceFree(s, sp) && sp.open < i <= sp.close
    ensures CloseIndex(s, i, 1) == Some(sp.close)
    decreases sp.close - i
  {
    if i < sp.close {
      CloseOfBraceFree(s, sp, i + 1);
    }
  }

  /** For a brace-free span the depth scan's name is the fallback's name. */
  lemma {:induction false} NameOfBraceFree(s: string, sp: Span)
    requires BraceFree(s, sp)
    ensures OdtName(SpanText(s, sp)) == FallbackName(s, sp)
  {
    var x := s[sp.open + 1..sp.close];
    assert SpanText(s, sp) == "{" + (x + "}");
    assert forall c :: c in x ==> c !in Braces;
    StripTagsPrepend("{", x + "}");
    StripTagsAppend(x, "}");
    assert StripTags("{" + (x + "}")) == "{" + StripTags(x) + "}";
    StripTagsChars(x);
    RemoveCharsConcat("{" + StripTags(x), "}", Braces);
    RemoveCharsConcat("{", StripTags(x), Braces);
  }

  /** One step of the depth scan keeps every name and adds the name of
      the `{` it handles, when that is non-empty. */
  lemma {:induction false} DepthAddHas(m: PMap, s: string, pos: nat)
    requires pos < |s|
    ensures forall n :: Has(m, n) ==> Has(DepthAdd(m, s, pos), n)
    ensures BalancedToken(s, pos).Some? && OdtName(BalancedToken(s, pos).value) != "" ==>
              Has(DepthAdd(m, s, pos), OdtName(BalancedToken(s, pos).value))
  {
    match BalancedToken(s, pos) {
      case None =>
      case Some(t) =>
        if OdtName(t) != "" {
          var r := Set(m, OdtName(t), t);
          assert Keys(r)[..|Keys(m)|] == Keys(m);
        }
    }
  }

  /** Names only accumulate in the depth fold, and every named `{` has its
      name in the result. */
  lemma {:induction false} DepthFoldHas(s: string, ps: seq<nat>, j: nat)
    requires forall k :: 0 <= k < |ps| ==> ps[k] < |s|
    requires j < |ps| && BalancedToken(s, ps[j]).Some? && OdtName(BalancedToken(s, ps[j]).value) != ""
    ensures Has(DepthFold(s, ps), OdtName(BalancedToken(s, ps[j]).value))
    decreases |ps|
  {
    var init := ps[..|ps| - 1];
    DepthAddHas(DepthFold(s, init), s, ps[|ps| - 1]);
    if j < |ps| - 1 {
      assert init[j] == ps[j];
      DepthFoldHas(s, init, j);
    }
  }

  /** The fallback adds nothing when every name it finds is present. */
  lemma {:induction false} FallbackFoldNoop(m: PMap, s: string, spans: seq<Span>)
    requires forall k :: 0 <= k < |spans| ==> spans[k].open < spans[k].close <= |s|
    requires forall k :: 0 <= k < |spans| ==> FallbackName(s, spans[k]) == "" || Has(m, FallbackName(s, spans[k]))
    ensures FallbackFold(m, s, spans) == m
    decreases |spans|
  {
    if |spans| > 0 {
      var init := spans[..|spans| - 1];
      assert forall k :: 0 <= k < |init| ==> init[k] == spans[k];
      FallbackFoldNoop(m, s, init);
    }
  }

  /** The ODT fallback regex never adds a placeholder: every brace-free
      `{`...`}` it finds was recorded by the depth scan under the same
      name. So the ODT map is the depth scan's map. */
  lemma {:induction false} OdtFallbackAddsNothing(xml: string)
    ensures OdtMap(xml) == DepthMap(CollapseWhitespace(xml))
  {
    var s := CollapseWhitespace(xml);
    var spans := BraceSpans(s, 0, false);
    BraceSpansFacts(s, 0, false);
    var ps := OpenBraces(s, |s|);
    forall k | 0 <= k < |spans|
      ensures FallbackName(s, spans[k]) == "" || Has(DepthMap(s), FallbackName(s, spans[k]))
    {
      var sp := spans[k];
      CloseOfBraceFree(s, sp, sp.open + 1);
      NameOfBraceFree(s, sp);
      assert BalancedToken(s, sp.open) == Some(SpanText(s, sp));
      assert sp.open in ps;
      var j :| 0 <= j < |ps| && ps[j] == sp.open;
      if FallbackName(s, sp) != "" {
        DepthFoldHas(s, ps, j);
      }
    }
    FallbackFoldNoop(DepthMap(s), s, spans);
  }

  /** Every ODT token is a balanced brace span of the collapsed XML. */
  lemma {:induction false} DepthFoldTokens(s: string, ps: seq<nat>)
    requires forall k :: 0 <= k < |ps| ==> ps[k] < |s| && s[ps[k]] == '{'
    ensures forall e :: e in DepthFold(s, ps) ==> OdtToken(s, e.token)
    decreases |ps|
  {
    if |ps| > 0 {
      var init := ps[..|ps| - 1];
      DepthFoldTokens(s, init);
      var m := DepthFold(s, init);
      var pos := ps[|ps| - 1];
      match BalancedToken(s, pos) {
        case None =>
        case Some(t) =>
          BalancedTokenIsToken(s, pos);
          SetEntries(m, OdtName(t), t);
      }
    }
  }

  /** The ODT map: tokens are balanced brace spans of the collapsed XML,
      and names are distinct and brace-free. */
  lemma {:induction false} OdtTokens(xml: string)
    ensures forall e :: e in OdtMap(xml) ==> OdtToken(CollapseWhitespace(xml), e.token)
    ensures Distinct(OdtMap(xml))
  {
    var s := CollapseWhitespace(xml);
    OdtFallbackAddsNothing(xml);
    DepthFoldTokens(s, OpenBraces(s, |s|));
    DepthFoldDistinct(s, OpenBraces(s, |s|));
  }
}

=== FILE: formatters.dfy ===
/** The value formatters of the merge (utils.ts): casing inferred from how
    the placeholder itself is written, the combined phone value and the
    grade label. */
module Formatters {
  import opened Text

  // ---------------------------------------------------------------------
  // Casing

  /** The placeholder is written in capitals (it equals its upper-case
      form; a placeholder without letters counts as such). */
  predicate IsUpperForm(placeholder: string) {
    placeholder == Upper(placeholder)
  }

  /** The placeholder is written with a capital and lower-case letters
      after it. */
  predicate IsTitleForm(placeholder: string) {
    |placeholder| > 0 && placeholder[0] == UpperChar(placeholder[0])
    && placeholder[1..] == Lower(placeholder[1..])
  }

  /** One word with its first character upper-cased and the rest
      lower-cased (`charAt(0).toUpperCase() + slice(1).toLowerCase()`). */
  function CapitalizeWord(w: string): string {
    if |w| == 0 then "" else [UpperChar(w[0])] + Lower(w[1..])
  }

  function CapitalizeWords(words: seq<string>): (r: seq<string>)
    ensures |r| == |words|
    ensures forall k :: 0 <= k < |words| ==> r[k] == CapitalizeWord(words[k])
  {
    seq(|words|, k requires 0 <= k < |words| => CapitalizeWord(words[k]))
  }

  /** `split(" ").map(capitalise).join(" ")`. */
  function TitleCase(value: string): string {
    Join(CapitalizeWords(Split(value, ' ')), ' ')
  }

  /** The title-case rule stated character by character: a character that
      opens the value or follows a space is upper-cased, every other one
      lower-cased. */
  function TitleCaseChar(s: string, i: nat): char
    requires i < |s|
  {
    if i == 0 || s[i - 1] == ' ' then UpperChar(s[i]) else LowerChar(s[i])
  }

  /** `applyPlaceholderCasing(value, placeholder)`: capitals give an
      upper-case value, a capitalised placeholder a value with every
      space-separated word capitalised, anything else a lower-case value.
      The value keeps its length, and its spaces stay where they were. */
  function ApplyPlaceholderCasing(value: string, placeholder: string): (r: string)
    ensures |r| == |value|
    ensures IsUpperForm(placeholder) ==>
              forall i :: 0 <= i < |value| ==> r[i] == UpperChar(value[i])
    ensures !IsUpperForm(placeholder) && IsTitleForm(placeholder) ==>
              forall i :: 0 <= i < |value| ==> r[i] == TitleCaseChar(value, i)
    ensures !IsUpperForm(placeholder) && !IsTitleForm(placeholder) ==>
              forall i :: 0 <= i < |value| ==> r[i] == LowerChar(value[i])
  {
    if IsUpperForm(placeholder) then Upper(value)
    else if IsTitleForm(placeholder) then
      TitleCaseIsPointwise(value);
      TitleCase(value)
    else Lower(value)
  }

  /** The pointwise reading of title case, as one sequence. */
  function TitleCaseRef(s: string): (r: string)
    ensures |r| == |s| && forall i :: 0 <= i < |s| ==> r[i] == TitleCaseChar(s, i)
  {
    seq(|s|, i requires 0 <= i < |s| => TitleCaseChar(s, i))
  }

  /** Splitting on spaces, capitalising every piece and joining again is
      the pointwise rule. */
  lemma {:induction false} TitleCaseIsPointwise(value: string)
    ensures |TitleCase(value)| == |value|
    ensures forall i :: 0 <= i < |value| ==> TitleCase(value)[i] == TitleCaseChar(value, i)
  {
    var parts := Split(value, ' ');
    JoinSplit(value, ' ');
    CapitalizeJoin(parts);
  }

  lemma {:induction false} CapitalizeJoin(parts: seq<string>)
    requires forall k :: 0 <= k < |parts| ==> ' ' !in parts[k]
    ensures Join(CapitalizeWords(parts), ' ') == TitleCaseRef(Join(parts, ' '))
    decreases |parts|
  {
    if |parts| == 1 {
      CapitalizeWordIsRef(parts[0]);
    } else if |parts| > 1 {
      var rest := parts[1..];
      CapitalizeJoin(rest);
      CapitalizeWordIsRef(parts[0]);
      assert CapitalizeWords(parts)[1..] == CapitalizeWords(rest);
      TitleCaseRefConcat(parts[0], Join(rest, ' '));
    }
  }

  /** A space separates: title-casing around it is title-casing each side. */
  lemma {:induction false} TitleCaseRefConcat(x: string, y: string)
    ensures TitleCaseRef(x + [' '] + y) == TitleCaseRef(x) + [' '] + TitleCaseRef(y)
  {
    var s := x + [' '] + y;
    forall i | 0 <= i < |s|
      ensures TitleCaseRef(s)[i] == (TitleCaseRef(x) + [' '] + TitleCaseRef(y))[i]
    {
      if i < |x| {
        assert s[i] == x[i];
        if i > 0 {
          assert s[i - 1] == x[i - 1];
        }
      } else if i > |x| {
        assert s[i] == y[i - |x| - 1];
        if i > |x| + 1 {
          assert s[i - 1] == y[i - |x| - 2];
        }
      }
    }
  }

  lemma {:induction false} CapitalizeWordIsRef(w: string)
    requires ' ' !in w
    ensures CapitalizeWord(w) == TitleCaseRef(w)
  {
    if |w| > 0 {
      var c, t, tail := CapitalizeWord(w), TitleCaseRef(w), Lower(w[1..]);
      assert c == [UpperChar(w[0])] + tail;
      forall i | 0 <= i < |w| ensures c[i] == t[i] {
        if i > 0 {
          assert w[i - 1] in w;
          assert c[i] == tail[i - 1] == LowerChar(w[i]);
        }
      }
    }
  }

  /** The examples the template step shows: {IME}, {Ime} and {ime}. */
  lemma {:induction false} CasingExamples()
    ensures ApplyPlaceholderCasing("Rebeka", "IME") == "REBEKA"
    ensures ApplyPlaceholderCasing("Rebeka", "Ime") == "Rebeka"
    ensures ApplyPlaceholderCasing("Rebeka", "ime") == "rebeka"
  {
    UpperExample();
    TitleExample();
    LowerExample();
  }

  lemma {:induction false} UpperExample()
    ensures ApplyPlaceholderCasing("Rebeka", "IME") == "REBEKA"
  {
    assert IsUpperForm("IME");
  }

  lemma {:induction false} TitleExample()
    ensures ApplyPlaceholderCasing("Rebeka", "Ime") == "Rebeka"
  {
    assert Upper("Ime")[1] == 'M';
    assert "Ime"[1..] == "me" && Lower("me") == "me";
    assert !IsUpperForm("Ime") && IsTitleForm("Ime");
  }

  lemma {:induction false} LowerExample()
    ensures ApplyPlaceholderCasing("Rebeka", "ime") == "rebeka"
  {
    assert Upper("ime")[0] == 'I';
    assert !IsUpperForm("ime") && !IsTitleForm("ime");
  }

  /** Applying a casing twice changes nothing more. */
  lemma {:induction false} CasingIdempotent(value: string, placeholder: string)
    ensures ApplyPlaceholderCasing(ApplyPlaceholderCasing(value, placeholder), placeholder)
            == ApplyPlaceholderCasing(value, placeholder)
  {
    var r := ApplyPlaceholderCasing(value, placeholder);
    var rr := ApplyPlaceholderCasing(r, placeholder);
    forall i | 0 <= i < |value| ensures rr[i] == r[i] {
      if !IsUpperForm(placeholder) && IsTitleForm(placeholder) && i > 0 {
        assert r[i - 1] == ' ' <==> value[i - 1] == ' ';
      }
    }
  }

  // ---------------------------------------------------------------------
  // Phone numbers

  /** The value of the column the placeholder is mapped to, or "" when it
      is unmapped, mapped to "", or the row has no such cell. */
  function PrimaryValue(row: map<string, string>, placeholder: string,
                        mappingDict: map<string, string>): (v: string)
    ensures v != "" ==> placeholder in mappingDict && mappingDict[placeholder] != ""
                        && mappingDict[placeholder] in row && v == row[mappingDict[placeholder]]
  {
    var header := Lookup(mappingDict, placeholder);
    if header != "" then Lookup(row, header) else ""
  }

  /** `getFormattedTelefonValue`: without a secondary field the mapped
      value; otherwise both numbers joined by " / ", or whichever one is
      present, or "". */
  function FormattedTelefonValue(row: map<string, string>, placeholder: string,
                                 mappingDict: map<string, string>,
                                 secondaryField: string): (r: string)
    ensures var p, s := PrimaryValue(row, placeholder, mappingDict), Lookup(row, secondaryField);
      && (secondaryField == "" ==> r == p)
      && (secondaryField != "" && p != "" && s != "" ==> r == p + " / " + s)
      && (secondaryField != "" && (p == "" || s == "") ==> r == p + s)
      && (r == "" <==> p == "" && (secondaryField == "" || s == ""))
  {
    if secondaryField == "" then
      PrimaryValue(row, placeholder, mappingDict)
    else
      var primaryValue := PrimaryValue(row, placeholder, mappingDict);
      var secondaryValue := Lookup(row, secondaryField);
      if primaryValue != "" && secondaryValue != "" then primaryValue + " / " + secondaryValue
      else if primaryValue != "" then primaryValue
      else if secondaryValue != "" then secondaryValue
      else ""
  }

  /** When both numbers are present and neither holds " / ", the combined
      value splits back into the two numbers at its only separator. */
  lemma {:induction false} TelefonSeparator(row: map<string, string>, placeholder: string,
                         mappingDict: map<string, string>, secondaryField: string)
    requires secondaryField != ""
    requires var p, s := PrimaryValue(row, placeholder, mappingDict), Lookup(row, secondaryField);
      p != "" && s != ""
    ensures var p, s := PrimaryValue(row, placeholder, mappingDict), Lookup(row, secondaryField);
      var r := FormattedTelefonValue(row, placeholder, mappingDict, secondaryField);
      StartsWith(r, p) && EndsWith(r, s) && OccursAt(r, " / ", |p|) && |r| == |p| + 3 + |s|
  {
    var p, s := PrimaryValue(row, placeholder, mappingDict), Lookup(row, secondaryField);
    var r := p + " / " + s;
    assert r[..|p|] == p && r[|r| - |s|..] == s && r[|p|..|p| + 3] == " / ";
  }

  // ---------------------------------------------------------------------
  // Grades

  const Preschool: string := "Predšolski"
  const GradeSuffix: string := ". razred"

  /** `getFormattedRazredValue`: blank gives "", a value without a leading
      integer is returned as it is, 0 is the pre-school group and any other
      integer n becomes "n. razred". */
  function FormattedRazredValue(value: string): (r: string)
    ensures Trim(value) == "" ==> r == ""
    ensures Trim(value) != "" && ParseLeadingInt(Trim(value)).None? ==> r == value
    ensures Trim(value) != "" && ParseLeadingInt(Trim(value)) == Some(0) ==> r == Preschool
    ensures Trim(value) != "" && ParseLeadingInt(Trim(value)).Some? && ParseLeadingInt(Trim(value)).value != 0
            ==> r == IntToString(ParseLeadingInt(Trim(value)).value) + GradeSuffix
  {
    if value == "" || Trim(value) == "" then ""
    else match ParseLeadingInt(Trim(value))
      case None => value
      case Some(n) => if n == 0 then Preschool else IntToString(n) + GradeSuffix
  }

  /** A printed grade number formats to its label, and the label's leading
      integer is that number again. */
  lemma {:induction false} RazredLabel(n: int)
    ensures FormattedRazredValue(IntToString(n)) == if n == 0 then Preschool else IntToString(n) + GradeSuffix
    ensures n != 0 ==> ParseLeadingInt(FormattedRazredValue(IntToString(n))) == Some(n)
  {
    PrintedIntTrimmed(n, "");
    ParsePrintedInt(n, "");
    assert IntToString(n) + "" == IntToString(n);
    if n != 0 {
      ParsePrintedInt(n, GradeSuffix);
    }
  }

  /** A printed integer neither starts nor ends with white space, and
      neither does it with a suffix that ends in a letter. */
  lemma {:induction false} PrintedIntTrimmed(n: int, rest: string)
    requires rest == [] || !IsWhitespace(rest[|rest| - 1])
    ensures var s := IntToString(n) + rest; |s| > 0 && Trim(s) == s
  {
    var p := IntToString(n);
    PrintedIntEnds(n);
    var s := p + rest;
    assert s[0] == p[0];
    assert s[|s| - 1] == if rest == [] then p[|p| - 1] else rest[|rest| - 1];
  }

  /** A printed integer starts with a sign or a digit and ends with a
      digit. */
  lemma {:induction false} PrintedIntEnds(n: int)
    ensures var p := IntToString(n); |p| > 0 && !IsWhitespace(p[0]) && !IsWhitespace(p[|p| - 1])
  {
    var d := NatToString(if n < 0 then -n else n);
    assert IsDigit(d[0]) && IsDigit(d[|d| - 1]);
    if n < 0 {
      assert IntToString(n) == "-" + d;
    }
  }

  /** Formatting a grade twice gives what formatting it once gave: labels,
      the pre-school name and unparsable values are fixed points. */
  lemma {:induction false} RazredIdempotent(value: string)
    ensures FormattedRazredValue(FormattedRazredValue(value)) == FormattedRazredValue(value)
  {
    if Trim(value) != "" {
      match ParseLeadingInt(Trim(value))
      case None =>
      case Some(n) =>
        if n == 0 {
          PreschoolFixed();
        } else {
          LabelFixed(n);
        }
    }
  }

  lemma {:induction false} PreschoolFixed()
    ensures FormattedRazredValue(Preschool) == Preschool
  {
    var s := Preschool;
    assert s[0] == 'P' && s[|s| - 1] == 'i';
    assert Trim(s) == s;
    ParseNoLeadingDigit(s);
  }

  lemma {:induction false} LabelFixed(n: int)
    requires n != 0
    ensures FormattedRazredValue(IntToString(n) + GradeSuffix) == IntToString(n) + GradeSuffix
  {
    PrintedIntTrimmed(n, GradeSuffix);
    ParsePrintedInt(n, GradeSuffix);
  }
}

=== FILE: legacy.dfy ===
/** The first version of the merge screen (components/identifikacije.tsx),
    kept beside the hook-based one. It parses the pasted table with the
    same rules, scores headers with a plain symmetric Levenshtein ratio,
    keeps a header only above 0.5, lets the user reorder and remap the
    list, and fills a single document from the first row by replacing
    every literal `{name}`. */
module Legacy {
  import opened Text
  import Levenshtein
  import SheetData
  import Extraction
  import Mappings
  import Merge
  import Adapters

  type Row = map<string, string>

  const TooFewMessage: string := "Not enough data - need at least headers and one row"
  const PasteStep: string := "paste"
  const UploadStep: string := "upload"
  const Threshold: real := 0.5

  // ---------------------------------------------------------------------
  // Similarity

  /** `stringSimilarity`: one minus the edit distance of the lower-cased
      strings over the longer length, and 1 for two empty strings. */
  function LegacySimilarity(s1: string, s2: string): real {
    var a, b := Lower(s1), Lower(s2);
    var maxLength := Levenshtein.Max(|a|, |b|);
    if maxLength == 0 then 1.0
    else 1.0 - (Levenshtein.EditDistance(a, b) as real) / (maxLength as real)
  }

  /** The matrix computation of `stringSimilarity`. */
  method StringSimilarity(str1: string, str2: string) returns (r: real)
    ensures r == LegacySimilarity(str1, str2)
  {
    var a := Lower(str1);
    var b := Lower(str2);
    var distance := Levenshtein.ComputeEditDistance(a, b);
    var maxLength := if |a| >= |b| then |a| else |b|;
    if maxLength == 0 {
      return 1.0;
    }
    r := 1.0 - (distance as real) / (maxLength as real);
  }

  /** The score lies in [0, 1], does not depend on the order of the
      arguments, and is 1 exactly for strings equal up to case. */
  lemma {:induction false} LegacySimilarityFacts(s1: string, s2: string)
    ensures 0.0 <= LegacySimilarity(s1, s2) <= 1.0
    ensures LegacySimilarity(s1, s2) == LegacySimilarity(s2, s1)
    ensures LegacySimilarity(s1, s2) == 1.0 <==> Lower(s1) == Lower(s2)
  {
    var a, b := Lower(s1), Lower(s2);
    Levenshtein.EditDistanceFacts(a, b);
    var maxLength := Levenshtein.Max(|a|, |b|);
    assert maxLength == Levenshtein.Max(|b|, |a|);
    if maxLength > 0 {
      RatioFacts(Levenshtein.EditDistance(a, b), maxLength);
    } else {
      assert a == b;
    }
  }

  /** A distance no larger than the length it is divided by. */
  lemma {:induction false} RatioFacts(d: nat, m: nat)
    requires 0 < m && d <= m
    ensures 0.0 <= 1.0 - (d as real) / (m as real) <= 1.0
    ensures 1.0 - (d as real) / (m as real) == 1.0 <==> d == 0
  {
    assert (d as real) / (m as real) <= 1.0;
  }

  // ---------------------------------------------------------------------
  // Initial mappings

  /** The best header under the legacy score. */
  function LegacyBest(placeholder: string, headers: seq<string>): Mappings.Best {
    Mappings.BestBy(h => LegacySimilarity(placeholder, h), headers)
  }

  /** A placeholder's first mapping: the best header only when its score
      exceeds 0.5, and the best score in either case. */
  function LegacyMapping(placeholder: string, headers: seq<string>): Mappings.Mapping {
    var best := LegacyBest(placeholder, headers);
    Mappings.Mapping(placeholder, if best.score > Threshold then best.header else "", best.score)
  }

  /** The scoring loop over the headers for one placeholder. */
  method BestHeader(placeholder: string, headers: seq<string>) returns (bestHeader: string, bestScore: real)
    ensures Mappings.Best(bestHeader, bestScore) == LegacyBest(placeholder, headers)
  {
    bestHeader := "";
    bestScore := 0.0;
    for i := 0 to |headers|
      invariant Mappings.Best(bestHeader, bestScore) == Mappings.BestBy(h => LegacySimilarity(placeholder, h), headers[..i])
    {
      assert headers[..i + 1][..i] == headers[..i];
      var score := StringSimilarity(placeholder, headers[i]);
      if score > bestScore {
        bestScore := score;
        bestHeader := headers[i];
      }
    }
    assert headers[..|headers|] == headers;
  }

  /** `extractedPlaceholders.map(...)` with the threshold. */
  method InitialMappings(placeholders: seq<string>, headers: seq<string>) returns (mappings: seq<Mappings.Mapping>)
    ensures |mappings| == |placeholders|
    ensures forall i :: 0 <= i < |placeholders| ==> mappings[i] == LegacyMapping(placeholders[i], headers)
  {
    mappings := [];
    for i := 0 to |placeholders|
      invariant |mappings| == i
      invariant forall k :: 0 <= k < i ==> mappings[k] == LegacyMapping(placeholders[k], headers)
    {
      var bestHeader, bestScore := BestHeader(placeholders[i], headers);
      var header := if bestScore > Threshold then bestHeader else "";
      mappings := mappings + [Mappings.Mapping(placeholders[i], header, bestScore)];
    }
  }

  /** The running best never scores below 0, and a header other than ""
      is only ever chosen with a positive score: then it is the first
      header reaching that score. */
  lemma {:induction false} BestByChosen(score: string -> real, headers: seq<string>)
    ensures Mappings.BestBy(score, headers).score >= 0.0
    ensures Mappings.BestBy(score, headers).score == 0.0 ==> Mappings.BestBy(score, headers).header == ""
    ensures Mappings.BestBy(score, headers).score > 0.0 ==>
      exists i :: 0 <= i < |headers| && Mappings.BestBy(score, headers) == Mappings.Best(headers[i], score(headers[i]))
        && forall j :: 0 <= j < i ==> score(headers[j]) < Mappings.BestBy(score, headers).score
    decreases |headers|
  {
    if |headers| > 0 {
      var init := headers[..|headers| - 1];
      var prev := Mappings.BestBy(score, init);
      BestByChosen(score, init);
      assert forall j :: 0 <= j < |init| ==> headers[j] == init[j];
      if score(headers[|headers| - 1]) > prev.score {
        Mappings.BestByIsMaximal(score, init);
      } else if prev.score > 0.0 {
        var i :| 0 <= i < |init| && prev == Mappings.Best(init[i], score(init[i]))
                 && forall j :: 0 <= j < i ==> score(init[j]) < prev.score;
        assert Mappings.BestBy(score, headers) == Mappings.Best(headers[i], score(headers[i]));
      }
    }
  }

  /** The recorded score is the greatest over the headers (and at least
      0); the header is kept exactly when that score exceeds 0.5, and is
      then the first header reaching it. */
  lemma {:induction false} LegacyMappingThreshold(placeholder: string, headers: seq<string>)
    ensures var m := LegacyMapping(placeholder, headers);
      && m.placeholder == placeholder
      && 0.0 <= m.similarity <= 1.0
      && (forall j :: 0 <= j < |headers| ==> LegacySimilarity(placeholder, headers[j]) <= m.similarity)
      && (m.similarity <= Threshold ==> m.header == "")
      && (m.similarity > Threshold ==>
            exists i :: 0 <= i < |headers| && m.header == headers[i]
              && LegacySimilarity(placeholder, headers[i]) == m.similarity
              && forall j :: 0 <= j < i ==> LegacySimilarity(placeholder, headers[j]) < m.similarity)
  {
    var score := h => LegacySimilarity(placeholder, h);
    Mappings.BestByIsMaximal(score, headers);
    BestByChosen(score, headers);
    var best := LegacyBest(placeholder, headers);
    if best.score > 0.0 {
      var i :| 0 <= i < |headers| && best == Mappings.Best(headers[i], score(headers[i]));
      LegacySimilarityFacts(placeholder, headers[i]);
    }
  }

  // ---------------------------------------------------------------------
  // Placeholder extraction

  /** The name inside a brace span. */
  function Inner(s: string, sp: Extraction.Span): string
    requires sp.open < sp.close < |s|
  {
    s[sp.open + 1..sp.close]
  }

  predicate NoRepeats(names: seq<string>) {
    forall i, j :: 0 <= i < j < |names| ==> names[i] != names[j]
  }

  /** `new Set(...)` keeps the first occurrence of every name. */
  function AddName(names: seq<string>, name: string): (r: seq<string>)
    ensures name in r
    ensures forall n :: n in r <==> n in names || n == name
  {
    if name in names then names else names + [name]
  }

  function NameFold(s: string, spans: seq<Extraction.Span>): seq<string>
    requires forall k :: 0 <= k < |spans| ==> spans[k].open < spans[k].close < |s|
    decreases |spans|
  {
    if |spans| == 0 then []
    else AddName(NameFold(s, spans[..|spans| - 1]), Inner(s, spans[|spans| - 1]))
  }

  /** The names of the matches of `\{([^{}]+)\}`, without repeats, in the
      order they are first found. */
  function LegacyPlaceholders(content: string): seq<string> {
    var spans := Extraction.BraceSpans(content, 0, false);
    Extraction.BraceSpansFacts(content, 0, false);
    NameFold(content, spans)
  }

  lemma {:induction false} NameFoldFacts(s: string, spans: seq<Extraction.Span>)
    requires forall k :: 0 <= k < |spans| ==> spans[k].open < spans[k].close < |s|
    ensures NoRepeats(NameFold(s, spans))
    ensures forall n :: n in NameFold(s, spans) <==> exists k :: 0 <= k < |spans| && n == Inner(s, spans[k])
  {
    NameFoldNoRepeats(s, spans);
    forall n ensures n in NameFold(s, spans) <==> exists k :: 0 <= k < |spans| && n == Inner(s, spans[k]) {
      NameFoldMembers(s, spans, n);
    }
  }

  lemma {:induction false} NameFoldNoRepeats(s: string, spans: seq<Extraction.Span>)
    requires forall k :: 0 <= k < |spans| ==> spans[k].open < spans[k].close < |s|
    ensures NoRepeats(NameFold(s, spans))
    decreases |spans|
  {
    if |spans| > 0 {
      NameFoldNoRepeats(s, spans[..|spans| - 1]);
      AddNameNoRepeats(NameFold(s, spans[..|spans| - 1]), Inner(s, spans[|spans| - 1]));
    }
  }

  /** Adding a name keeps a list free of repeats. */
  lemma {:induction false} AddNameNoRepeats(names: seq<string>, name: string)
    requires NoRepeats(names)
    ensures NoRepeats(AddName(names, name))
  {
    if name !in names {
      var r := names + [name];
      forall i, j | 0 <= i < j < |r| ensures r[i] != r[j] {
        if j == |names| {
          assert r[i] == names[i];
        }
      }
    }
  }

  lemma {:induction false} NameFoldMembers(s: string, spans: seq<Extraction.Span>, n: string)
    requires forall k :: 0 <= k < |spans| ==> spans[k].open < spans[k].close < |s|
    ensures n in NameFold(s, spans) <==> exists k :: 0 <= k < |spans| && n == Inner(s, spans[k])
    decreases |spans|
  {
    if |spans| > 0 {
      var last := |spans| - 1;
      var init := spans[..last];
      NameFoldMembers(s, init, n);
      assert NameFold(s, spans) == AddName(NameFold(s, init), Inner(s, spans[last]));
      if n in NameFold(s, spans) {
        if n == Inner(s, spans[last]) {
        } else {
          var k :| 0 <= k < |init| && n == Inner(s, init[k]);
          assert init[k] == spans[k];
        }
      } else {
        forall k | 0 <= k < |spans| ensures n != Inner(s, spans[k]) {
          if k < last {
            assert init[k] == spans[k];
          }
        }
      }
    }
  }

  /** Every placeholder is a non-empty, brace-free name whose braced form
      occurs in the document; every brace-free `{...}` with something
      inside gives one; and none is listed twice. */
  lemma {:induction false} LegacyPlaceholdersFacts(content: string)
    ensures NoRepeats(LegacyPlaceholders(content))
    ensures forall n :: n in LegacyPlaceholders(content) ==>
      n != "" && (forall k :: 0 <= k < |n| ==> n[k] !in Braces)
      && exists i :: OccursAt(content, "{" + n + "}", i)
    ensures (Extraction.BraceSpansFacts(content, 0, false);
      forall k :: 0 <= k < |Extraction.BraceSpans(content, 0, false)| ==>
        Inner(content, Extraction.BraceSpans(content, 0, false)[k]) in LegacyPlaceholders(content))
  {
    var spans := Extraction.BraceSpans(content, 0, false);
    Extraction.BraceSpansFacts(content, 0, false);
    NameFoldFacts(content, spans);
    forall n | n in LegacyPlaceholders(content)
      ensures n != "" && (forall k :: 0 <= k < |n| ==> n[k] !in Braces)
      ensures exists i :: OccursAt(content, "{" + n + "}", i)
    {
      var k :| 0 <= k < |spans| && n == Inner(content, spans[k]);
      InnerIsName(content, spans[k]);
    }
  }

  /** The name inside a brace-free span with something inside. */
  lemma {:induction false} InnerIsName(s: string, sp: Extraction.Span)
    requires Extraction.BraceFree(s, sp) && sp.open + 1 < sp.close
    ensures var n := Inner(s, sp);
      && n != "" && (forall k :: 0 <= k < |n| ==> n[k] !in Braces)
      && OccursAt(s, "{" + n + "}", sp.open)
  {
    var n := Inner(s, sp);
    assert forall j :: 0 <= j < |n| ==> n[j] == s[sp.open + 1 + j];
    assert s[sp.open..sp.close + 1] == "{" + n + "}";
  }

  // ---------------------------------------------------------------------
  // Moving and remapping entries

  /** `movePlaceholder`: "up" swaps an entry with the one before it and
      "down" with the one after it; at the ends of the list, and for any
      other direction, nothing changes. */
  function Moved<T>(entries: seq<T>, index: nat, direction: string): (r: seq<T>)
    requires index < |entries|
    ensures |r| == |entries| && multiset(r) == multiset(entries)
    ensures direction == "up" && index > 0 ==>
      r[index] == entries[index - 1] && r[index - 1] == entries[index]
      && forall k :: 0 <= k < |entries| && k != index && k != index - 1 ==> r[k] == entries[k]
    ensures direction == "down" && index < |entries| - 1 ==>
      r[index] == entries[index + 1] && r[index + 1] == entries[index]
      && forall k :: 0 <= k < |entries| && k != index && k != index + 1 ==> r[k] == entries[k]
    ensures !(direction == "up" && index > 0) && !(direction == "down" && index < |entries| - 1) ==>
      r == entries
  {
    if direction == "up" && index > 0 then
      Swapped(entries, index - 1, index)
    else if direction == "down" && index < |entries| - 1 then
      Swapped(entries, index, index + 1)
    else entries
  }

  /** The list with entries `i` and `i + 1` exchanged. */
  function Swapped<T>(entries: seq<T>, i: nat, j: nat): (r: seq<T>)
    requires i < j == i + 1 && j < |entries|
    ensures |r| == |entries| && multiset(r) == multiset(entries)
    ensures r[i] == entries[j] && r[j] == entries[i]
    ensures forall k :: 0 <= k < |entries| && k != i && k != j ==> r[k] == entries[k]
  {
    var r := entries[i := entries[j]][j := entries[i]];
    assert entries == entries[..i] + [entries[i], entries[j]] + entries[j + 1..];
    assert r == entries[..i] + [entries[j], entries[i]] + entries[j + 1..];
    r
  }

  /** Moving an entry up and then back down restores the list, and so
      does moving it down and back up. */
  lemma {:induction false} MoveUndo<T>(entries: seq<T>, index: nat)
    requires index < |entries|
    ensures index > 0 ==> Moved(Moved(entries, index, "up"), index - 1, "down") == entries
    ensures index < |entries| - 1 ==> Moved(Moved(entries, index, "down"), index + 1, "up") == entries
  {
    if index > 0 {
      assert Moved(entries, index, "up") == Swapped(entries, index - 1, index);
      var once := Swapped(entries, index - 1, index);
      assert Moved(once, index - 1, "down") == Swapped(once, index - 1, index);
      SwapTwice(entries, index - 1, index);
    }
    if index < |entries| - 1 {
      assert Moved(entries, index, "down") == Swapped(entries, index, index + 1);
      var once := Swapped(entries, index, index + 1);
      assert Moved(once, index + 1, "up") == Swapped(once, index, index + 1);
      SwapTwice(entries, index, index + 1);
    }
  }

  lemma {:induction false} SwapTwice<T>(entries: seq<T>, i: nat, j: nat)
    requires i < j == i + 1 && j < |entries|
    ensures Swapped(Swapped(entries, i, j), i, j) == entries
  {
    var twice := Swapped(Swapped(entries, i, j), i, j);
    forall k | 0 <= k < |entries| ensures twice[k] == entries[k] {
    }
  }

  // ---------------------------------------------------------------------
  // Generation

  /** `content.replace(/\{p\}/g, value)` for a literal token: every
      occurrence, left to right and without overlap, gives way to the
      value. */
  function ReplaceAll(c: string, tok: string, value: string): string
    requires |tok| > 0
  {
    var ms := Merge.Matches(c, tok, 0);
    Merge.MatchesOrdered(c, tok);
    Merge.Spliced(c, |tok|, ms, Copies(value, |ms|))
  }

  /** `n` copies of the replacement, one per match. */
  function Copies(value: string, n: nat): (r: seq<string>)
    ensures |r| == n && forall k :: 0 <= k < n ==> r[k] == value
  {
    seq(n, _ => value)
  }

  /** The replacement one placeholder makes: only when its header is set
      and the row has a cell under it. */
  function FillOne(c: string, placeholder: string, mappingDict: map<string, string>, row: Row): string {
    var header := Lookup(mappingDict, placeholder);
    if header != "" && header in row then ReplaceAll(c, "{" + placeholder + "}", row[header]) else c
  }

  /** The placeholders in list order, each on the text the earlier ones
      left. */
  function Fill(c: string, placeholders: seq<string>, mappingDict: map<string, string>, row: Row): string
    decreases |placeholders|
  {
    if |placeholders| == 0 then c
    else FillOne(Fill(c, placeholders[..|placeholders| - 1], mappingDict, row),
                 placeholders[|placeholders| - 1], mappingDict, row)
  }

  /** Why generation fails: there is no template, the archive lacks the
      document entry, or a mapped placeholder needs a row that is not
      there. */
  datatype GenerateError = NoTemplate | MissingEntry | NoRow

  /** Whether some placeholder has a header set. */
  predicate AnyMapped(placeholders: seq<string>, mappingDict: map<string, string>) {
    exists i :: 0 <= i < |placeholders| && Lookup(mappingDict, placeholders[i]) != ""
  }

  /** `generateDocuments` as a value: the archive entries to download. A
      `.docx` or `.odt` template has its document entry filled from the
      first row; any other file name is returned as it is. The filled
      entry is `Fill` of the template's entry with the first row:
      FillContent, FillUnmapped, ReplaceAllFacts and FirstRowOnly state
      what that substitution does. */
  function Generate(template: Option<(string, map<string, string>)>, placeholders: seq<string>,
                    mappings: seq<Mappings.Mapping>, rows: seq<Row>): (r: Result<map<string, string>>)
    ensures r.Failure? ==> StartsWith(r.error, Merge.GenerateErrorPrefix)
    ensures r.Failure? <==>
      || template.None?
      || (template.Some? && Adapters.DialectOf(template.value.0).Some?
          && (Adapters.ContentEntry(Adapters.DialectOf(template.value.0).value) !in template.value.1
              || (|rows| == 0 && AnyMapped(placeholders, Merge.MappingDict(mappings)))))
    ensures r.Success? && Adapters.DialectOf(template.value.0).None? ==> r.value == template.value.1
    ensures r.Success? && Adapters.DialectOf(template.value.0).Some? ==>
      var entries := template.value.1;
      var entry := Adapters.ContentEntry(Adapters.DialectOf(template.value.0).value);
      && r.value.Keys == entries.Keys
      && (forall e :: e in entries && e != entry ==> r.value[e] == entries[e])
  {
    match template
    case None => Failure(GenerateMessage(NoTemplate))
    case Some((fileName, entries)) =>
      match Adapters.DialectOf(fileName)
      case None => Success(entries)
      case Some(d) =>
        var entry := Adapters.ContentEntry(d);
        var mappingDict := Merge.MappingDict(mappings);
        if entry !in entries then Failure(GenerateMessage(MissingEntry))
        else if |rows| == 0 then
          if AnyMapped(placeholders, mappingDict) then Failure(GenerateMessage(NoRow))
          else Success(entries[entry := Fill(entries[entry], placeholders, mappingDict, map[])])
        else Success(entries[entry := Fill(entries[entry], placeholders, mappingDict, rows[0])])
  }

  /** The message a failed generation shows. The causes are the runtime's
      own errors; only the prefix is the screen's. */
  function GenerateMessage(cause: GenerateError): (m: string)
    ensures StartsWith(m, Merge.GenerateErrorPrefix)
  {
    var detail := match cause
      case NoTemplate => "no template"
      case MissingEntry => Merge.EntryMissingMessage
      case NoRow => "no data row";
    assert (Merge.GenerateErrorPrefix + detail)[..|Merge.GenerateErrorPrefix|] == Merge.GenerateErrorPrefix;
    Merge.GenerateErrorPrefix + detail
  }

  // ---------------------------------------------------------------------
  // Properties of generation

  lemma {:induction false} GrowthConstant(value: string, len: nat, n: nat)
    ensures Merge.Growth(Copies(value, n), len) == n * (|value| - len)
    decreases n
  {
    if n > 0 {
      assert Copies(value, n)[..n - 1] == Copies(value, n - 1);
      GrowthConstant(value, len, n - 1);
    }
  }

  /** Replacing every occurrence puts the value where the `k`-th
      occurrence was, shifted by what the earlier replacements added; the
      length changes by the same amount per occurrence; and replacing a
      token by itself changes nothing. */
  lemma {:induction false} ReplaceAllFacts(c: string, tok: string, value: string)
    requires |tok| > 0
    ensures var ms := Merge.Matches(c, tok, 0);
      && |ReplaceAll(c, tok, value)| == |c| + |ms| * (|value| - |tok|)
      && (forall k :: 0 <= k < |ms| ==>
            OccursAt(ReplaceAll(c, tok, value), value, ms[k] + k * (|value| - |tok|)))
    ensures value == tok ==> ReplaceAll(c, tok, value) == c
  {
    var ms := Merge.Matches(c, tok, 0);
    ReplaceAllLength(c, tok, value);
    forall k | 0 <= k < |ms|
      ensures OccursAt(ReplaceAll(c, tok, value), value, ms[k] + k * (|value| - |tok|))
    {
      ReplaceAllPlaces(c, tok, value, k);
    }
    if value == tok {
      ReplaceAllSelf(c, tok);
    }
  }

  lemma {:induction false} ReplaceAllSelf(c: string, tok: string)
    requires |tok| > 0
    ensures ReplaceAll(c, tok, tok) == c
  {
    var ms := Merge.Matches(c, tok, 0);
    Merge.MatchesOrdered(c, tok);
    forall j | 0 <= j < |ms| ensures OccursAt(c, tok, ms[j]) {
      Merge.MatchOccurs(c, tok, 0, j);
    }
    var vals := Copies(tok, |ms|);
    Merge.SplicedIdentity(c, tok, ms, vals);
  }

  lemma {:induction false} ReplaceAllLength(c: string, tok: string, value: string)
    requires |tok| > 0
    ensures |ReplaceAll(c, tok, value)| == |c| + |Merge.Matches(c, tok, 0)| * (|value| - |tok|)
  {
    var ms := Merge.Matches(c, tok, 0);
    Merge.MatchesOrdered(c, tok);
    var vals := Copies(value, |ms|);
    Merge.SplicedLength(c, |tok|, ms, vals);
    GrowthConstant(value, |tok|, |ms|);
  }

  lemma {:induction false} ReplaceAllPlaces(c: string, tok: string, value: string, k: nat)
    requires |tok| > 0 && k < |Merge.Matches(c, tok, 0)|
    ensures OccursAt(ReplaceAll(c, tok, value), value, Merge.Matches(c, tok, 0)[k] + k * (|value| - |tok|))
  {
    var ms := Merge.Matches(c, tok, 0);
    Merge.MatchesOrdered(c, tok);
    var vals := Copies(value, |ms|);
    Merge.BuiltPlacesValue(c, |tok|, ms, vals, k, |ms|);
    assert vals[..k] == Copies(value, k);
    GrowthConstant(value, |tok|, k);
    var b := Merge.Built(c, |tok|, ms, vals, |ms|);
    OccursInConcat(b, c[Merge.Resume(ms, |tok|, |ms|)..], value, ms[k] + k * (|value| - |tok|));
  }

  /** Placeholders without a header, or whose header has no cell in the
      row, leave the document as it was. */
  lemma {:induction false} FillUnmapped(c: string, placeholders: seq<string>, mappingDict: map<string, string>, row: Row)
    requires forall i :: 0 <= i < |placeholders| ==>
      Lookup(mappingDict, placeholders[i]) == "" || Lookup(mappingDict, placeholders[i]) !in row
    ensures Fill(c, placeholders, mappingDict, row) == c
    decreases |placeholders|
  {
    if |placeholders| > 0 {
      FillUnmapped(c, placeholders[..|placeholders| - 1], mappingDict, row);
    }
  }

  /** Only the first row is read: the rows after it make no difference. */
  lemma {:induction false} FirstRowOnly(template: Option<(string, map<string, string>)>, placeholders: seq<string>,
                     mappings: seq<Mappings.Mapping>, rows: seq<Row>)
    requires |rows| > 0
    ensures Generate(template, placeholders, mappings, rows) == Generate(template, placeholders, mappings, rows[..1])
  {
  }

  // ---------------------------------------------------------------------
  // The screen state

  /** The component's state. The template is the uploaded file's name and
      archive entries, once a file was chosen. */
  class Screen {
    var activeStep: string
    var sheetData: string
    var headers: seq<string>
    var rows: seq<Row>
    var placeholders: seq<string>
    var mappings: seq<Mappings.Mapping>
    var template: Option<(string, map<string, string>)>
    var error: string

    constructor()
      ensures activeStep == PasteStep && sheetData == "" && headers == [] && rows == []
      ensures placeholders == [] && mappings == [] && template.None? && error == ""
    {
      activeStep := PasteStep;
      sheetData := "";
      headers := [];
      rows := [];
      placeholders := [];
      mappings := [];
      template := None;
      error := "";
    }

    method SetSheetData(text: string)
      modifies this
      ensures sheetData == text
      ensures activeStep == old(activeStep) && headers == old(headers) && rows == old(rows)
      ensures placeholders == old(placeholders) && mappings == old(mappings)
      ensures template == old(template) && error == old(error)
    {
      sheetData := text;
    }

    /** `parseSheetData`: the rules of the table parser, with this
        screen's message for a single line. */
    method ParseSheetData() returns (ok: bool)
      modifies this
      ensures ok <==> SheetData.ParseSheet(old(sheetData)).Parsed?
      ensures sheetData == old(sheetData) && activeStep == old(activeStep)
      ensures placeholders == old(placeholders) && mappings == old(mappings) && template == old(template)
      ensures SheetData.ParseSheet(old(sheetData)).Blank? ==>
                headers == old(headers) && rows == old(rows) && error == old(error)
      ensures SheetData.ParseSheet(old(sheetData)).TooFew? ==>
                headers == old(headers) && rows == old(rows) && error == TooFewMessage
      ensures SheetData.ParseSheet(old(sheetData)).Parsed? ==>
                headers == SheetData.ParseSheet(old(sheetData)).headers
                && rows == SheetData.ParseSheet(old(sheetData)).rows && error == ""
    {
      if Trim(sheetData) == "" {
        return false;
      }
      var lines := Split(Trim(sheetData), '\n');
      if |lines| < 2 {
        error := TooFewMessage;
        return false;
      }
      var delimiter := SheetData.Delimiter(lines[0]);
      var extractedHeaders := Split(lines[0], delimiter);
      var extractedRows := SheetData.ExtractRows(extractedHeaders, lines, delimiter);
      headers := extractedHeaders;
      rows := extractedRows;
      error := "";
      return true;
    }

    /** `handlePaste`: a successful parse moves on to the upload step. */
    method HandlePaste()
      modifies this
      ensures SheetData.ParseSheet(sheetData).Parsed? ==> activeStep == UploadStep
      ensures !SheetData.ParseSheet(sheetData).Parsed? ==> activeStep == old(activeStep)
      ensures sheetData == old(sheetData) && placeholders == old(placeholders)
      ensures mappings == old(mappings) && template == old(template)
      ensures SheetData.ParseSheet(sheetData).Blank? ==>
                headers == old(headers) && rows == old(rows) && error == old(error)
      ensures SheetData.ParseSheet(sheetData).TooFew? ==>
                headers == old(headers) && rows == old(rows) && error == TooFewMessage
      ensures SheetData.ParseSheet(sheetData).Parsed? ==>
                headers == SheetData.ParseSheet(sheetData).headers
                && rows == SheetData.ParseSheet(sheetData).rows && error == ""
    {
      var success := ParseSheetData();
      if success {
        activeStep := UploadStep;
      }
    }

    /** `handleFileUpload`: the file is kept; a document without content
        sets the error; otherwise the placeholders are found and mapped
        and the review step is entered. */
    method HandleFileUpload(fileName: string, entries: map<string, string>)
      modifies this
      ensures template == Some((fileName, entries))
      ensures sheetData == old(sheetData) && headers == old(headers) && rows == old(rows)
      ensures Extraction.DocumentContent(fileName, entries) == "" ==>
        && error == Mappings.UploadErrorPrefix + Extraction.NoContentMessage
        && placeholders == old(placeholders) && mappings == old(mappings)
        && activeStep == old(activeStep)
      ensures Extraction.DocumentContent(fileName, entries) != "" ==>
        && error == "" && activeStep == Mappings.ReviewStep
        && placeholders == LegacyPlaceholders(Extraction.DocumentContent(fileName, entries))
        && |mappings| == |placeholders|
        && forall i :: 0 <= i < |placeholders| ==> mappings[i] == LegacyMapping(placeholders[i], headers)
    {
      error := "";
      template := Some((fileName, entries));
      var documentContent := Extraction.DocumentContent(fileName, entries);
      if documentContent == "" {
        error := Mappings.UploadErrorPrefix + Extraction.NoContentMessage;
        return;
      }
      var extractedPlaceholders := LegacyPlaceholders(documentContent);
      placeholders := extractedPlaceholders;
      var initialMappings := InitialMappings(extractedPlaceholders, headers);
      mappings := initialMappings;
      activeStep := Mappings.ReviewStep;
    }

    /** `movePlaceholder`. */
    method MovePlaceholder(index: nat, direction: string)
      requires index < |mappings|
      modifies this
      ensures mappings == Moved(old(mappings), index, direction)
      ensures activeStep == old(activeStep) && sheetData == old(sheetData) && headers == old(headers)
      ensures rows == old(rows) && placeholders == old(placeholders)
      ensures template == old(template) && error == old(error)
    {
      if direction == "up" && index > 0 {
        var newMappings := mappings;
        newMappings := newMappings[index := mappings[index - 1]][index - 1 := mappings[index]];
        mappings := newMappings;
      } else if direction == "down" && index < |mappings| - 1 {
        var newMappings := mappings;
        newMappings := newMappings[index := mappings[index + 1]][index + 1 := mappings[index]];
        mappings := newMappings;
      }
    }

    /** `updateMapping`: only the header of entry `index` changes. */
    method UpdateMapping(index: nat, header: string)
      requires index < |mappings|
      modifies this
      ensures mappings == Mappings.UpdateMapping(old(mappings), index, header)
      ensures activeStep == old(activeStep) && sheetData == old(sheetData) && headers == old(headers)
      ensures rows == old(rows) && placeholders == old(placeholders)
      ensures template == old(template) && error == old(error)
    {
      mappings := Mappings.UpdateMapping(mappings, index, header);
    }

    /** `generateDocuments`: the archive to download, or the error. */
    method GenerateDocuments() returns (archive: Option<map<string, string>>)
      modifies this
      ensures Generate(template, placeholders, mappings, rows).Success? ==>
        archive == Some(Generate(template, placeholders, mappings, rows).value) && error == ""
      ensures Generate(template, placeholders, mappings, rows).Failure? ==>
        archive.None? && error == Generate(template, placeholders, mappings, rows).error
      ensures activeStep == old(activeStep) && sheetData == old(sheetData) && headers == old(headers)
      ensures rows == old(rows) && placeholders == old(placeholders) && mappings == old(mappings)
      ensures template == old(template)
    {
      error := "";
      var mappingDict := Merge.MappingDict(mappings);
      if template.None? {
        error := GenerateMessage(NoTemplate);
        return None;
      }
      var (fileName, entries) := template.value;
      var dialect := Adapters.DialectOf(fileName);
      if dialect.None? {
        return Some(entries);
      }
      var entry := Adapters.ContentEntry(dialect.value);
      if entry !in entries {
        error := GenerateMessage(MissingEntry);
        return None;
      }
      var row: Row := if |rows| > 0 then rows[0] else map[];
      var newContent, ok := FillContent(entries[entry], placeholders, mappingDict, row, |rows| > 0);
      if !ok {
        error := GenerateMessage(NoRow);
        return None;
      }
      archive := Some(entries[entry := newContent]);
    }
  }

  /** The `placeholders.forEach` loop: each mapped placeholder with a cell
      in the row has its braced name replaced. Without a row, the first
      mapped placeholder fails. */
  method FillContent(contentXml: string, placeholders: seq<string>, mappingDict: map<string, string>,
                     row: Row, hasRow: bool) returns (newContent: string, ok: bool)
    requires !hasRow ==> row == map[]
    ensures ok <==> hasRow || !AnyMapped(placeholders, mappingDict)
    ensures ok ==> newContent == Fill(contentXml, placeholders, mappingDict, row)
  {
    newContent := contentXml;
    for i := 0 to |placeholders|
      invariant newContent == Fill(contentXml, placeholders[..i], mappingDict, row)
      invariant !hasRow ==> forall j :: 0 <= j < i ==> Lookup(mappingDict, placeholders[j]) == ""
    {
      assert placeholders[..i + 1][..i] == placeholders[..i];
      var placeholder := placeholders[i];
      var header := Lookup(mappingDict, placeholder);
      if header != "" {
        if !hasRow {
          return newContent, false;
        }
        if header in row {
          newContent := ReplaceAll(newContent, "{" + placeholder + "}", row[header]);
        }
      }
    }
    assert placeholders[..|placeholders|] == placeholders;
    ok := true;
  }
}

=== FILE: levenshtein.dfy ===
/** Levenshtein edit distance, as both scorers compute it: a matrix whose
    cell (i, j) holds the distance between the first i characters of one
    string and the first j characters of the other. */
module Levenshtein {

  function Min3(x: nat, y: nat, z: nat): (m: nat)
    ensures m <= x && m <= y && m <= z
    ensures m == x || m == y || m == z
  {
    if x <= y && x <= z then x else if y <= z then y else z
  }

  function Max(x: nat, y: nat): nat {
    if x >= y then x else y
  }

  /** The edit distance between `a[..i]` and `b[..j]` with unit cost for a
      deletion, an insertion and a substitution of a different character. */
  function Dist(a: string, b: string, i: nat, j: nat): nat
    requires i <= |a| && j <= |b|
    decreases i + j
  {
    if i == 0 then j
    else if j == 0 then i
    else Min3(Dist(a, b, i - 1, j) + 1,
              Dist(a, b, i, j - 1) + 1,
              Dist(a, b, i - 1, j - 1) + (if a[i - 1] == b[j - 1] then 0 else 1))
  }

  /** The edit distance between two whole strings. */
  function EditDistance(a: string, b: string): nat {
    Dist(a, b, |a|, |b|)
  }

  /** Substituting along the shorter string and inserting the rest never
      costs more than the longer length. */
  lemma {:induction false} DistAtMostLonger(a: string, b: string, i: nat, j: nat)
    requires i <= |a| && j <= |b|
    ensures Dist(a, b, i, j) <= Max(i, j)
    decreases i + j
  {
    if i > 0 && j > 0 {
      DistAtMostLonger(a, b, i - 1, j - 1);
    }
  }

  /** The distance is zero exactly for equal prefixes. */
  lemma {:induction false} DistZeroIffEqual(a: string, b: string, i: nat, j: nat)
    requires i <= |a| && j <= |b|
    ensures Dist(a, b, i, j) == 0 <==> i == j && a[..i] == b[..j]
    decreases i + j
  {
    if i > 0 && j > 0 {
      DistZeroIffEqual(a, b, i - 1, j - 1);
      if i == j && a[..i] == b[..j] {
        assert a[..i - 1] == a[..i][..i - 1] && b[..j - 1] == b[..j][..j - 1];
        assert a[i - 1] == a[..i][i - 1] && b[j - 1] == b[..j][j - 1];
      }
      if Dist(a, b, i, j) == 0 {
        assert a[..i] == a[..i - 1] + [a[i - 1]] && b[..j] == b[..j - 1] + [b[j - 1]];
      }
    }
  }

  /** The distance does not depend on which string comes first. */
  lemma {:induction false} DistSymmetric(a: string, b: string, i: nat, j: nat)
    requires i <= |a| && j <= |b|
    ensures Dist(a, b, i, j) == Dist(b, a, j, i)
    decreases i + j
  {
    if i > 0 && j > 0 {
      DistSymmetric(a, b, i - 1, j);
      DistSymmetric(a, b, i, j - 1);
      DistSymmetric(a, b, i - 1, j - 1);
    }
  }


  lemma {:induction false} EditDistanceFacts(a: string, b: string)
    ensures EditDistance(a, b) <= Max(|a|, |b|)
    ensures EditDistance(a, b) == 0 <==> a == b
    ensures EditDistance(a, b) == EditDistance(b, a)
  {
    DistAtMostLonger(a, b, |a|, |b|);
    DistZeroIffEqual(a, b, |a|, |b|);
    assert a[..|a|] == a && b[..|b|] == b;
    DistSymmetric(a, b, |a|, |b|);
  }

  /** The dynamic-programming computation: the first column and the first
      row are initialised with their indices, then every inner cell takes
      the cheapest of deletion, insertion and substitution. */
  method ComputeEditDistance(a: string, b: string) returns (d: nat)
    ensures d == EditDistance(a, b)
  {
    var matrix := new int[|a| + 1, |b| + 1];
    for i := 0 to |a| + 1
      invariant forall r :: 0 <= r < i ==> matrix[r, 0] == r
    {
      matrix[i, 0] := i;
    }
    for j := 0 to |b| + 1
      invariant forall r :: 0 <= r <= |a| ==> matrix[r, 0] == r
      invariant forall c :: 0 <= c < j ==> matrix[0, c] == c
    {
      matrix[0, j] := j;
    }
    for i := 1 to |a| + 1
      invariant forall r, c {:trigger matrix[r, c]} :: 0 <= r < i && 0 <= c <= |b| ==> matrix[r, c] == Dist(a, b, r, c)
      invariant forall r :: i <= r <= |a| ==> matrix[r, 0] == r
    {
      FillRow(a, b, matrix, i);
    }
    d := matrix[|a|, |b|];
  }

  /** One pass of the inner loop: fills row `i` from the row above it and
      leaves every other row as it was. */
  method FillRow(a: string, b: string, matrix: array2<int>, i: nat)
    requires matrix.Length0 == |a| + 1 && matrix.Length1 == |b| + 1
    requires 1 <= i <= |a| && matrix[i, 0] == i
    requires forall c {:trigger matrix[i - 1, c]} :: 0 <= c <= |b| ==> matrix[i - 1, c] == Dist(a, b, i - 1, c)
    modifies matrix
    ensures forall c {:trigger matrix[i, c]} :: 0 <= c <= |b| ==> matrix[i, c] == Dist(a, b, i, c)
    ensures forall r, c :: 0 <= r <= |a| && 0 <= c <= |b| && r != i ==> matrix[r, c] == old(matrix[r, c])
  {
    for j := 1 to |b| + 1
      invariant forall c {:trigger matrix[i - 1, c]} :: 0 <= c <= |b| ==> matrix[i - 1, c] == Dist(a, b, i - 1, c)
      invariant forall c {:trigger matrix[i, c]} :: 0 <= c < j ==> matrix[i, c] == Dist(a, b, i, c)
      invariant forall r, c :: 0 <= r <= |a| && 0 <= c <= |b| && r != i ==> matrix[r, c] == old(matrix[r, c])
    {
      var cost := if a[i - 1] == b[j - 1] then 0 else 1;
      var up, left, diag := matrix[i - 1, j], matrix[i, j - 1], matrix[i - 1, j - 1];
      assert up == Dist(a, b, i - 1, j) && left == Dist(a, b, i, j - 1) && diag == Dist(a, b, i - 1, j - 1);
      var cell := Min3(up + 1, left + 1, diag + cost);
      assert cell == Dist(a, b, i, j);
      matrix[i, j] := cell;
    }
  }
}

=== FILE: mapping.dfy ===
/** The mapping part of `handleFileUpload` (use-file-processing.ts): every
    placeholder is paired with its best-scoring header, a secondary phone
    column is inferred among the headers no mapping uses, and the upload
    hook's state records the outcome. */
module Mappings {
  import opened Text
  import opened PlaceholderMap
  import Scorer
  import Extraction

  const UploadErrorPrefix: string := "Error processing file: "
  const ReviewStep: string := "review"
  const TelefonMarker: string := "telefon"
  const Keywords: seq<string> := ["telefon", "tel", "mobile", "mobil", "gsm", "cell"]
  const KeywordScore: real := 0.8
  const SimilarityWeight: real := 0.7
  const SecondaryThreshold: real := 0.4

  /** One row of the mapping table. */
  datatype Mapping = Mapping(placeholder: string, header: string, similarity: real)

  datatype TelefonSettings = TelefonSettings(enabled: bool, secondaryField: string)

  /** The special-placeholder settings. */
  datatype Settings = Settings(razredEnabled: bool, telefon: TelefonSettings)

  const DefaultSettings: Settings := Settings(true, TelefonSettings(true, ""))

  /** A running best choice: a header and its score. */
  datatype Best = Best(header: string, score: real)

  // ---------------------------------------------------------------------
  // Best header

  /** The best header after scoring `headers` in order with `score`: a
      header replaces the running best only with a strictly greater score,
      starting from "" and 0. */
  function BestBy(score: string -> real, headers: seq<string>): Best
    decreases |headers|
  {
    if |headers| == 0 then Best("", 0.0)
    else
      var prev := BestBy(score, headers[..|headers| - 1]);
      var header := headers[|headers| - 1];
      if score(header) > prev.score then Best(header, score(header)) else prev
  }

  /** The header chosen for a placeholder. */
  function BestOf(placeholder: string, headers: seq<string>): Best {
    BestBy(h => Scorer.Similarity(placeholder, h), headers)
  }

  /** The mapping a placeholder starts with. */
  function InitialMapping(placeholder: string, headers: seq<string>): Mapping {
    var b := BestOf(placeholder, headers);
    Mapping(placeholder, b.header, b.score)
  }

  /** The scoring loop for one placeholder. */
  method BestHeader(placeholder: string, headers: seq<string>) returns (bestHeader: string, bestScore: real)
    ensures Best(bestHeader, bestScore) == BestOf(placeholder, headers)
  {
    bestHeader := "";
    bestScore := 0.0;
    for i := 0 to |headers|
      invariant Best(bestHeader, bestScore) == BestOf(placeholder, headers[..i])
    {
      var score := Scorer.StringSimilarity(placeholder, headers[i]);
      BestOfStep(placeholder, headers, i, score);
      if score > bestScore {
        bestScore := score;
        bestHeader := headers[i];
      }
    }
    assert headers[..|headers|] == headers;
  }

  /** One step of the scoring loop: a strictly better score takes over. */
  lemma BestOfStep(placeholder: string, headers: seq<string>, i: nat, score: real)
    requires i < |headers| && score == Scorer.Similarity(placeholder, headers[i])
    ensures var prev := BestOf(placeholder, headers[..i]);
      BestOf(placeholder, headers[..i + 1]) == if score > prev.score then Best(headers[i], score) else prev
  {
    assert headers[..i + 1][..i] == headers[..i];
  }

  /** `extractedPlaceholders.map(...)`. */
  method InitialMappings(placeholders: seq<string>, headers: seq<string>) returns (mappings: seq<Mapping>)
    ensures |mappings| == |placeholders|
    ensures forall i :: 0 <= i < |placeholders| ==> mappings[i] == InitialMapping(placeholders[i], headers)
  {
    mappings := [];
    for i := 0 to |placeholders|
      invariant |mappings| == i
      invariant forall k :: 0 <= k < i ==> mappings[k] == InitialMapping(placeholders[k], headers)
    {
      var bestHeader, bestScore := BestHeader(placeholders[i], headers);
      mappings := mappings + [Mapping(placeholders[i], bestHeader, bestScore)];
    }
  }

  /** No header scores more than the chosen one. */
  lemma {:induction false} BestByIsMaximal(score: string -> real, headers: seq<string>)
    ensures forall j :: 0 <= j < |headers| ==> score(headers[j]) <= BestBy(score, headers).score
    decreases |headers|
  {
    if |headers| > 0 {
      var init := headers[..|headers| - 1];
      BestByIsMaximal(score, init);
      assert forall j :: 0 <= j < |init| ==> headers[j] == init[j];
    }
  }

  /** With positive scores the chosen header is a header with its own
      score, and every earlier header scores strictly less; with no header
      the choice is "" at 0. */
  lemma {:induction false} BestByIsFirst(score: string -> real, headers: seq<string>)
    requires forall h :: score(h) > 0.0
    ensures |headers| == 0 ==> BestBy(score, headers) == Best("", 0.0)
    ensures |headers| > 0 ==>
      exists i :: 0 <= i < |headers| && BestBy(score, headers) == Best(headers[i], score(headers[i]))
        && forall j :: 0 <= j < i ==> score(headers[j]) < BestBy(score, headers).score
    decreases |headers|
  {
    if |headers| > 0 {
      var init := headers[..|headers| - 1];
      var prev := BestBy(score, init);
      BestByIsFirst(score, init);
      assert forall j :: 0 <= j < |init| ==> headers[j] == init[j];
      if score(headers[|headers| - 1]) > prev.score {
        BestByIsMaximal(score, init);
      } else {
        var i :| 0 <= i < |init| && prev == Best(init[i], score(init[i]))
                 && forall j :: 0 <= j < i ==> score(init[j]) < prev.score;
        assert BestBy(score, headers) == Best(headers[i], score(headers[i]));
      }
    }
  }

  /** With headers, a placeholder gets the first header of greatest
      similarity. */
  lemma {:induction false} BestOfIsFirstArgmax(placeholder: string, headers: seq<string>)
    requires |headers| > 0
    ensures exists i ::
              && 0 <= i < |headers|
              && BestOf(placeholder, headers) == Best(headers[i], Scorer.Similarity(placeholder, headers[i]))
              && forall j :: 0 <= j < i ==> Scorer.Similarity(placeholder, headers[j]) < BestOf(placeholder, headers).score
  {
    SimilarityScoreBounds(placeholder);
    BestByIsFirstArgmax(h => Scorer.Similarity(placeholder, h), headers, 0.3, 0.9);
  }

  /** No header is more similar to the placeholder than the chosen one. */
  lemma {:induction false} BestOfIsMaximal(placeholder: string, headers: seq<string>)
    ensures forall j :: 0 <= j < |headers| ==> Scorer.Similarity(placeholder, headers[j]) <= BestOf(placeholder, headers).score
  {
    BestByIsMaximal(h => Scorer.Similarity(placeholder, h), headers);
  }

  /** Without headers the choice is "" at 0; with headers it is one of
      them, scoring in [0.3, 0.9]. */
  lemma {:induction false} BestOfBounds(placeholder: string, headers: seq<string>)
    ensures |headers| == 0 ==> BestOf(placeholder, headers) == Best("", 0.0)
    ensures |headers| > 0 ==> BestOf(placeholder, headers).header in headers
                              && 0.3 <= BestOf(placeholder, headers).score <= 0.9
  {
    SimilarityScoreBounds(placeholder);
    BestByIsFirstArgmax(h => Scorer.Similarity(placeholder, h), headers, 0.3, 0.9);
  }

  lemma {:induction false} SimilarityScoreBounds(placeholder: string)
    ensures forall h :: 0.3 <= Scorer.Similarity(placeholder, h) <= 0.9
  {
    forall h ensures 0.3 <= Scorer.Similarity(placeholder, h) <= 0.9 {
      Scorer.SimilarityBounds(placeholder, h);
    }
  }

  /** With scores between `lo > 0` and `hi`, the choice is the first
      header of greatest score, and its score lies between the bounds. */
  lemma {:induction false} BestByIsFirstArgmax(score: string -> real, headers: seq<string>, lo: real, hi: real)
    requires 0.0 < lo && forall h :: lo <= score(h) <= hi
    ensures |headers| == 0 ==> BestBy(score, headers) == Best("", 0.0)
    ensures |headers| > 0 ==>
      exists i :: 0 <= i < |headers| && BestBy(score, headers) == Best(headers[i], score(headers[i]))
        && (forall j :: 0 <= j < i ==> score(headers[j]) < BestBy(score, headers).score)
        && (forall j :: 0 <= j < |headers| ==> score(headers[j]) <= BestBy(score, headers).score)
    ensures |headers| > 0 ==> BestBy(score, headers).header in headers
                              && lo <= BestBy(score, headers).score <= hi
  {
    BestByIsMaximal(score, headers);
    BestByIsFirst(score, headers);
  }

  // ---------------------------------------------------------------------
  // Secondary phone column

  /** A header mentions a phone when its lower-cased form contains one of
      the keywords. */
  predicate ContainsKeyword(header: string) {
    exists k :: k in Keywords && Contains(Lower(header), k)
  }

  /** The placeholders whose lower-cased name contains "telefon". */
  function TelefonPlaceholders(placeholders: seq<string>): (r: seq<string>)
    ensures forall p :: p in r <==> p in placeholders && Contains(Lower(p), TelefonMarker)
    decreases |placeholders|
  {
    if |placeholders| == 0 then []
    else
      var rest := TelefonPlaceholders(placeholders[1..]);
      assert forall p :: p in placeholders <==> p == placeholders[0] || p in placeholders[1..];
      if Contains(Lower(placeholders[0]), TelefonMarker) then [placeholders[0]] + rest else rest
  }

  /** The headers of the mappings that have one. */
  function AssignedHeaders(mappings: seq<Mapping>): (r: seq<string>)
    ensures forall k :: 0 <= k < |mappings| && mappings[k].header != "" ==> mappings[k].header in r
    ensures forall h :: h in r ==> h != "" && exists k :: 0 <= k < |mappings| && mappings[k].header == h
    decreases |mappings|
  {
    if |mappings| == 0 then []
    else
      var rest := AssignedHeaders(mappings[1..]);
      assert forall k :: 1 <= k < |mappings| ==> mappings[k] == mappings[1..][k - 1];
      if mappings[0].header != "" then [mappings[0].header] + rest else rest
  }

  /** The headers, in order, that are not in `taken`. */
  function AvailableHeaders(headers: seq<string>, taken: seq<string>): (r: seq<string>)
    ensures forall h :: h in r <==> h in headers && h !in taken
    decreases |headers|
  {
    if |headers| == 0 then []
    else
      var rest := AvailableHeaders(headers[1..], taken);
      assert forall h :: h in headers <==> h == headers[0] || h in headers[1..];
      if headers[0] !in taken then [headers[0]] + rest else rest
  }

  /** A header without a keyword scores 70% of its similarity to a phone
      placeholder. */
  function WeightedScore(placeholder: string, header: string): real {
    Scorer.Similarity(placeholder, header) * SimilarityWeight
  }

  /** The weighted similarity of a header to each phone placeholder in
      turn, each kept only when strictly better. */
  function WeightedFold(best: Best, header: string, telefonPlaceholders: seq<string>): Best
    decreases |telefonPlaceholders|
  {
    if |telefonPlaceholders| == 0 then best
    else
      var prev := WeightedFold(best, header, telefonPlaceholders[..|telefonPlaceholders| - 1]);
      var score := WeightedScore(telefonPlaceholders[|telefonPlaceholders| - 1], header);
      if score > prev.score then Best(header, score) else prev
  }

  /** One candidate header: a keyword header scores 0.8, any other header
      its weighted similarity to each phone placeholder. */
  function CandidateStep(best: Best, header: string, telefonPlaceholders: seq<string>): Best {
    if ContainsKeyword(header) then
      if KeywordScore > best.score then Best(header, KeywordScore) else best
    else WeightedFold(best, header, telefonPlaceholders)
  }

  /** The best secondary header among `candidates`, from "" and 0. */
  function SecondaryOf(telefonPlaceholders: seq<string>, candidates: seq<string>): Best
    decreases |candidates|
  {
    if |candidates| == 0 then Best("", 0.0)
    else CandidateStep(SecondaryOf(telefonPlaceholders, candidates[..|candidates| - 1]),
                       candidates[|candidates| - 1], telefonPlaceholders)
  }

  /** The settings after the inference: with a phone placeholder and a
      chosen non-empty header scoring over 0.4, phone handling is enabled
      with that header as its secondary field; otherwise nothing changes. */
  function InferSecondary(settings: Settings, placeholders: seq<string>, headers: seq<string>,
                          mappings: seq<Mapping>): (r: Settings)
    ensures r == settings || (r == settings.(telefon := TelefonSettings(true, r.telefon.secondaryField))
                              && r.telefon.secondaryField != "")
    ensures |TelefonPlaceholders(placeholders)| == 0 ==> r == settings
    ensures var best := SecondaryOf(TelefonPlaceholders(placeholders), AvailableHeaders(headers, AssignedHeaders(mappings)));
      r == if |TelefonPlaceholders(placeholders)| > 0 && best.header != "" && best.score > SecondaryThreshold
           then settings.(telefon := TelefonSettings(true, best.header))
           else settings
  {
    var telefonPlaceholders := TelefonPlaceholders(placeholders);
    if |telefonPlaceholders| == 0 then settings
    else
      var available := AvailableHeaders(headers, AssignedHeaders(mappings));
      var best := SecondaryOf(telefonPlaceholders, available);
      if best.header != "" && best.score > SecondaryThreshold
      then settings.(telefon := TelefonSettings(true, best.header))
      else settings
  }

  /** The search loops for the secondary phone column. */
  method SecondarySearch(telefonPlaceholders: seq<string>, availableHeaders: seq<string>)
    returns (bestSecondaryHeader: string, bestScore: real)
    ensures Best(bestSecondaryHeader, bestScore) == SecondaryOf(telefonPlaceholders, availableHeaders)
  {
    bestSecondaryHeader := "";
    bestScore := 0.0;
    for i := 0 to |availableHeaders|
      invariant Best(bestSecondaryHeader, bestScore) == SecondaryOf(telefonPlaceholders, availableHeaders[..i])
    {
      var header := availableHeaders[i];
      assert availableHeaders[..i + 1][..i] == availableHeaders[..i];
      assert SecondaryOf(telefonPlaceholders, availableHeaders[..i + 1])
          == CandidateStep(Best(bestSecondaryHeader, bestScore), header, telefonPlaceholders);
      if ContainsKeyword(header) {
        if KeywordScore > bestScore {
          bestScore := KeywordScore;
          bestSecondaryHeader := header;
        }
      } else {
        var best := WeightedSearch(Best(bestSecondaryHeader, bestScore), header, telefonPlaceholders);
        bestSecondaryHeader, bestScore := best.header, best.score;
      }
    }
    assert availableHeaders[..|availableHeaders|] == availableHeaders;
  }

  lemma WeightedFoldStep(start: Best, header: string, telefonPlaceholders: seq<string>, j: nat, score: real)
    requires j < |telefonPlaceholders|
    requires score == WeightedScore(telefonPlaceholders[j], header)
    ensures var prev := WeightedFold(start, header, telefonPlaceholders[..j]);
      WeightedFold(start, header, telefonPlaceholders[..j + 1])
      == if score > prev.score then Best(header, score) else prev
  {
    var ps := telefonPlaceholders[..j + 1];
    assert ps[..j] == telefonPlaceholders[..j] && ps[j] == telefonPlaceholders[j];
  }

  /** The inner loop: each phone placeholder's weighted similarity to
      `header`, kept when strictly better. */
  method WeightedSearch(start: Best, header: string, telefonPlaceholders: seq<string>) returns (best: Best)
    ensures best == WeightedFold(start, header, telefonPlaceholders)
  {
    best := start;
    for j := 0 to |telefonPlaceholders|
      invariant best == WeightedFold(start, header, telefonPlaceholders[..j])
    {
      var placeholder := telefonPlaceholders[j];
      var score := Scorer.StringSimilarity(placeholder, header);
      score := score * SimilarityWeight;
      WeightedFoldStep(start, header, telefonPlaceholders, j, score);
      if score > best.score {
        best := Best(header, score);
      }
    }
    assert telefonPlaceholders[..|telefonPlaceholders|] == telefonPlaceholders;
  }

  /** The inference as the hook runs it. */
  method InferSecondaryField(settings: Settings, placeholders: seq<string>, headers: seq<string>,
                             mappings: seq<Mapping>) returns (r: Settings)
    ensures r == InferSecondary(settings, placeholders, headers, mappings)
  {
    r := settings;
    var telefonPlaceholders := TelefonPlaceholders(placeholders);
    if |telefonPlaceholders| > 0 {
      var availableHeaders := AvailableHeaders(headers, AssignedHeaders(mappings));
      var bestSecondaryHeader, bestScore := SecondarySearch(telefonPlaceholders, availableHeaders);
      if bestSecondaryHeader != "" && bestScore > SecondaryThreshold {
        r := r.(telefon := TelefonSettings(true, bestSecondaryHeader));
      }
    }
  }

  /** A weighted similarity is at most 0.63, below the keyword score. */
  lemma {:induction false} WeightedFoldBelowKeyword(best: Best, header: string, telefonPlaceholders: seq<string>)
    ensures var r := WeightedFold(best, header, telefonPlaceholders);
      r == best || (r.header == header && r.score <= 0.63)
    ensures best.score >= KeywordScore ==> WeightedFold(best, header, telefonPlaceholders) == best
    decreases |telefonPlaceholders|
  {
    if |telefonPlaceholders| > 0 {
      WeightedFoldBelowKeyword(best, header, telefonPlaceholders[..|telefonPlaceholders| - 1]);
      Scorer.SimilarityBounds(telefonPlaceholders[|telefonPlaceholders| - 1], header);
    }
  }

  /** The weighted scores of `header` against each phone placeholder. */
  function ScoresOf(telefonPlaceholders: seq<string>, header: string): (ws: seq<real>)
    ensures |ws| == |telefonPlaceholders|
    ensures forall j :: 0 <= j < |telefonPlaceholders| ==> ws[j] == WeightedScore(telefonPlaceholders[j], header)
  {
    seq(|telefonPlaceholders|, j requires 0 <= j < |telefonPlaceholders| => WeightedScore(telefonPlaceholders[j], header))
  }

  /** The weighted scores of every candidate, one row per candidate. */
  function ScoreTable(telefonPlaceholders: seq<string>, candidates: seq<string>): (t: seq<seq<real>>)
    ensures |t| == |candidates|
    ensures forall i :: 0 <= i < |candidates| ==> t[i] == ScoresOf(telefonPlaceholders, candidates[i])
  {
    seq(|candidates|, i requires 0 <= i < |candidates| => ScoresOf(telefonPlaceholders, candidates[i]))
  }

  /** The strict-improvement fold of `WeightedFold` over scores already
      computed. */
  function FoldMax(best: Best, header: string, scores: seq<real>): Best
    decreases |scores|
  {
    if |scores| == 0 then best
    else
      var prev := FoldMax(best, header, scores[..|scores| - 1]);
      if scores[|scores| - 1] > prev.score then Best(header, scores[|scores| - 1]) else prev
  }

  /** The secondary search over a table of computed scores, for candidates
      without a keyword. */
  function TableMax(candidates: seq<string>, table: seq<seq<real>>): Best
    requires |table| == |candidates|
    decreases |candidates|
  {
    if |candidates| == 0 then Best("", 0.0)
    else FoldMax(TableMax(candidates[..|candidates| - 1], table[..|candidates| - 1]),
                 candidates[|candidates| - 1], table[|candidates| - 1])
  }

  lemma {:induction false} WeightedFoldIsFoldMax(best: Best, header: string, telefonPlaceholders: seq<string>)
    ensures WeightedFold(best, header, telefonPlaceholders) == FoldMax(best, header, ScoresOf(telefonPlaceholders, header))
    decreases |telefonPlaceholders|
  {
    var tp := telefonPlaceholders;
    if |tp| > 0 {
      var last := |tp| - 1;
      WeightedFoldIsFoldMax(best, header, tp[..last]);
      assert ScoresOf(tp, header)[..last] == ScoresOf(tp[..last], header);
    }
  }

  lemma {:induction false} SecondaryOfIsTableMax(telefonPlaceholders: seq<string>, candidates: seq<string>)
    requires forall i :: 0 <= i < |candidates| ==> !ContainsKeyword(candidates[i])
    ensures SecondaryOf(telefonPlaceholders, candidates) == TableMax(candidates, ScoreTable(telefonPlaceholders, candidates))
    decreases |candidates|
  {
    if |candidates| > 0 {
      var last := |candidates| - 1;
      var init := candidates[..last];
      SecondaryOfIsTableMax(telefonPlaceholders, init);
      assert ScoreTable(telefonPlaceholders, candidates)[..last] == ScoreTable(telefonPlaceholders, init);
      WeightedFoldIsFoldMax(SecondaryOf(telefonPlaceholders, init), candidates[last], telefonPlaceholders);
    }
  }

  /** The fold ends at the larger of the running best and the best score;
      it changes the running best exactly when some score beats it, and
      then to `header` at one of the scores. */
  lemma {:induction false} FoldMaxFacts(best: Best, header: string, scores: seq<real>)
    ensures var r := FoldMax(best, header, scores);
      && best.score <= r.score
      && (forall j :: 0 <= j < |scores| ==> scores[j] <= r.score)
      && (r == best <==> forall j :: 0 <= j < |scores| ==> scores[j] <= best.score)
      && (r != best ==> r.header == header && exists j :: 0 <= j < |scores| && r.score == scores[j])
    decreases |scores|
  {
    if |scores| > 0 {
      var last := |scores| - 1;
      FoldMaxFacts(best, header, scores[..last]);
      assert forall j :: 0 <= j < last ==> scores[..last][j] == scores[j];
    }
  }

  /** `r` is candidate `i` at its score `j`, and every earlier candidate
      scores strictly less. */
  predicate TableFirstMaximumAt(candidates: seq<string>, table: seq<seq<real>>, n: nat, r: Best, i: int, j: int)
    requires |table| == |candidates| && forall k :: 0 <= k < |table| ==> |table[k]| == n
  {
    && 0 <= i < |candidates| && 0 <= j < n
    && r == Best(candidates[i], table[i][j])
    && forall i', j' :: 0 <= i' < i && 0 <= j' < n ==> table[i'][j'] < r.score
  }

  /** The table search ends at a maximum: every score is at most the
      result's, which is never negative, and with no positive score the
      result is "" at 0. */
  lemma {:induction false} TableMaxBounds(candidates: seq<string>, table: seq<seq<real>>, n: nat)
    requires |table| == |candidates| && forall i :: 0 <= i < |table| ==> |table[i]| == n
    ensures var r := TableMax(candidates, table);
      && (forall i, j :: 0 <= i < |candidates| && 0 <= j < n ==> table[i][j] <= r.score)
      && r.score >= 0.0
      && ((forall i, j :: 0 <= i < |candidates| && 0 <= j < n ==> table[i][j] <= 0.0) ==> r == Best("", 0.0))
    decreases |candidates|
  {
    if |candidates| > 0 {
      var last := |candidates| - 1;
      var init, rows := candidates[..last], table[..last];
      TableMaxBounds(init, rows, n);
      FoldMaxFacts(TableMax(init, rows), candidates[last], table[last]);
      assert forall i :: 0 <= i < last ==> rows[i] == table[i];
    }
  }

  /** The table search keeps the first maximum: a non-empty result is a
      candidate at one of its scores, every earlier candidate scoring
      strictly less. */
  lemma {:induction false} TableMaxFirst(candidates: seq<string>, table: seq<seq<real>>, n: nat)
    requires |table| == |candidates| && forall i :: 0 <= i < |table| ==> |table[i]| == n
    ensures var r := TableMax(candidates, table);
      r != Best("", 0.0) ==> exists i, j :: TableFirstMaximumAt(candidates, table, n, r, i, j)
    decreases |candidates|
  {
    if |candidates| > 0 {
      var last := |candidates| - 1;
      var init, rows := candidates[..last], table[..last];
      TableMaxFirst(init, rows, n);
      TableMaxBounds(init, rows, n);
      var prev := TableMax(init, rows);
      var r := TableMax(candidates, table);
      FoldMaxFacts(prev, candidates[last], table[last]);
      assert forall i :: 0 <= i < last ==> init[i] == candidates[i] && rows[i] == table[i];
      if r == prev {
        if r != Best("", 0.0) {
          var i, j :| TableFirstMaximumAt(init, rows, n, prev, i, j);
          assert TableFirstMaximumAt(candidates, table, n, r, i, j);
        }
      } else {
        var j :| 0 <= j < n && r.score == table[last][j];
        assert TableFirstMaximumAt(candidates, table, n, r, last, j);
      }
    }
  }

  /** The weighted fold ends at the larger of the running best and the best
      weighted score of `header`; it changes the running best exactly when
      some placeholder beats it, and then to `header` at one of its
      weighted scores. */
  lemma WeightedFoldMax(best: Best, header: string, telefonPlaceholders: seq<string>)
    ensures var r := WeightedFold(best, header, telefonPlaceholders);
      && best.score <= r.score
      && (forall j :: 0 <= j < |telefonPlaceholders| ==> WeightedScore(telefonPlaceholders[j], header) <= r.score)
      && (r == best <==> forall j :: 0 <= j < |telefonPlaceholders| ==> WeightedScore(telefonPlaceholders[j], header) <= best.score)
      && (r != best ==>
            r.header == header && exists j :: 0 <= j < |telefonPlaceholders| && r.score == WeightedScore(telefonPlaceholders[j], header))
  {
    var scores := ScoresOf(telefonPlaceholders, header);
    WeightedFoldIsFoldMax(best, header, telefonPlaceholders);
    FoldMaxFacts(best, header, scores);
  }

  /** Without keyword headers the secondary search is a first-maximum
      search over the weighted scores: every weighted score is at most the
      result's, nothing is chosen ("" at 0) exactly when no weighted score
      is positive, and otherwise the choice is a candidate at one of its
      weighted scores with every earlier candidate scoring strictly less. */
  /** `r` is candidate `i` at its weighted score against placeholder `j`,
      and every earlier candidate scores strictly less. */
  predicate FirstMaximumAt(telefonPlaceholders: seq<string>, candidates: seq<string>, r: Best, i: int, j: int) {
    && 0 <= i < |candidates| && 0 <= j < |telefonPlaceholders|
    && r == Best(candidates[i], WeightedScore(telefonPlaceholders[j], candidates[i]))
    && forall i', j' :: 0 <= i' < i && 0 <= j' < |telefonPlaceholders| ==>
         WeightedScore(telefonPlaceholders[j'], candidates[i']) < r.score
  }

  lemma SecondaryOfWithoutKeywords(telefonPlaceholders: seq<string>, candidates: seq<string>)
    requires forall i :: 0 <= i < |candidates| ==> !ContainsKeyword(candidates[i])
    ensures var r := SecondaryOf(telefonPlaceholders, candidates);
      && (forall i, j :: 0 <= i < |candidates| && 0 <= j < |telefonPlaceholders| ==>
            WeightedScore(telefonPlaceholders[j], candidates[i]) <= r.score)
      && (r == Best("", 0.0) <==> forall i, j :: 0 <= i < |candidates| && 0 <= j < |telefonPlaceholders| ==>
            WeightedScore(telefonPlaceholders[j], candidates[i]) <= 0.0)
      && (r != Best("", 0.0) ==>
            exists i, j :: FirstMaximumAt(telefonPlaceholders, candidates, r, i, j))
  {
    SecondaryOfMaximal(telefonPlaceholders, candidates);
    SecondaryOfNothing(telefonPlaceholders, candidates);
    SecondaryOfFirstMax(telefonPlaceholders, candidates);
  }

  lemma SecondaryOfMaximal(telefonPlaceholders: seq<string>, candidates: seq<string>)
    requires forall i :: 0 <= i < |candidates| ==> !ContainsKeyword(candidates[i])
    ensures forall i, j :: 0 <= i < |candidates| && 0 <= j < |telefonPlaceholders| ==>
      WeightedScore(telefonPlaceholders[j], candidates[i]) <= SecondaryOf(telefonPlaceholders, candidates).score
  {
    var tp := telefonPlaceholders;
    var table := ScoreTable(tp, candidates);
    SecondaryOfIsTableMax(tp, candidates);
    TableMaxBounds(candidates, table, |tp|);
    forall i, j | 0 <= i < |candidates| && 0 <= j < |tp|
      ensures WeightedScore(tp[j], candidates[i]) <= SecondaryOf(tp, candidates).score
    {
      assert table[i][j] == WeightedScore(tp[j], candidates[i]);
    }
  }

  lemma SecondaryOfNothing(telefonPlaceholders: seq<string>, candidates: seq<string>)
    requires forall i :: 0 <= i < |candidates| ==> !ContainsKeyword(candidates[i])
    ensures SecondaryOf(telefonPlaceholders, candidates) == Best("", 0.0)
        <==> forall i, j :: 0 <= i < |candidates| && 0 <= j < |telefonPlaceholders| ==>
               WeightedScore(telefonPlaceholders[j], candidates[i]) <= 0.0
  {
    var tp := telefonPlaceholders;
    var table := ScoreTable(tp, candidates);
    SecondaryOfIsTableMax(tp, candidates);
    TableMaxBounds(candidates, table, |tp|);
    if forall i, j :: 0 <= i < |candidates| && 0 <= j < |tp| ==> WeightedScore(tp[j], candidates[i]) <= 0.0 {
      forall i, j | 0 <= i < |candidates| && 0 <= j < |tp| ensures table[i][j] <= 0.0 {
        assert table[i][j] == WeightedScore(tp[j], candidates[i]);
      }
    }
  }

  lemma SecondaryOfFirstMax(telefonPlaceholders: seq<string>, candidates: seq<string>)
    requires forall i :: 0 <= i < |candidates| ==> !ContainsKeyword(candidates[i])
    ensures var r := SecondaryOf(telefonPlaceholders, candidates);
      r != Best("", 0.0) ==>
        exists i, j :: FirstMaximumAt(telefonPlaceholders, candidates, r, i, j)
  {
    var tp := telefonPlaceholders;
    var table := ScoreTable(tp, candidates);
    SecondaryOfIsTableMax(tp, candidates);
    TableMaxFirst(candidates, table, |tp|);
    var r := SecondaryOf(tp, candidates);
    if r != Best("", 0.0) {
      var i, j :| TableFirstMaximumAt(candidates, table, |tp|, r, i, j);
      forall i', j' | 0 <= i' < i && 0 <= j' < |tp| ensures WeightedScore(tp[j'], candidates[i']) < r.score {
        assert table[i'][j'] == WeightedScore(tp[j'], candidates[i']);
      }
      assert FirstMaximumAt(tp, candidates, r, i, j);
    }
  }

  /** Before the first keyword header every running best scores at most
      0.63 and is one of the candidates or "". */
  lemma {:induction false} SecondaryBeforeKeyword(telefonPlaceholders: seq<string>, candidates: seq<string>)
    requires forall k :: 0 <= k < |candidates| ==> !ContainsKeyword(candidates[k])
    ensures SecondaryOf(telefonPlaceholders, candidates).score <= 0.63
    decreases |candidates|
  {
    if |candidates| > 0 {
      var init := candidates[..|candidates| - 1];
      SecondaryBeforeKeyword(telefonPlaceholders, init);
      WeightedFoldBelowKeyword(SecondaryOf(telefonPlaceholders, init), candidates[|candidates| - 1], telefonPlaceholders);
    }
  }

  /** Once a keyword header has been taken at 0.8 nothing displaces it. */
  lemma {:induction false} SecondaryAfterKeyword(telefonPlaceholders: seq<string>, candidates: seq<string>, i: nat)
    requires i < |candidates| && ContainsKeyword(candidates[i])
    requires SecondaryOf(telefonPlaceholders, candidates[..i + 1]) == Best(candidates[i], KeywordScore)
    ensures SecondaryOf(telefonPlaceholders, candidates) == Best(candidates[i], KeywordScore)
    decreases |candidates|
  {
    if |candidates| > i + 1 {
      var init := candidates[..|candidates| - 1];
      assert init[..i + 1] == candidates[..i + 1];
      SecondaryAfterKeyword(telefonPlaceholders, init, i);
      WeightedFoldBelowKeyword(Best(candidates[i], KeywordScore), candidates[|candidates| - 1], telefonPlaceholders);
    } else {
      assert candidates[..i + 1] == candidates;
    }
  }

  /** The first candidate that contains a keyword always wins, at 0.8. */
  lemma {:induction false} FirstKeywordWins(telefonPlaceholders: seq<string>, candidates: seq<string>, i: nat)
    requires i < |candidates| && ContainsKeyword(candidates[i])
    requires forall k :: 0 <= k < i ==> !ContainsKeyword(candidates[k])
    ensures SecondaryOf(telefonPlaceholders, candidates) == Best(candidates[i], KeywordScore)
  {
    assert candidates[..i + 1][..i] == candidates[..i];
    SecondaryBeforeKeyword(telefonPlaceholders, candidates[..i]);
    SecondaryAfterKeyword(telefonPlaceholders, candidates, i);
  }

  /** The secondary field is never a header some mapping already uses. */
  lemma {:induction false} SecondaryIsCandidate(telefonPlaceholders: seq<string>, candidates: seq<string>)
    ensures var b := SecondaryOf(telefonPlaceholders, candidates);
      b == Best("", 0.0) || b.header in candidates
    decreases |candidates|
  {
    if |candidates| > 0 {
      var init := candidates[..|candidates| - 1];
      var h := candidates[|candidates| - 1];
      SecondaryIsCandidate(telefonPlaceholders, init);
      WeightedFoldBelowKeyword(SecondaryOf(telefonPlaceholders, init), h, telefonPlaceholders);
      assert forall x :: x in init ==> x in candidates;
    }
  }

  lemma {:induction false} SecondaryUnassigned(settings: Settings, placeholders: seq<string>, headers: seq<string>,
                            mappings: seq<Mapping>)
    ensures var r := InferSecondary(settings, placeholders, headers, mappings);
      r != settings ==>
        r.telefon.secondaryField in headers
        && forall k :: 0 <= k < |mappings| ==> mappings[k].header != r.telefon.secondaryField
  {
    var telefonPlaceholders := TelefonPlaceholders(placeholders);
    if |telefonPlaceholders| > 0 {
      SecondaryIsCandidate(telefonPlaceholders, AvailableHeaders(headers, AssignedHeaders(mappings)));
    }
  }

  /** With a phone placeholder, the first unassigned keyword header becomes
      the secondary field. */
  lemma {:induction false} KeywordHeaderApplied(settings: Settings, placeholders: seq<string>, headers: seq<string>,
                             mappings: seq<Mapping>, i: nat)
    requires |TelefonPlaceholders(placeholders)| > 0
    requires var available := AvailableHeaders(headers, AssignedHeaders(mappings));
      i < |available| && ContainsKeyword(available[i])
      && forall k :: 0 <= k < i ==> !ContainsKeyword(available[k])
    ensures InferSecondary(settings, placeholders, headers, mappings)
            == settings.(telefon := TelefonSettings(true, AvailableHeaders(headers, AssignedHeaders(mappings))[i]))
  {
    var available := AvailableHeaders(headers, AssignedHeaders(mappings));
    FirstKeywordWins(TelefonPlaceholders(placeholders), available, i);
    assert available[i] != "" by {
      var k :| k in Keywords && Contains(Lower(available[i]), k);
    }
  }

  // ---------------------------------------------------------------------
  // The upload hook

  /** `updateMapping`: entry `index` takes `header`; its placeholder and
      score, and every other entry, stay as they were. */
  function UpdateMapping(mappings: seq<Mapping>, index: nat, header: string): (r: seq<Mapping>)
    requires index < |mappings|
    ensures |r| == |mappings|
    ensures r[index] == mappings[index].(header := header)
    ensures forall k :: 0 <= k < |mappings| && k != index ==> r[k] == mappings[k]
  {
    mappings[index := mappings[index].(header := header)]
  }

  /** Reads the document XML of the archive and scans it by file type. */
  method ReadTemplate(fileName: string, entries: map<string, string>) returns (documentContent: string, placeholderMap: PMap)
    ensures documentContent == "" <==> Extraction.ExtractTemplate(fileName, entries).Failure?
    ensures documentContent != "" ==>
              Extraction.ExtractTemplate(fileName, entries).value.tokens == placeholderMap
              && Extraction.ExtractTemplate(fileName, entries).value.placeholders == Keys(placeholderMap)
  {
    documentContent := Extraction.DocumentContent(fileName, entries);
    placeholderMap := [];
    if EndsWith(fileName, ".docx") {
      placeholderMap := Extraction.ExtractDocx(documentContent);
    } else if EndsWith(fileName, ".odt") {
      placeholderMap := Extraction.ExtractOdt(documentContent);
    }
  }

  /** What a successful upload stores. */
  datatype Upload = Upload(placeholders: seq<string>, tokens: PMap, mappings: seq<Mapping>, settings: Settings)

  /** One initial mapping per placeholder, in order. */
  function MappingsOf(placeholders: seq<string>, headers: seq<string>): seq<Mapping> {
    seq(|placeholders|, i requires 0 <= i < |placeholders| => InitialMapping(placeholders[i], headers))
  }

  /** What `handleFileUpload` computes from the archive, the header row and
      the current settings: the extraction error, or the placeholders, the
      map, the initial mappings and the settings it stores. */
  function UploadOf(fileName: string, entries: map<string, string>, headers: seq<string>, settings: Settings): Result<Upload> {
    var t := Extraction.ExtractTemplate(fileName, entries);
    if t.Failure? then Failure(t.error)
    else
      var mappings := MappingsOf(t.value.placeholders, headers);
      Success(Upload(t.value.placeholders, t.value.tokens, mappings,
                     InferSecondary(settings, t.value.placeholders, headers, mappings)))
  }

  /** An upload fails exactly when extraction finds no document content;
      otherwise it stores the extracted placeholders and map, one initial
      mapping per placeholder and the settings with the secondary phone
      column inferred. */
  lemma UploadOfMeaning(fileName: string, entries: map<string, string>, headers: seq<string>, settings: Settings)
    ensures UploadOf(fileName, entries, headers, settings).Failure?
        <==> Extraction.DocumentContent(fileName, entries) == ""
    ensures UploadOf(fileName, entries, headers, settings).Failure? ==>
              UploadOf(fileName, entries, headers, settings).error == Extraction.NoContentMessage
    ensures UploadOf(fileName, entries, headers, settings).Success? ==>
      var u := UploadOf(fileName, entries, headers, settings).value;
      var t := Extraction.ExtractTemplate(fileName, entries).value;
      && u.placeholders == t.placeholders && u.tokens == t.tokens
      && |u.mappings| == |u.placeholders|
      && (forall i :: 0 <= i < |u.placeholders| ==> u.mappings[i] == InitialMapping(u.placeholders[i], headers))
      && u.settings == InferSecondary(settings, u.placeholders, headers, u.mappings)
  {
  }

  /** The work of `handleFileUpload` between reading the archive and
      storing the new state: extraction, the initial mappings and the
      secondary phone column. */
  method ScanUpload(fileName: string, entries: map<string, string>, headers: seq<string>, settings: Settings)
    returns (ok: bool, placeholders: seq<string>, placeholderMap: PMap, mappings: seq<Mapping>, inferred: Settings)
    ensures ok <==> UploadOf(fileName, entries, headers, settings).Success?
    ensures ok ==> UploadOf(fileName, entries, headers, settings).value == Upload(placeholders, placeholderMap, mappings, inferred)
  {
    var documentContent;
    documentContent, placeholderMap := ReadTemplate(fileName, entries);
    ok := documentContent != "";
    placeholders := Keys(placeholderMap);
    mappings := [];
    inferred := settings;
    if ok {
      mappings := InitialMappings(placeholders, headers);
      assert mappings == MappingsOf(placeholders, headers);
      inferred := InferSecondaryField(settings, placeholders, headers, mappings);
    }
  }

  /** The state of the upload hook; `headers` is the pasted table's header
      row it is given. */
  class FileProcessing {
    const headers: seq<string>
    var placeholders: seq<string>
    var mappings: seq<Mapping>
    var templateName: string
    var templateEntries: map<string, string>
    var placeholderMapping: PMap
    var settings: Settings
    var error: string
    var activeStep: string

    constructor(headers: seq<string>, activeStep: string)
      ensures this.headers == headers && this.activeStep == activeStep
      ensures placeholders == [] && mappings == [] && placeholderMapping == []
      ensures templateName == "" && templateEntries == map[]
      ensures settings == DefaultSettings && error == ""
    {
      this.headers := headers;
      this.activeStep := activeStep;
      placeholders := [];
      mappings := [];
      templateName := "";
      templateEntries := map[];
      placeholderMapping := [];
      settings := DefaultSettings;
      error := "";
    }

    /** `handleFileUpload` for an archive given as its entries. Without
        document content the error is set and the placeholders, mappings
        and settings stay; otherwise they are replaced and the review step
        is entered. */
    method HandleFileUpload(fileName: string, entries: map<string, string>)
      modifies this
      ensures templateName == fileName && templateEntries == entries
      ensures UploadOf(fileName, entries, headers, old(settings)).Failure? ==>
        && error == UploadErrorPrefix + Extraction.NoContentMessage
        && placeholders == old(placeholders) && mappings == old(mappings)
        && placeholderMapping == old(placeholderMapping) && settings == old(settings)
        && activeStep == old(activeStep)
      ensures UploadOf(fileName, entries, headers, old(settings)).Success? ==>
        && error == "" && activeStep == ReviewStep
        && UploadOf(fileName, entries, headers, old(settings)).value
           == Upload(placeholders, placeholderMapping, mappings, settings)
    {
      var ok, extracted, placeholderMap, initialMappings, inferred := ScanUpload(fileName, entries, headers, settings);
      if !ok {
        Reject(fileName, entries);
      } else {
        Commit(fileName, entries, Upload(extracted, placeholderMap, initialMappings, inferred));
      }
    }

    /** The state an upload without document content leaves. */
    method Reject(fileName: string, entries: map<string, string>)
      modifies this
      ensures templateName == fileName && templateEntries == entries
      ensures error == UploadErrorPrefix + Extraction.NoContentMessage
      ensures placeholders == old(placeholders) && mappings == old(mappings)
      ensures placeholderMapping == old(placeholderMapping) && settings == old(settings)
      ensures activeStep == old(activeStep)
    {
      templateName := fileName;
      templateEntries := entries;
      error := UploadErrorPrefix + Extraction.NoContentMessage;
    }

    /** The state a successful upload leaves: the scan's results and the
        review step. */
    method Commit(fileName: string, entries: map<string, string>, u: Upload)
      modifies this
      ensures templateName == fileName && templateEntries == entries
      ensures error == "" && activeStep == ReviewStep
      ensures u == Upload(placeholders, placeholderMapping, mappings, settings)
    {
      templateName := fileName;
      templateEntries := entries;
      error := "";
      placeholders := u.placeholders;
      placeholderMapping := u.tokens;
      settings := u.settings;
      mappings := u.mappings;
      activeStep := ReviewStep;
    }

    method UpdateMappingAt(index: nat, header: string)
      requires index < |mappings|
      modifies this
      ensures mappings == UpdateMapping(old(mappings), index, header)
      ensures placeholders == old(placeholders) && settings == old(settings) && error == old(error)
      ensures placeholderMapping == old(placeholderMapping)
      ensures templateName == old(templateName) && templateEntries == old(templateEntries)
      ensures activeStep == old(activeStep)
    {
      mappings := UpdateMapping(mappings, index, header);
    }
  }

  /** The placeholder list of an upload has no duplicates. */
  lemma {:induction false} UploadPlaceholdersDistinct(fileName: string, entries: map<string, string>)
    requires Extraction.ExtractTemplate(fileName, entries).Success?
    ensures var ps := Extraction.ExtractTemplate(fileName, entries).value.placeholders;
      forall i, j :: 0 <= i < j < |ps| ==> ps[i] != ps[j]
  {
    var content := Extraction.DocumentContent(fileName, entries);
    Extraction.DocxTokens(content);
    Extraction.OdtTokens(content);
  }
}

=== FILE: merge.dfy ===
/** The merge engine (`DocumentProcessor` in use-document-generator.ts). The
    body of the template is repeated once per page. On a page, occurrence
    `i` of a placeholder's raw token is filled from row `idx + i`, where
    `idx` is the first row of the page, and the pages are joined by the
    format's page break. */
module Merge {
  import opened Text
  import opened PlaceholderMap
  import Formatters
  import Mappings
  import opened Adapters

  type Row = map<string, string>

  const RazredMarker: string := "razred"

  /** Everything a processor is built from. `mappingDict` maps a
      placeholder to its header. */
  datatype Merger = Merger(rows: seq<Row>, placeholders: seq<string>, placeholderMapping: PMap,
                           mappingDict: map<string, string>, settings: Mappings.Settings)

  /** The page of one run of `replacePlaceholders`, and whether a mapped
      placeholder was found on it. */
  datatype Page = Page(content: string, filled: bool)

  // ---------------------------------------------------------------------
  // Tokens and their occurrences

  /** `placeholderMapping.get(p) || "{p}"`: the token found at extraction,
      or the plain braced name when there is none. */
  function RawToken(pmap: PMap, placeholder: string): (t: string)
    ensures |t| > 0
    ensures Get(pmap, placeholder).Some? && Get(pmap, placeholder).value != "" ==> t == Get(pmap, placeholder).value
    ensures Get(pmap, placeholder).None? || Get(pmap, placeholder).value == "" ==> t == "{" + placeholder + "}"
  {
    match Get(pmap, placeholder)
    case Some(token) => if token != "" then token else "{" + placeholder + "}"
    case None => "{" + placeholder + "}"
  }

  /** `matchAll` of the escaped token: its occurrences from `from`,
      left to right and without overlap. */
  function Matches(c: string, tok: string, from: nat): seq<nat>
    requires |tok| > 0
    decreases |c| - from
  {
    match IndexOfFrom(c, tok, from)
    case None => []
    case Some(i) => [i] + Matches(c, tok, i + |tok|)
  }

  /** Every match is an occurrence of the token. */
  lemma {:induction false} MatchesOccur(c: string, tok: string, from: nat)
    requires |tok| > 0
    ensures var ps := Matches(c, tok, from);
      forall k :: 0 <= k < |ps| ==> OccursAt(c, tok, ps[k])
  {
    forall k | 0 <= k < |Matches(c, tok, from)| ensures OccursAt(c, tok, Matches(c, tok, from)[k]) {
      MatchOccurs(c, tok, from, k);
    }
  }

  /** The `k`-th match is an occurrence of the token. */
  lemma {:induction false} MatchOccurs(c: string, tok: string, from: nat, k: nat)
    requires |tok| > 0 && k < |Matches(c, tok, from)|
    ensures OccursAt(c, tok, Matches(c, tok, from)[k])
    decreases k
  {
    IndexOfFromOccurs(c, tok, from);
    var i := IndexOfFrom(c, tok, from).value;
    var rest := Matches(c, tok, i + |tok|);
    assert |Matches(c, tok, from)| == |rest| + 1 && Matches(c, tok, from)[0] == i;
    if k > 0 {
      MatchOccurs(c, tok, i + |tok|, k - 1);
      assert Matches(c, tok, from)[k] == rest[k - 1];
    }
  }

  /** The matches are the leftmost ones: no occurrence starts before the
      first match, between the end of one match and the next, or after
      the last. */
  lemma {:induction false} MatchesLeftmost(c: string, tok: string, from: nat)
    requires |tok| > 0
    ensures var ps := Matches(c, tok, from);
      && (|ps| == 0 ==> forall j :: from <= j ==> !OccursAt(c, tok, j))
      && (|ps| > 0 ==> forall j :: from <= j < ps[0] ==> !OccursAt(c, tok, j))
      && (|ps| > 0 ==> forall j :: ps[|ps| - 1] + |tok| <= j ==> !OccursAt(c, tok, j))
      && (forall k, j :: 0 <= k < |ps| - 1 && ps[k] + |tok| <= j < ps[k + 1] ==> !OccursAt(c, tok, j))
  {
    MatchesNoneBefore(c, tok, from);
    MatchesNoneAfter(c, tok, from);
    MatchesNoneBetween(c, tok, from);
  }

  lemma {:induction false} MatchesNoneBefore(c: string, tok: string, from: nat)
    requires |tok| > 0
    ensures var ps := Matches(c, tok, from);
      && (|ps| == 0 ==> forall j :: from <= j ==> !OccursAt(c, tok, j))
      && (|ps| > 0 ==> forall j :: from <= j < ps[0] ==> !OccursAt(c, tok, j))
  {
    IndexOfFromFirst(c, tok, from);
    match IndexOfFrom(c, tok, from) {
      case None =>
      case Some(i) =>
        assert Matches(c, tok, from)[0] == i;
    }
  }

  lemma {:induction false} MatchesNoneAfter(c: string, tok: string, from: nat)
    requires |tok| > 0
    ensures var ps := Matches(c, tok, from);
      |ps| > 0 ==> forall j :: ps[|ps| - 1] + |tok| <= j ==> !OccursAt(c, tok, j)
  {
    var ps := Matches(c, tok, from);
    if |ps| > 0 {
      MatchesNext(c, tok, from, |ps| - 1, ps[|ps| - 1] + |tok|);
      IndexOfFromFirst(c, tok, ps[|ps| - 1] + |tok|);
    }
  }

  lemma {:induction false} MatchesNoneBetween(c: string, tok: string, from: nat)
    requires |tok| > 0
    ensures var ps := Matches(c, tok, from);
      forall k, j :: 0 <= k < |ps| - 1 && ps[k] + |tok| <= j < ps[k + 1] ==> !OccursAt(c, tok, j)
  {
    var ps := Matches(c, tok, from);
    forall k, j | 0 <= k < |ps| - 1 && ps[k] + |tok| <= j < ps[k + 1] ensures !OccursAt(c, tok, j) {
      MatchesGap(c, tok, from, k, j);
    }
  }

  /** No occurrence starts in the gap after match `k`. */
  lemma {:induction false} MatchesGap(c: string, tok: string, from: nat, k: nat, j: int)
    requires |tok| > 0
    requires var ps := Matches(c, tok, from); k + 1 < |ps| && ps[k] + |tok| <= j < ps[k + 1]
    ensures !OccursAt(c, tok, j)
  {
    var ps := Matches(c, tok, from);
    MatchesNext(c, tok, from, k, ps[k] + |tok|);
    IndexOfFromFirst(c, tok, ps[k] + |tok|);
  }

  /** Searching on from the end of match `k` finds match `k + 1`, or
      nothing after the last match. */
  lemma {:induction false} MatchesNext(c: string, tok: string, from: nat, k: nat, e: nat)
    requires |tok| > 0 && k < |Matches(c, tok, from)| && e == Matches(c, tok, from)[k] + |tok|
    ensures k + 1 < |Matches(c, tok, from)| ==> IndexOfFrom(c, tok, e) == Some(Matches(c, tok, from)[k + 1])
    ensures k + 1 == |Matches(c, tok, from)| ==> IndexOfFrom(c, tok, e).None?
    decreases k
  {
    if k == 0 {
      MatchesNextFirst(c, tok, from);
    } else {
      var i := IndexOfFrom(c, tok, from).value;
      var rest := Matches(c, tok, i + |tok|);
      assert |Matches(c, tok, from)| == |rest| + 1;
      assert Matches(c, tok, from)[k] == rest[k - 1];
      MatchesNext(c, tok, i + |tok|, k - 1, e);
      if k < |rest| {
        assert Matches(c, tok, from)[k + 1] == rest[k];
      }
    }
  }

  lemma {:induction false} MatchesNextFirst(c: string, tok: string, from: nat)
    requires |tok| > 0 && 0 < |Matches(c, tok, from)|
    ensures 1 < |Matches(c, tok, from)| ==>
      IndexOfFrom(c, tok, Matches(c, tok, from)[0] + |tok|) == Some(Matches(c, tok, from)[1])
    ensures 1 == |Matches(c, tok, from)| ==> IndexOfFrom(c, tok, Matches(c, tok, from)[0] + |tok|).None?
  {
    var i := IndexOfFrom(c, tok, from).value;
    var rest := Matches(c, tok, i + |tok|);
    assert |Matches(c, tok, from)| == |rest| + 1;
    assert Matches(c, tok, from)[0] == i;
    var r := IndexOfFrom(c, tok, i + |tok|);
    if |rest| > 0 {
      assert Matches(c, tok, from)[1] == rest[0];
      assert r.Some?;
      assert rest[0] == r.value;
    } else {
      assert r.None?;
    }
  }

  /** Matches lie inside the text and do not overlap. */
  ghost predicate Ordered(c: string, len: nat, ms: seq<nat>) {
    (forall k :: 0 <= k < |ms| ==> ms[k] + len <= |c|)
    && (forall j, k :: 0 <= j < k < |ms| ==> ms[j] + len <= ms[k])
  }

  /** The matches from the start lie inside the text, in increasing order
      and without overlap. */
  lemma {:induction false} MatchesOrdered(c: string, tok: string)
    requires |tok| > 0
    ensures Ordered(c, |tok|, Matches(c, tok, 0))
  {
    var ps := Matches(c, tok, 0);
    forall k | 0 <= k < |ps| ensures ps[k] + |tok| <= |c| {
      MatchBounds(c, tok, 0, k);
    }
    forall j, k | 0 <= j < k < |ps| ensures ps[j] + |tok| <= ps[k] {
      MatchesIncrease(c, tok, 0, j, k);
    }
  }

  /** The `k`-th match starts at or after `from` and ends inside the text. */
  lemma {:induction false} MatchBounds(c: string, tok: string, from: nat, k: nat)
    requires |tok| > 0 && k < |Matches(c, tok, from)|
    ensures from <= Matches(c, tok, from)[k] && Matches(c, tok, from)[k] + |tok| <= |c|
    decreases k
  {
    var i := IndexOfFrom(c, tok, from).value;
    var rest := Matches(c, tok, i + |tok|);
    assert |Matches(c, tok, from)| == |rest| + 1 && Matches(c, tok, from)[0] == i;
    if k > 0 {
      MatchBounds(c, tok, i + |tok|, k - 1);
      assert Matches(c, tok, from)[k] == rest[k - 1];
    }
  }

  /** A later match starts after an earlier one ends. */
  lemma {:induction false} MatchesIncrease(c: string, tok: string, from: nat, j: nat, k: nat)
    requires |tok| > 0 && j < k < |Matches(c, tok, from)|
    ensures Matches(c, tok, from)[j] + |tok| <= Matches(c, tok, from)[k]
    decreases j
  {
    var i := IndexOfFrom(c, tok, from).value;
    var rest := Matches(c, tok, i + |tok|);
    assert |Matches(c, tok, from)| == |rest| + 1 && Matches(c, tok, from)[0] == i;
    assert Matches(c, tok, from)[k] == rest[k - 1];
    if j == 0 {
      MatchBounds(c, tok, i + |tok|, k - 1);
    } else {
      MatchesIncrease(c, tok, i + |tok|, j - 1, k - 1);
      assert Matches(c, tok, from)[j] == rest[j - 1];
    }
  }

  /** Where the text after the first `k` matches resumes. */
  function Resume(ms: seq<nat>, len: nat, k: nat): nat
    requires k <= |ms|
  {
    if k == 0 then 0 else ms[k - 1] + len
  }

  /** The text up to and including the value of the `k`-th match: every
      stretch between matches is kept, every match gives way to its value. */
  function Built(c: string, len: nat, ms: seq<nat>, vals: seq<string>, k: nat): string
    requires Ordered(c, len, ms) && k <= |vals| && k <= |ms|
    decreases k
  {
    if k == 0 then ""
    else Built(c, len, ms, vals, k - 1) + c[Resume(ms, len, k - 1)..ms[k - 1]] + vals[k - 1]
  }

  /** The text with the first `|vals|` matches replaced by `vals`. */
  function Spliced(c: string, len: nat, ms: seq<nat>, vals: seq<string>): string
    requires Ordered(c, len, ms) && |vals| <= |ms|
  {
    Built(c, len, ms, vals, |vals|) + c[Resume(ms, len, |vals|)..]
  }

  // ---------------------------------------------------------------------
  // Values

  /** `mappings.reduce(...)`: each mapping sets its placeholder's header,
      so the last mapping of a placeholder wins. */
  function MappingDict(mappings: seq<Mappings.Mapping>): (d: map<string, string>)
    ensures d.Keys == set k | 0 <= k < |mappings| :: mappings[k].placeholder
    decreases |mappings|
  {
    if |mappings| == 0 then map[]
    else
      var last := mappings[|mappings| - 1];
      MappingDict(mappings[..|mappings| - 1])[last.placeholder := last.header]
  }

  /** `processValue`: the grade rule when it is enabled and the name
      contains "razred"; otherwise the phone rule when it is enabled and
      the name contains "telefon"; otherwise the cell with the
      placeholder's casing. */
  function ProcessValue(settings: Mappings.Settings, mappingDict: map<string, string>,
                        rowData: Row, placeholder: string, header: string): (value: string)
    ensures var isRazred := settings.razredEnabled && Contains(Lower(placeholder), RazredMarker);
            var isTelefon := settings.telefon.enabled && Contains(Lower(placeholder), Mappings.TelefonMarker);
      && (isRazred ==> value == Formatters.FormattedRazredValue(Lookup(rowData, header)))
      && (!isRazred && isTelefon ==>
            value == Formatters.FormattedTelefonValue(rowData, placeholder, mappingDict, settings.telefon.secondaryField))
      && (!isRazred && !isTelefon ==>
            value == Formatters.ApplyPlaceholderCasing(Lookup(rowData, header), placeholder))
  {
    if settings.razredEnabled && Contains(Lower(placeholder), RazredMarker) then
      Formatters.FormattedRazredValue(Lookup(rowData, header))
    else if settings.telefon.enabled && Contains(Lower(placeholder), Mappings.TelefonMarker) then
      Formatters.FormattedTelefonValue(rowData, placeholder, mappingDict, settings.telefon.secondaryField)
    else
      var value := Lookup(rowData, header);
      // The casing guard of the source always holds in this branch.
      if (!Contains(Lower(placeholder), RazredMarker) || !settings.razredEnabled)
         && (!Contains(Lower(placeholder), Mappings.TelefonMarker) || !settings.telefon.enabled)
      then Formatters.ApplyPlaceholderCasing(value, placeholder)
      else value
  }

  /** How many matches a page starting at row `idx` fills: one per match
      while rows last. */
  function Filled(mg: Merger, idx: nat, matches: nat): (n: nat)
    ensures n <= matches
    ensures idx + n <= |mg.rows| || n == 0
    ensures n < matches ==> idx + n >= |mg.rows|
  {
    if idx >= |mg.rows| then 0
    else if matches <= |mg.rows| - idx then matches
    else |mg.rows| - idx
  }

  /** The values for the first `n` matches of a placeholder: match `k`
      takes row `idx + k`. */
  function Values(mg: Merger, idx: nat, n: nat, placeholder: string, header: string): (vals: seq<string>)
    requires n == 0 || idx + n <= |mg.rows|
    ensures |vals| == n
  {
    seq(n, k requires 0 <= k < n => ProcessValue(mg.settings, mg.mappingDict, mg.rows[idx + k], placeholder, header))
  }

  /** Match `i` takes the processed value of row `idx + i`. */
  lemma {:induction false} ValueAt(mg: Merger, idx: nat, n: nat, i: nat, placeholder: string, header: string)
    requires i < n && idx + n <= |mg.rows|
    ensures Values(mg, idx, n, placeholder, header)[i]
         == ProcessValue(mg.settings, mg.mappingDict, mg.rows[idx + i], placeholder, header)
  {
  }

  // ---------------------------------------------------------------------
  // One page

  /** One placeholder on the page so far: skipped without a header or
      without a match; otherwise its matches are filled in turn. */
  function PlaceholderStep(mg: Merger, page: Page, placeholder: string, idx: nat): (r: Page)
    ensures Lookup(mg.mappingDict, placeholder) == "" ==> r == page
    ensures page.filled ==> r.filled
  {
    var header := Lookup(mg.mappingDict, placeholder);
    if header == "" then page
    else
      var tok := RawToken(mg.placeholderMapping, placeholder);
      var ms := Matches(page.content, tok, 0);
      MatchesOrdered(page.content, tok);
      if |ms| == 0 then page
      else
        var n := Filled(mg, idx, |ms|);
        Page(Spliced(page.content, |tok|, ms, Values(mg, idx, n, placeholder, header)), true)
  }

  /** The page after the placeholders `ps`, in order, each working on the
      page as the earlier ones left it. */
  function PageAfter(mg: Merger, template: string, ps: seq<string>, idx: nat): Page
    decreases |ps|
  {
    if |ps| == 0 then Page(template, false)
    else PlaceholderStep(mg, PageAfter(mg, template, ps[..|ps| - 1], idx), ps[|ps| - 1], idx)
  }

  // ---------------------------------------------------------------------
  // Pages

  /** The smallest positive count among the placeholders, or nothing when
      none is positive (`Math.min()` of no values is Infinity). */
  function MinPositive(counts: seq<nat>): (r: Option<nat>)
    ensures r.Some? ==> r.value > 0 && r.value in counts && forall c :: c in counts && c > 0 ==> r.value <= c
    ensures r.None? ==> forall c :: c in counts ==> c == 0
    decreases |counts|
  {
    if |counts| == 0 then None
    else
      var rest := MinPositive(counts[1..]);
      assert forall c :: c in counts <==> c == counts[0] || c in counts[1..];
      if counts[0] == 0 then rest
      else if rest.Some? && rest.value < counts[0] then rest
      else Some(counts[0])
  }

  /** The number of occurrences of each placeholder's token in the
      template body, in list order. */
  function Counts(pmap: PMap, template: string, ps: seq<string>): (cs: seq<nat>)
    ensures |cs| == |ps|
    ensures forall k :: 0 <= k < |ps| ==> cs[k] == |Matches(template, RawToken(pmap, ps[k]), 0)|
  {
    seq(|ps|, k requires 0 <= k < |ps| => |Matches(template, RawToken(pmap, ps[k]), 0)|)
  }

  /** The first row of the next page: one further after a page without a
      filled placeholder; otherwise the smallest positive count further,
      or past the last row when there is none. */
  function Advance(filled: bool, minPositive: Option<nat>, idx: nat, total: nat): (next: nat)
    requires idx < total
    ensures idx < next
    ensures !filled ==> next == idx + 1
    ensures filled && minPositive.None? ==> next >= total
  {
    if !filled then idx + 1
    else match minPositive
      case None => total
      case Some(m) => idx + (if m < 1 then 1 else m)
  }

  /** The merged body from the page at row `idx` on, after `acc`: a page
      break goes before a page only when something was written before. */
  function MergeFrom(mg: Merger, template: string, minPositive: Option<nat>, pageBreak: string,
                     idx: nat, acc: string): string
    decreases |mg.rows| - idx
  {
    if idx >= |mg.rows| then acc
    else
      var page := PageAfter(mg, template, mg.placeholders, idx);
      var acc' := (if |acc| > 0 then acc + pageBreak else acc) + page.content;
      MergeFrom(mg, template, minPositive, pageBreak, Advance(page.filled, minPositive, idx, |mg.rows|), acc')
  }

  /** The rows at which pages start, from row `idx` on. */
  function PageStarts(mg: Merger, template: string, minPositive: Option<nat>, idx: nat): (starts: seq<nat>)
    decreases |mg.rows| - idx
  {
    if idx >= |mg.rows| then []
    else
      var page := PageAfter(mg, template, mg.placeholders, idx);
      [idx] + PageStarts(mg, template, minPositive, Advance(page.filled, minPositive, idx, |mg.rows|))
  }

  /** `process` on the document XML: the new XML, or the splitter's error. */
  function ProcessXml(mg: Merger, d: Dialect, xml: string): (r: Result<string>)
    ensures r.Failure? <==> ExtractDocumentParts(d, xml).Failure?
    ensures r.Failure? ==> r.error == BodyMissingMessage
  {
    match ExtractDocumentParts(d, xml)
    case Failure(e) => Failure(e)
    case Success(parts) =>
      var minPositive := MinPositive(Counts(mg.placeholderMapping, parts.content, mg.placeholders));
      Success(parts.prefix + MergeFrom(mg, parts.content, minPositive, PageBreak(d), 0, "") + parts.suffix)
  }

  const GenerateErrorPrefix: string := "Error generating document: "
  const TemplateMissingMessage: string := "Template file is missing"
  const UnsupportedFormatMessage: string := "Unsupported file format. Please use .docx or .odt"
  /** Stands in for the runtime's message when the archive lacks the
      document entry. */
  const EntryMissingMessage: string := "document entry missing"

  /** `generateDocuments`: the template (its file name and archive
      entries) is required, its name selects the processor, and the
      document entry is replaced by the merged XML. Every failure is
      reported behind the same prefix. */
  function GenerateArchive(mg: Merger, template: Option<(string, map<string, string>)>): (r: Result<map<string, string>>)
    ensures r.Failure? ==> StartsWith(r.error, GenerateErrorPrefix)
    ensures template.None? ==> r == Failure(GenerateErrorPrefix + TemplateMissingMessage)
    ensures template.Some? && DialectOf(template.value.0).None? ==>
              r == Failure(GenerateErrorPrefix + UnsupportedFormatMessage)
    ensures template.Some? && DialectOf(template.value.0).Some? ==>
      var d, entries := DialectOf(template.value.0).value, template.value.1;
      && (ContentEntry(d) !in entries ==> r == Failure(GenerateErrorPrefix + EntryMissingMessage))
      && (ContentEntry(d) in entries ==>
            && (r.Failure? <==> ExtractDocumentParts(d, entries[ContentEntry(d)]).Failure?)
            && (r.Failure? ==> r.error == GenerateErrorPrefix + BodyMissingMessage)
            && (r.Success? ==>
                  && r.value.Keys == entries.Keys
                  && r.value[ContentEntry(d)] == ProcessXml(mg, d, entries[ContentEntry(d)]).value
                  && forall e :: e in entries && e != ContentEntry(d) ==> r.value[e] == entries[e]))
  {
    var r := match template
      case None => Failure(TemplateMissingMessage)
      case Some((fileName, entries)) =>
        match DialectOf(fileName)
        case None => Failure(UnsupportedFormatMessage)
        case Some(d) =>
          if ContentEntry(d) !in entries then Failure(EntryMissingMessage)
          else
            match ProcessXml(mg, d, entries[ContentEntry(d)])
            case Failure(e) => Failure(e)
            case Success(xml) => Success(entries[ContentEntry(d) := xml]);
    match r
    case Success(entries) => Success(entries)
    case Failure(e) =>
      assert (GenerateErrorPrefix + e)[..|GenerateErrorPrefix|] == GenerateErrorPrefix;
      Failure(GenerateErrorPrefix + e)
  }

  // ---------------------------------------------------------------------
  // The processor

  class DocumentProcessor {
    const rows: seq<Row>
    const placeholders: seq<string>
    const placeholderMapping: PMap
    const mappingDict: map<string, string>
    const settings: Mappings.Settings
    const dialect: Dialect

    /** The processor as a value. */
    function Config(): Merger {
      Merger(rows, placeholders, placeholderMapping, mappingDict, settings)
    }

    /** The constructor reduces the mappings to `mappingDict`. */
    constructor(rows: seq<Row>, placeholders: seq<string>, placeholderMapping: PMap,
                mappings: seq<Mappings.Mapping>, settings: Mappings.Settings, dialect: Dialect)
      ensures this.rows == rows && this.placeholders == placeholders
      ensures this.placeholderMapping == placeholderMapping && this.settings == settings
      ensures this.dialect == dialect
      ensures mappingDict == MappingDict(mappings)
    {
      this.rows := rows;
      this.placeholders := placeholders;
      this.placeholderMapping := placeholderMapping;
      this.settings := settings;
      this.dialect := dialect;
      var dict: map<string, string> := map[];
      for i := 0 to |mappings|
        invariant dict == MappingDict(mappings[..i])
      {
        assert mappings[..i + 1][..i] == mappings[..i];
        dict := dict[mappings[i].placeholder := mappings[i].header];
      }
      assert mappings[..|mappings|] == mappings;
      this.mappingDict := dict;
    }

    /** `getPlaceholderCount`: for every placeholder, mapped or not, the
        number of occurrences of its raw token in the template body. */
    method GetPlaceholderCount(templateContent: string) returns (placeholderCount: map<string, nat>)
      ensures placeholderCount.Keys == set p | p in placeholders
      ensures forall p :: p in placeholders ==>
                placeholderCount[p] == |Matches(templateContent, RawToken(placeholderMapping, p), 0)|
    {
      placeholderCount := map[];
      for i := 0 to |placeholders|
        invariant placeholderCount.Keys == set k | 0 <= k < i :: placeholders[k]
        invariant forall p :: p in placeholderCount ==>
                    placeholderCount[p] == |Matches(templateContent, RawToken(placeholderMapping, p), 0)|
      {
        var actualPlaceholder := RawToken(placeholderMapping, placeholders[i]);
        var matches := Matches(templateContent, actualPlaceholder, 0);
        placeholderCount := placeholderCount[placeholders[i] := |matches|];
      }
    }

    /** `Math.min` over the positive counts. */
    method SmallestPositiveCount(placeholderCount: map<string, nat>) returns (r: Option<nat>)
      requires placeholderCount.Keys == set p | p in placeholders
      ensures r == MinPositive(seq(|placeholders|, k requires 0 <= k < |placeholders| => placeholderCount[placeholders[k]]))
    {
      var counts := seq(|placeholders|, k requires 0 <= k < |placeholders| => placeholderCount[placeholders[k]]);
      r := None;
      var i := |counts|;
      while i > 0
        invariant 0 <= i <= |counts|
        invariant r == MinPositive(counts[i..])
      {
        i := i - 1;
        assert counts[i..][1..] == counts[i + 1..];
        if counts[i] != 0 && !(r.Some? && r.value < counts[i]) {
          r := Some(counts[i]);
        }
      }
    }

    /** The inner loop of `replacePlaceholders` for one placeholder: the
        `i`-th match is replaced with the value for row `currentRowIndex + i`
        until the rows run out, keeping `lastIndex` as the shift between
        the rewritten and the original page. */
    method ReplaceMatches(currentPageContent: string, placeholder: string, header: string,
                          currentRowIndex: nat) returns (tempContent: string)
      requires header != ""
      ensures var tok := RawToken(placeholderMapping, placeholder);
              var ms := Matches(currentPageContent, tok, 0);
              var n := Filled(Config(), currentRowIndex, |ms|);
        Ordered(currentPageContent, |tok|, ms)
        && tempContent == Spliced(currentPageContent, |tok|, ms, Values(Config(), currentRowIndex, n, placeholder, header))
    {
      var actualPlaceholder := RawToken(placeholderMapping, placeholder);
      var matches := Matches(currentPageContent, actualPlaceholder, 0);
      MatchesOrdered(currentPageContent, actualPlaceholder);
      tempContent := FillMatches(Config(), currentPageContent, |actualPlaceholder|, matches,
                                 currentRowIndex, placeholder, header);
    }

    /** `replacePlaceholders`: the placeholders in list order, each on the
        page as the earlier ones left it. */
    method ReplacePlaceholders(templateContent: string, currentRowIndex: nat)
      returns (content: string, placeholdersFilledOnThisPage: bool)
      ensures Page(content, placeholdersFilledOnThisPage) == PageAfter(Config(), templateContent, placeholders, currentRowIndex)
    {
      content := templateContent;
      placeholdersFilledOnThisPage := false;
      for k := 0 to |placeholders|
        invariant Page(content, placeholdersFilledOnThisPage) == PageAfter(Config(), templateContent, placeholders[..k], currentRowIndex)
      {
        assert placeholders[..k + 1][..k] == placeholders[..k];
        var placeholder := placeholders[k];
        var header := Lookup(mappingDict, placeholder);
        if header != "" {
          var matches := Matches(content, RawToken(placeholderMapping, placeholder), 0);
          if |matches| > 0 {
            placeholdersFilledOnThisPage := true;
            content := ReplaceMatches(content, placeholder, header, currentRowIndex);
          }
        }
      }
      assert placeholders[..|placeholders|] == placeholders;
    }

    /** `process` on the document XML. */
    method Process(xml: string) returns (r: Result<string>)
      ensures r == ProcessXml(Config(), dialect, xml)
    {
      var split := ExtractDocumentParts(dialect, xml);
      if split.Failure? {
        return Failure(split.error);
      }
      var parts := split.value;
      var placeholderCount := GetPlaceholderCount(parts.content);
      var minPositive := SmallestPositiveCount(placeholderCount);
      assert seq(|placeholders|, k requires 0 <= k < |placeholders| => placeholderCount[placeholders[k]])
             == Counts(placeholderMapping, parts.content, placeholders);
      var pageBreak := PageBreak(dialect);
      var mergedContent := "";
      var currentRowIndex: nat := 0;
      while currentRowIndex < |rows|
        invariant MergeFrom(Config(), parts.content, minPositive, pageBreak, 0, "")
                  == MergeFrom(Config(), parts.content, minPositive, pageBreak, currentRowIndex, mergedContent)
        decreases |rows| - currentRowIndex
      {
        var processedContent, placeholdersFilledOnThisPage := ReplacePlaceholders(parts.content, currentRowIndex);
        if |mergedContent| > 0 {
          mergedContent := mergedContent + pageBreak;
        }
        mergedContent := mergedContent + processedContent;
        currentRowIndex := Advance(placeholdersFilledOnThisPage, minPositive, currentRowIndex, |rows|);
      }
      r := Success(parts.prefix + mergedContent + parts.suffix);
    }
  }

  /** The loop of `replacePlaceholders` over one placeholder's matches,
      on the processor's fields `mg`: match `i` takes the value of row
      `idx + i` until the rows run out; `lastIndex` is the shift between the
      rewritten and the original page. */
  method FillMatches(mg: Merger, currentPageContent: string, len: nat, matches: seq<nat>,
                     currentRowIndex: nat, placeholder: string, header: string) returns (tempContent: string)
    requires Ordered(currentPageContent, len, matches)
    ensures var n := Filled(mg, currentRowIndex, |matches|);
      tempContent == Spliced(currentPageContent, len, matches, Values(mg, currentRowIndex, n, placeholder, header))
  {
    var n := Filled(mg, currentRowIndex, |matches|);
    ghost var vals := Values(mg, currentRowIndex, n, placeholder, header);
    tempContent := currentPageContent;
    var lastIndex: int := 0;
    var i := 0;
    // the source leaves the loop with `break` once the rows run out
    while i < |matches| && currentRowIndex + i < |mg.rows|
      invariant 0 <= i <= n && |vals| == n
      invariant tempContent == Built(currentPageContent, len, matches, vals, i) + currentPageContent[Resume(matches, len, i)..]
      invariant lastIndex == |tempContent| - |currentPageContent|
      decreases |matches| - i
    {
      var value := ValueOfMatch(mg, currentRowIndex, n, i, placeholder, header);
      tempContent := SpliceOne(currentPageContent, len, matches, vals, i, value, tempContent, lastIndex);
      lastIndex := lastIndex + |value| - len;
      i := i + 1;
    }
    assert i == n;
  }

  /** `processValue` for the `i`-th match, on the row it is filled from. */
  method ValueOfMatch(mg: Merger, idx: nat, n: nat, i: nat, placeholder: string, header: string)
    returns (value: string)
    requires i < n && idx + n <= |mg.rows|
    ensures value == Values(mg, idx, n, placeholder, header)[i]
  {
    value := ProcessValue(mg.settings, mg.mappingDict, mg.rows[idx + i], placeholder, header);
    ValueAt(mg, idx, n, i, placeholder, header);
  }

  /** One step of the inner loop: the page so far, cut before the `i`-th
      match (shifted by `lastIndex`) and after it, with the value between. */
  method SpliceOne(c: string, len: nat, ms: seq<nat>, ghost vals: seq<string>, i: nat, value: string,
                   tempContent: string, lastIndex: int) returns (r: string)
    requires Ordered(c, len, ms) && i < |vals| && i < |ms| && value == vals[i]
    requires tempContent == Built(c, len, ms, vals, i) + c[Resume(ms, len, i)..]
    requires lastIndex == |tempContent| - |c|
    ensures r == Built(c, len, ms, vals, i + 1) + c[Resume(ms, len, i + 1)..]
    ensures |r| - |c| == lastIndex + |vals[i]| - len
  {
    var b := Built(c, len, ms, vals, i);
    var resume := Resume(ms, len, i);
    assert resume <= ms[i];
    assert lastIndex == |b| - resume;
    var beforeMatch := tempContent[..ms[i] + lastIndex];
    var afterMatch := tempContent[ms[i] + len + lastIndex..];
    assert beforeMatch == b + c[resume..ms[i]];
    assert afterMatch == c[ms[i] + len..];
    r := beforeMatch + value + afterMatch;
  }

  // ---------------------------------------------------------------------
  // Properties

  /** Replacing every match by the token itself gives the text back: the
      splice keeps everything outside the replaced matches. */
  lemma {:induction false} BuiltIdentity(c: string, tok: string, ms: seq<nat>, vals: seq<string>, k: nat)
    requires Ordered(c, |tok|, ms) && k <= |vals| && k <= |ms|
    requires forall j :: 0 <= j < |ms| ==> OccursAt(c, tok, ms[j])
    requires forall j :: 0 <= j < |vals| ==> vals[j] == tok
    ensures Built(c, |tok|, ms, vals, k) == c[..Resume(ms, |tok|, k)]
    decreases k
  {
    if k > 0 {
      BuiltIdentity(c, tok, ms, vals, k - 1);
      var r := Resume(ms, |tok|, k - 1);
      assert c[..r] + c[r..ms[k - 1]] + c[ms[k - 1]..ms[k - 1] + |tok|] == c[..ms[k - 1] + |tok|];
    }
  }

  lemma {:induction false} SplicedIdentity(c: string, tok: string, ms: seq<nat>, vals: seq<string>)
    requires Ordered(c, |tok|, ms) && |vals| <= |ms|
    requires forall j :: 0 <= j < |ms| ==> OccursAt(c, tok, ms[j])
    requires forall j :: 0 <= j < |vals| ==> vals[j] == tok
    ensures Spliced(c, |tok|, ms, vals) == c
  {
    BuiltIdentity(c, tok, ms, vals, |vals|);
    assert c[..Resume(ms, |tok|, |vals|)] + c[Resume(ms, |tok|, |vals|)..] == c;
  }

  /** The length changes by the difference between each value and the
      token it replaces. */
  function Growth(vals: seq<string>, len: nat): int
    decreases |vals|
  {
    if |vals| == 0 then 0 else Growth(vals[..|vals| - 1], len) + |vals[|vals| - 1]| - len
  }

  lemma {:induction false} BuiltLength(c: string, len: nat, ms: seq<nat>, vals: seq<string>, k: nat)
    requires Ordered(c, len, ms) && k <= |vals| && k <= |ms|
    ensures |Built(c, len, ms, vals, k)| == Resume(ms, len, k) + Growth(vals[..k], len)
    decreases k
  {
    if k > 0 {
      BuiltLength(c, len, ms, vals, k - 1);
      assert vals[..k][..k - 1] == vals[..k - 1];
    }
  }

  lemma {:induction false} SplicedLength(c: string, len: nat, ms: seq<nat>, vals: seq<string>)
    requires Ordered(c, len, ms) && |vals| <= |ms|
    ensures |Built(c, len, ms, vals, |vals|)| == Resume(ms, len, |vals|) + Growth(vals, len)
    ensures |Spliced(c, len, ms, vals)| == |c| + Growth(vals, len)
  {
    BuiltLength(c, len, ms, vals, |vals|);
    assert vals[..|vals|] == vals;
  }

  /** The `k`-th value stands where the `k`-th match stood, shifted by the
      growth of the earlier replacements. */
  lemma {:induction false} BuiltPlacesValue(c: string, len: nat, ms: seq<nat>, vals: seq<string>, k: nat, n: nat)
    requires Ordered(c, len, ms) && k < n <= |vals| && n <= |ms|
    ensures OccursAt(Built(c, len, ms, vals, n), vals[k], ms[k] + Growth(vals[..k], len))
    decreases n
  {
    if n - 1 == k {
      BuiltEndsWithValue(c, len, ms, vals, n);
    } else {
      BuiltPlacesValue(c, len, ms, vals, k, n - 1);
      BuiltKeepsOccurrence(c, len, ms, vals, n, vals[k], ms[k] + Growth(vals[..k], len));
    }
  }

  /** The value of the last replaced match ends the text built so far. */
  lemma {:induction false} BuiltEndsWithValue(c: string, len: nat, ms: seq<nat>, vals: seq<string>, n: nat)
    requires Ordered(c, len, ms) && 0 < n <= |vals| && n <= |ms|
    ensures OccursAt(Built(c, len, ms, vals, n), vals[n - 1], ms[n - 1] + Growth(vals[..n - 1], len))
  {
    var pre := Built(c, len, ms, vals, n - 1) + c[Resume(ms, len, n - 1)..ms[n - 1]];
    BuiltLength(c, len, ms, vals, n - 1);
    assert |pre| == ms[n - 1] + Growth(vals[..n - 1], len);
    assert OccursAt(vals[n - 1], vals[n - 1], 0);
    OccursInConcat(pre, vals[n - 1], vals[n - 1], 0);
  }

  /** Building one step further keeps every occurrence already built. */
  lemma {:induction false} BuiltKeepsOccurrence(c: string, len: nat, ms: seq<nat>, vals: seq<string>, n: nat, v: string, p: int)
    requires Ordered(c, len, ms) && 0 < n <= |vals| && n <= |ms|
    requires OccursAt(Built(c, len, ms, vals, n - 1), v, p)
    ensures OccursAt(Built(c, len, ms, vals, n), v, p)
  {
    var b := Built(c, len, ms, vals, n - 1);
    OccursInConcat(b, c[Resume(ms, len, n - 1)..ms[n - 1]] + vals[n - 1], v, p);
    assert Built(c, len, ms, vals, n) == b + (c[Resume(ms, len, n - 1)..ms[n - 1]] + vals[n - 1]);
  }

  /** The text after the last replaced match is kept unchanged at the
      end. */
  lemma {:induction false} SplicedKeepsTail(c: string, len: nat, ms: seq<nat>, vals: seq<string>)
    requires Ordered(c, len, ms) && |vals| <= |ms|
    ensures EndsWith(Spliced(c, len, ms, vals), c[Resume(ms, len, |vals|)..])
  {
    var b := Built(c, len, ms, vals, |vals|);
    var t := c[Resume(ms, len, |vals|)..];
    assert (b + t)[|b + t| - |t|..] == t;
  }

  /** Matches past the rows left stay as they were, shifted by the growth
      of the replaced ones. */
  lemma {:induction false} SplicedKeepsLaterMatches(c: string, tok: string, ms: seq<nat>, vals: seq<string>, k: nat)
    requires Ordered(c, |tok|, ms) && |vals| <= k < |ms| && OccursAt(c, tok, ms[k])
    ensures OccursAt(Spliced(c, |tok|, ms, vals), tok, ms[k] + Growth(vals, |tok|))
  {
    var n := |vals|;
    var b := Built(c, |tok|, ms, vals, n);
    var r := Resume(ms, |tok|, n);
    ResumeBefore(c, |tok|, ms, n, k);
    SplicedLength(c, |tok|, ms, vals);
    ShiftedOccurrence(Spliced(c, |tok|, ms, vals), b, c, tok, r, ms[k], ms[k] + Growth(vals, |tok|));
  }

  /** The text kept after `n` splices starts no later than the next match. */
  lemma {:induction false} ResumeBefore(c: string, len: nat, ms: seq<nat>, n: nat, k: nat)
    requires Ordered(c, len, ms) && n <= k < |ms|
    ensures Resume(ms, len, n) <= ms[k]
  {
    if n > 0 {
      assert ms[n - 1] + len <= ms[k];
    }
  }

  /** An occurrence at `m` in `c` is one at `|b| + m - r` once the text
      before `r` is replaced by `b`. */
  lemma {:induction false} ShiftedOccurrence(s: string, b: string, c: string, tok: string, r: nat, m: nat, i: int)
    requires r <= m && r <= |c| && OccursAt(c, tok, m)
    requires s == b + c[r..] && i == |b| + (m - r)
    ensures OccursAt(s, tok, i)
  {
    OccursInSuffix(c, tok, r, m);
    OccursInConcat(b, c[r..], tok, m - r);
  }

  /** A mapped placeholder with matches on the page is spliced. */
  lemma {:induction false} PlaceholderStepSplices(mg: Merger, page: Page, placeholder: string, idx: nat)
    requires Lookup(mg.mappingDict, placeholder) != ""
    requires |Matches(page.content, RawToken(mg.placeholderMapping, placeholder), 0)| > 0
    ensures var tok := RawToken(mg.placeholderMapping, placeholder);
            var ms := Matches(page.content, tok, 0);
      && Ordered(page.content, |tok|, ms)
      && PlaceholderStep(mg, page, placeholder, idx)
         == Page(Spliced(page.content, |tok|, ms,
                         Values(mg, idx, Filled(mg, idx, |ms|), placeholder, Lookup(mg.mappingDict, placeholder))), true)
  {
    MatchesOrdered(page.content, RawToken(mg.placeholderMapping, placeholder));
  }

  /** The value of match `k` on a page starting at row `idx` comes from row
      `idx + k`, for as many matches as there are rows left. */
  lemma {:induction false} PlaceholderStepFills(mg: Merger, page: Page, placeholder: string, idx: nat, k: nat)
    requires Lookup(mg.mappingDict, placeholder) != ""
    requires var ms := Matches(page.content, RawToken(mg.placeholderMapping, placeholder), 0);
      k < Filled(mg, idx, |ms|)
    ensures var tok := RawToken(mg.placeholderMapping, placeholder);
            var ms := Matches(page.content, tok, 0);
            var vals := Values(mg, idx, Filled(mg, idx, |ms|), placeholder, Lookup(mg.mappingDict, placeholder));
      && idx + k < |mg.rows|
      && OccursAt(PlaceholderStep(mg, page, placeholder, idx).content,
                  ProcessValue(mg.settings, mg.mappingDict, mg.rows[idx + k], placeholder, Lookup(mg.mappingDict, placeholder)),
                  ms[k] + Growth(vals[..k], |tok|))
  {
    var tok := RawToken(mg.placeholderMapping, placeholder);
    var ms := Matches(page.content, tok, 0);
    var header := Lookup(mg.mappingDict, placeholder);
    var vals := Values(mg, idx, Filled(mg, idx, |ms|), placeholder, header);
    PlaceholderStepPlaces(mg, page, placeholder, idx, k);
    ValueAt(mg, idx, |vals|, k, placeholder, header);
  }

  /** The `k`-th value stands where match `k` was, shifted by what the
      earlier values added. */
  lemma {:induction false} PlaceholderStepPlaces(mg: Merger, page: Page, placeholder: string, idx: nat, k: nat)
    requires Lookup(mg.mappingDict, placeholder) != ""
    requires var ms := Matches(page.content, RawToken(mg.placeholderMapping, placeholder), 0);
      k < Filled(mg, idx, |ms|)
    ensures var tok := RawToken(mg.placeholderMapping, placeholder);
            var ms := Matches(page.content, tok, 0);
            var vals := Values(mg, idx, Filled(mg, idx, |ms|), placeholder, Lookup(mg.mappingDict, placeholder));
      && k < |vals| && k < |ms|
      && OccursAt(PlaceholderStep(mg, page, placeholder, idx).content, vals[k], ms[k] + Growth(vals[..k], |tok|))
  {
    var tok := RawToken(mg.placeholderMapping, placeholder);
    var ms := Matches(page.content, tok, 0);
    var vals := Values(mg, idx, Filled(mg, idx, |ms|), placeholder, Lookup(mg.mappingDict, placeholder));
    PlaceholderStepSplices(mg, page, placeholder, idx);
    SplicedPlacesValue(page.content, |tok|, ms, vals, k);
  }

  /** After the splice, the value of match `k` stands where the match was,
      shifted by what the earlier values added. */
  lemma {:induction false} SplicedPlacesValue(c: string, len: nat, ms: seq<nat>, vals: seq<string>, k: nat)
    requires Ordered(c, len, ms) && k < |vals| <= |ms|
    ensures OccursAt(Spliced(c, len, ms, vals), vals[k], ms[k] + Growth(vals[..k], len))
  {
    BuiltPlacesValue(c, len, ms, vals, k, |vals|);
    OccursInConcat(Built(c, len, ms, vals, |vals|), c[Resume(ms, len, |vals|)..], vals[k], ms[k] + Growth(vals[..k], len));
  }

  /** The mapping dictionary gives a placeholder the header of the last
      mapping that names it. */
  lemma {:induction false} MappingDictLastWins(mappings: seq<Mappings.Mapping>, k: nat)
    requires k < |mappings|
    requires forall j :: k < j < |mappings| ==> mappings[j].placeholder != mappings[k].placeholder
    ensures MappingDict(mappings)[mappings[k].placeholder] == mappings[k].header
    decreases |mappings|
  {
    if k < |mappings| - 1 {
      var init := mappings[..|mappings| - 1];
      assert init[k] == mappings[k];
      MappingDictLastWins(init, k);
    }
  }

  /** Every run moves on by at least one row, so there are never more
      pages than rows. */
  lemma {:induction false} PagesBounded(mg: Merger, template: string, minPositive: Option<nat>, idx: nat)
    ensures |PageStarts(mg, template, minPositive, idx)| <= |mg.rows| - idx || idx >= |mg.rows|
    ensures forall k :: 0 <= k < |PageStarts(mg, template, minPositive, idx)| ==>
              idx <= PageStarts(mg, template, minPositive, idx)[k] < |mg.rows|
    decreases |mg.rows| - idx
  {
    if idx < |mg.rows| {
      var page := PageAfter(mg, template, mg.placeholders, idx);
      var next := Advance(page.filled, minPositive, idx, |mg.rows|);
      PagesBounded(mg, template, minPositive, next);
    }
  }

  /** The pages from row `idx` on, each preceded by a page break. */
  function BrokenPages(mg: Merger, template: string, minPositive: Option<nat>, pageBreak: string,
                       idx: nat): string
    decreases |mg.rows| - idx
  {
    if idx >= |mg.rows| then ""
    else
      var page := PageAfter(mg, template, mg.placeholders, idx);
      pageBreak + page.content
        + BrokenPages(mg, template, minPositive, pageBreak, Advance(page.filled, minPositive, idx, |mg.rows|))
  }

  /** Once something has been written, every further page is preceded by
      exactly one page break. */
  lemma {:induction false} MergeFromBreaks(mg: Merger, template: string, minPositive: Option<nat>,
                                           pageBreak: string, idx: nat, acc: string)
    requires |acc| > 0
    ensures MergeFrom(mg, template, minPositive, pageBreak, idx, acc)
            == acc + BrokenPages(mg, template, minPositive, pageBreak, idx)
    decreases |mg.rows| - idx
  {
    if idx < |mg.rows| {
      var page := PageAfter(mg, template, mg.placeholders, idx);
      var next := Advance(page.filled, minPositive, idx, |mg.rows|);
      MergeFromBreaks(mg, template, minPositive, pageBreak, next, acc + pageBreak + page.content);
      assert acc + pageBreak + page.content + BrokenPages(mg, template, minPositive, pageBreak, next)
             == acc + (pageBreak + page.content + BrokenPages(mg, template, minPositive, pageBreak, next));
    }
  }

  /** The merged body is the first page followed by the later pages, each
      after a page break; no break comes first. */
  lemma {:induction false} MergedLayout(mg: Merger, template: string, minPositive: Option<nat>, pageBreak: string)
    requires |mg.rows| > 0 && PageAfter(mg, template, mg.placeholders, 0).content != ""
    ensures var page := PageAfter(mg, template, mg.placeholders, 0);
      MergeFrom(mg, template, minPositive, pageBreak, 0, "")
      == page.content + BrokenPages(mg, template, minPositive, pageBreak, Advance(page.filled, minPositive, 0, |mg.rows|))
  {
    var page := PageAfter(mg, template, mg.placeholders, 0);
    assert "" + page.content == page.content;
    MergeFromBreaks(mg, template, minPositive, pageBreak, Advance(page.filled, minPositive, 0, |mg.rows|), page.content);
  }

  /** With no rows the output is the prefix followed by the suffix. */
  lemma {:induction false} ZeroRows(mg: Merger, d: Dialect, xml: string)
    requires |mg.rows| == 0 && ExtractDocumentParts(d, xml).Success?
    ensures var parts := ExtractDocumentParts(d, xml).value;
      ProcessXml(mg, d, xml) == Success(parts.prefix + parts.suffix)
  {
    var parts := ExtractDocumentParts(d, xml).value;
    var minPositive := MinPositive(Counts(mg.placeholderMapping, parts.content, mg.placeholders));
    ProcessXmlParts(mg, d, xml);
    assert MergeFrom(mg, parts.content, minPositive, PageBreak(d), 0, "") == "";
    AppendEmpty(parts.prefix, parts.suffix);
  }

  /** A successful split is wrapped around the merged pages. */
  lemma {:induction false} ProcessXmlParts(mg: Merger, d: Dialect, xml: string)
    requires ExtractDocumentParts(d, xml).Success?
    ensures var parts := ExtractDocumentParts(d, xml).value;
      var minPositive := MinPositive(Counts(mg.placeholderMapping, parts.content, mg.placeholders));
      ProcessXml(mg, d, xml) == Success(parts.prefix + MergeFrom(mg, parts.content, minPositive, PageBreak(d), 0, "") + parts.suffix)
  {
  }

}

=== FILE: pmap.dfy ===
/** The placeholder map of the extraction: a JavaScript `Map` from the
    readable placeholder name to the raw token found in the document XML.
    Its keys keep their insertion order, and setting a key that is already
    present changes its value where it stands. */
module PlaceholderMap {
  import opened Text

  datatype Entry = Entry(name: string, token: string)

  /** The entries in insertion order. */
  type PMap = seq<Entry>

  /** `[...map.keys()]`. */
  function Keys(m: PMap): (ks: seq<string>)
    ensures |ks| == |m| && forall k :: 0 <= k < |m| ==> ks[k] == m[k].name
  {
    seq(|m|, k requires 0 <= k < |m| => m[k].name)
  }

  /** No name occurs twice, as in every `Map`. */
  predicate Distinct(m: PMap) {
    forall i, j :: 0 <= i < j < |m| ==> m[i].name != m[j].name
  }

  /** `map.has(name)`. */
  predicate Has(m: PMap, name: string) {
    name in Keys(m)
  }

  /** `map.get(name)`: the value of the first entry with that name. */
  function Get(m: PMap, name: string): (r: Option<string>)
    ensures r.None? <==> !Has(m, name)
    ensures r.Some? ==> exists k :: 0 <= k < |m| && m[k] == Entry(name, r.value)
    decreases |m|
  {
    if |m| == 0 then None
    else if m[0].name == name then Some(m[0].token)
    else
      assert Keys(m) == [m[0].name] + Keys(m[1..]);
      var r := Get(m[1..], name);
      if r.Some? then
        var k :| 0 <= k < |m[1..]| && m[1..][k] == Entry(name, r.value);
        assert m[k + 1] == m[1..][k];
        r
      else r
  }

  /** `map.set(name, token)`: the entry of a present name takes the new
      token in place; a new name is appended. */
  function Set(m: PMap, name: string, token: string): (r: PMap)
    ensures Has(m, name) ==> Keys(r) == Keys(m)
    ensures !Has(m, name) ==> Keys(r) == Keys(m) + [name]
    decreases |m|
  {
    if |m| == 0 then [Entry(name, token)]
    else if m[0].name == name then [Entry(name, token)] + m[1..]
    else
      assert Keys(m) == [m[0].name] + Keys(m[1..]);
      [m[0]] + Set(m[1..], name, token)
  }

  // ---------------------------------------------------------------------
  // Properties

  /** After setting, the name reads back the new token and every other
      name reads as before. */
  lemma {:induction false} GetSet(m: PMap, name: string, token: string, other: string)
    ensures Get(Set(m, name, token), name) == Some(token)
    ensures other != name ==> Get(Set(m, name, token), other) == Get(m, other)
    decreases |m|
  {
    if |m| > 0 && m[0].name != name {
      GetSet(m[1..], name, token, other);
      assert Set(m, name, token)[1..] == Set(m[1..], name, token);
      if m[0].name != other {
        assert (m[1..] + []) == m[1..];
      }
    } else if |m| > 0 {
      assert Set(m, name, token)[1..] == m[1..];
    }
  }

  /** Setting keeps the names distinct. */
  lemma {:induction false} SetDistinct(m: PMap, name: string, token: string)
    requires Distinct(m)
    ensures Distinct(Set(m, name, token))
  {
    var r := Set(m, name, token);
    forall i, j | 0 <= i < j < |r| ensures r[i].name != r[j].name {
      assert Keys(r)[i] == r[i].name && Keys(r)[j] == r[j].name;
      if Has(m, name) {
        assert Keys(m)[i] == m[i].name && Keys(m)[j] == m[j].name;
      } else if j < |m| {
        assert Keys(m)[i] == m[i].name && Keys(m)[j] == m[j].name;
      } else {
        assert Keys(m)[i] == m[i].name;
      }
    }
  }

  /** Every entry after a set is either the new one or an entry that was
      there before. */
  lemma {:induction false} SetEntries(m: PMap, name: string, token: string)
    ensures forall e :: e in Set(m, name, token) ==> e == Entry(name, token) || e in m
    decreases |m|
  {
    if |m| > 0 && m[0].name != name {
      SetEntries(m[1..], name, token);
      assert Set(m, name, token) == [m[0]] + Set(m[1..], name, token);
      assert forall e :: e in m[1..] ==> e in m;
    } else if |m| > 0 {
      assert forall e :: e in m[1..] ==> e in m;
    }
  }
}

=== FILE: scorer.dfy ===
/** The tiered similarity score between a placeholder name and a
    spreadsheet header (`stringSimilarity` in utils.ts). Cheap, confident
    checks come first: header starts or ends with the placeholder (0.9),
    contains it (0.8), a word of the placeholder matches a word of the
    header (0.7 exact, 0.6 prefix or suffix); only then a Levenshtein
    fallback squeezed into [0.3, 0.5). */
module Scorer {
  import opened Text
  import Levenshtein

  /** `toLowerCase().trim()`. */
  function Normalize(s: string): string {
    Trim(Lower(s))
  }

  /** The word tier for one placeholder word: the first header word that
      equals it (0.7) or starts or ends with it (0.6), in header order. */
  function WordMatch(w: string, words: seq<string>): Option<real>
    decreases |words|
  {
    if |words| == 0 then None
    else if words[0] == w then Some(0.7)
    else if StartsWith(words[0], w) || EndsWith(words[0], w) then Some(0.6)
    else WordMatch(w, words[1..])
  }

  /** The word tier: placeholder words shorter than three characters are
      skipped; the first placeholder word with a match decides. */
  function WordTier(words1: seq<string>, words2: seq<string>): Option<real>
    decreases |words1|
  {
    if |words1| == 0 then None
    else if |words1[0]| < 3 then WordTier(words1[1..], words2)
    else match WordMatch(words1[0], words2)
      case Some(s) => Some(s)
      case None => WordTier(words1[1..], words2)
  }

  /** A header word matches a placeholder word when it starts or ends with
      it (equality included). */
  predicate WordsMatch(w: string, h: string) {
    StartsWith(h, w) || EndsWith(h, w)
  }

  /** The number of leading positions at which `a` and `b` agree, counted
      from position `i`. */
  function CommonPrefixFrom(a: string, b: string, i: nat): (n: nat)
    requires i <= |a| && i <= |b|
    decreases |a| - i
  {
    if i < |a| && i < |b| && a[i] == b[i] then CommonPrefixFrom(a, b, i + 1) else i
  }

  /** The length of the longest common prefix of `a` and `b`. */
  function CommonPrefixLength(a: string, b: string): (n: nat)
    ensures n <= |a| && n <= |b|
    ensures a[..n] == b[..n]
    ensures n < |a| && n < |b| ==> a[n] != b[n]
  {
    CommonPrefixBounds(a, b, 0);
    CommonPrefixFrom(a, b, 0)
  }

  lemma {:induction false} CommonPrefixBounds(a: string, b: string, i: nat)
    requires i <= |a| && i <= |b| && a[..i] == b[..i]
    ensures var n := CommonPrefixFrom(a, b, i);
      i <= n <= |a| && n <= |b| && a[..n] == b[..n] && (n < |a| && n < |b| ==> a[n] != b[n])
    decreases |a| - i
  {
    if i < |a| && i < |b| && a[i] == b[i] {
      assert a[..i + 1] == a[..i] + [a[i]] && b[..i + 1] == b[..i] + [b[i]];
      CommonPrefixBounds(a, b, i + 1);
    }
  }

  /** The Levenshtein fallback: 1 - distance / (|a| + |b| - common prefix),
      mapped onto 0.3 + raw * 0.2. */
  function LevenshteinScore(a: string, b: string): real
    requires |a| + |b| > 0
  {
    FallbackScore(Levenshtein.EditDistance(a, b), |a| + |b| - CommonPrefixLength(a, b))
  }

  /** 0.3 + (1 - distance / denominator) * 0.2. */
  function FallbackScore(distance: nat, den: nat): real
    requires den > 0
  {
    0.3 + (1.0 - (distance as real) / (den as real)) * 0.2
  }

  /** The similarity of `placeholder` to `header`, tier by tier. */
  function Similarity(placeholder: string, header: string): real {
    var a := Normalize(placeholder);
    var b := Normalize(header);
    if StartsWith(b, a) || EndsWith(b, a) then 0.9
    else if Contains(b, a) then 0.8
    else match WordTier(SplitWhitespace(a), SplitWhitespace(b))
      case Some(s) => s
      case None =>
        if Levenshtein.Max(|a|, |b|) == 0 then 1.0
        else LevenshteinScore(a, b)
  }

  /** The computation as the source performs it: early returns for the
      tiers, nested word loops, the distance matrix and a prefix counter. */
  method StringSimilarity(str1: string, str2: string) returns (score: real)
    ensures score == Similarity(str1, str2)
  {
    var a := Normalize(str1);
    var b := Normalize(str2);
    if StartsWith(b, a) || EndsWith(b, a) {
      return 0.9;
    }
    if Contains(b, a) {
      return 0.8;
    }
    var words := MatchWords(SplitWhitespace(a), SplitWhitespace(b));
    if words.Some? {
      return words.value;
    }
    // the source's `maxLength === 0` guard (score 1.0) cannot be reached:
    // two empty strings have already met the prefix tier
    FallbackRange(a, b);
    var editDistance := Levenshtein.ComputeEditDistance(a, b);
    var commonPrefixLength := CountCommonPrefix(a, b);
    score := FallbackScore(editDistance, |a| + |b| - commonPrefixLength);
  }

  /** The nested word loops: for each placeholder word of length three or
      more, the header words in order; equality returns 0.7, a prefix or
      suffix 0.6. */
  method MatchWords(words1: seq<string>, words2: seq<string>) returns (r: Option<real>)
    ensures r == WordTier(words1, words2)
  {
    for i := 0 to |words1|
      invariant WordTier(words1, words2) == WordTier(words1[i..], words2)
    {
      var word1 := words1[i];
      assert words1[i..][0] == word1 && words1[i..][1..] == words1[i + 1..];
      if |word1| < 3 {
        continue;
      }
      for j := 0 to |words2|
        invariant WordMatch(word1, words2) == WordMatch(word1, words2[j..])
      {
        var word2 := words2[j];
        assert words2[j..][0] == word2 && words2[j..][1..] == words2[j + 1..];
        if word2 == word1 {
          return Some(0.7);
        }
        if StartsWith(word2, word1) || EndsWith(word2, word1) {
          return Some(0.6);
        }
      }
    }
    return None;
  }

  /** The prefix counter: advances while both strings agree. */
  method CountCommonPrefix(a: string, b: string) returns (n: nat)
    ensures n == CommonPrefixLength(a, b)
  {
    var m := if |a| < |b| then |a| else |b|;
    n := 0;
    while n < m
      invariant n <= m
      invariant CommonPrefixFrom(a, b, 0) == CommonPrefixFrom(a, b, n)
    {
      if a[n] != b[n] {
        break;
      }
      n := n + 1;
    }
  }

  // ---------------------------------------------------------------------
  // Properties

  /** Normalising is idempotent, so the score depends only on the lower-cased,
      trimmed inputs. */
  lemma {:induction false} SimilarityNormalized(placeholder: string, header: string)
    ensures Similarity(placeholder, header) == Similarity(Normalize(placeholder), Normalize(header))
  {
    NormalizeIdempotent(placeholder);
    NormalizeIdempotent(header);
  }

  lemma {:induction false} NormalizeIdempotent(s: string)
    ensures Normalize(Normalize(s)) == Normalize(s)
  {
    LowerTrimLower(s);
  }

  /** Identical strings, and an empty placeholder against any header, meet
      the prefix tier. */
  lemma {:induction false} PrefixTierCases(s: string, header: string)
    ensures Similarity(s, s) == 0.9
    ensures Similarity("", header) == 0.9
  {
    var a := Normalize(s);
    assert a[..|a|] == a;
    assert Normalize("") == "";
  }

  /** The tier order: which tier answers decides the score, and only the
      word tier can yield 0.7 or 0.6. */
  lemma {:induction false} SimilarityTiers(placeholder: string, header: string)
    ensures var a, b := Normalize(placeholder), Normalize(header);
      var s := Similarity(placeholder, header);
      && ((StartsWith(b, a) || EndsWith(b, a)) <==> s == 0.9)
      && (!(StartsWith(b, a) || EndsWith(b, a)) && Contains(b, a) <==> s == 0.8)
      && (!Contains(b, a) ==>
            (WordTier(SplitWhitespace(a), SplitWhitespace(b)).Some? <==> s == 0.7 || s == 0.6))
      && (!Contains(b, a) && WordTier(SplitWhitespace(a), SplitWhitespace(b)).None? ==>
            0.3 <= s < 0.5)
  {
    var a, b := Normalize(placeholder), Normalize(header);
    WordTierValues(SplitWhitespace(a), SplitWhitespace(b));
    if !(StartsWith(b, a) || EndsWith(b, a)) && !Contains(b, a) {
      FallbackRange(a, b);
    } else if StartsWith(b, a) || EndsWith(b, a) {
      StartsOrEndsImpliesContains(b, a);
    }
  }

  /** Every score lies between 0.3 and 0.9; the `maxLength === 0` guard
      cannot be reached. */
  lemma {:induction false} SimilarityBounds(placeholder: string, header: string)
    ensures 0.3 <= Similarity(placeholder, header) <= 0.9
  {
    SimilarityTiers(placeholder, header);
  }

  /** Past the first three tiers the strings differ and the placeholder is
      not empty, so the fallback lies in [0.3, 0.5). */
  lemma {:induction false} FallbackRange(a: string, b: string)
    requires !StartsWith(b, a)
    ensures |a| + |b| > 0 && Levenshtein.Max(|a|, |b|) != 0
    ensures 0.3 <= LevenshteinScore(a, b) < 0.5
  {
    assert StartsWith(b, []) && StartsWith(b, b) by {
      assert b[..0] == [] && b[..|b|] == b;
    }
    Levenshtein.EditDistanceFacts(a, b);
    var d := Levenshtein.EditDistance(a, b);
    var cp := CommonPrefixLength(a, b);
    RatioInUnit(d, |a| + |b| - cp);
  }

  lemma {:induction false} RatioInUnit(d: nat, den: nat)
    requires 0 < d <= den
    ensures 0.0 < (d as real) / (den as real) <= 1.0
  {
    var q := (d as real) / (den as real);
    assert q * (den as real) == d as real;
  }

  /** Scores of the word tier are 0.7 or 0.6, and the tier answers exactly
      when some placeholder word of length at least three is matched by a
      header word. */
  lemma {:induction false} WordTierValues(words1: seq<string>, words2: seq<string>)
    ensures WordTier(words1, words2).Some? ==>
              WordTier(words1, words2).value == 0.7 || WordTier(words1, words2).value == 0.6
    ensures WordTier(words1, words2).Some? <==>
              exists i, j :: 0 <= i < |words1| && 0 <= j < |words2| && |words1[i]| >= 3
                             && WordsMatch(words1[i], words2[j])
    decreases |words1|
  {
    if |words1| > 0 {
      WordTierValues(words1[1..], words2);
      WordMatchValues(words1[0], words2);
      if WordTier(words1, words2).None? {
        forall i, j | 0 <= i < |words1| && 0 <= j < |words2| && |words1[i]| >= 3
          ensures !WordsMatch(words1[i], words2[j])
        {
          if i > 0 {
            assert words1[1..][i - 1] == words1[i];
          }
        }
      } else if |words1[0]| < 3 || WordMatch(words1[0], words2).None? {
        var i, j :| 0 <= i < |words1[1..]| && 0 <= j < |words2| && |words1[1..][i]| >= 3
                    && WordsMatch(words1[1..][i], words2[j]);
        assert words1[1..][i] == words1[i + 1];
      } else {
        var j :| 0 <= j < |words2| && WordsMatch(words1[0], words2[j]);
      }
    }
  }

  lemma {:induction false} WordMatchValues(w: string, words: seq<string>)
    ensures WordMatch(w, words).Some? ==> WordMatch(w, words).value == 0.7 || WordMatch(w, words).value == 0.6
    ensures WordMatch(w, words) == Some(0.7) ==> w in words
    ensures WordMatch(w, words).Some? <==> exists j :: 0 <= j < |words| && WordsMatch(w, words[j])
    decreases |words|
  {
    if |words| > 0 {
      WordMatchValues(w, words[1..]);
      if words[0] == w {
        assert StartsWith(words[0], w) by { assert words[0][..|w|] == w; }
      } else if WordMatch(w, words).Some? && !(StartsWith(words[0], w) || EndsWith(words[0], w)) {
        var j :| 0 <= j < |words[1..]| && WordsMatch(w, words[1..][j]);
        assert words[1..][j] == words[j + 1];
      } else if WordMatch(w, words).None? {
        forall j | 0 <= j < |words| ensures !WordsMatch(w, words[j]) {
          if j > 0 {
            assert words[1..][j - 1] == words[j];
          }
        }
      }
    }
  }

  /** The score is not symmetric: only the header is tested against the
      placeholder. */
  lemma {:induction false} Asymmetric()
    ensures Similarity("ime", "ime otroka") == 0.9
    ensures Similarity("ime otroka", "ime") == 0.7
  {
    ExampleWords();
    var a, b := "ime otroka", "ime";
    assert StartsWith(a, b);
    assert !StartsWith(b, a) && !EndsWith(b, a) && !Contains(b, a);
    assert WordTier(["ime", "otroka"], [b]) == Some(0.7) by {
      assert WordMatch("ime", [b]) == Some(0.7);
    }
  }

  lemma {:induction false} ExampleWords()
    ensures Normalize("ime") == "ime" && Normalize("ime otroka") == "ime otroka"
    ensures SplitWhitespace("ime otroka") == ["ime", "otroka"]
    ensures SplitWhitespace("ime") == ["ime"]
  {
    NormalizeLowerTrimmed("ime");
    ExampleNormalized();
    SingleWord("ime");
    ExampleSplit();
  }

  lemma {:induction false} ExampleNormalized()
    ensures Normalize("ime otroka") == "ime otroka"
  {
    var a := "ime otroka";
    assert forall k :: 0 <= k < |a| ==> 'a' <= a[k] <= 'z' || a[k] == ' ';
    NormalizeLowerTrimmed(a);
  }

  lemma {:induction false} ExampleSplit()
    ensures SplitWhitespace("ime otroka") == ["ime", "otroka"]
  {
    var a := "ime otroka";
    ExampleSpace();
    ExampleSlices();
    SingleWord("otroka");
    assert SplitWhitespace(a) == [a[..3]] + SplitWhitespace(a[4..]);
  }

  lemma {:induction false} ExampleSpace()
    ensures FirstWhitespace("ime otroka", 0) == Some(3) && SkipWhitespace("ime otroka", 3) == 4
  {
    var a := "ime otroka";
    assert !IsWhitespace(a[0]) && !IsWhitespace(a[1]) && !IsWhitespace(a[2]) && IsWhitespace(a[3]);
    assert !IsWhitespace(a[4]);
  }

  lemma {:induction false} ExampleSlices()
    ensures "ime otroka"[..3] == "ime" && "ime otroka"[4..] == "otroka"
  {
  }

  /** A string without white space is one word. */
  lemma {:induction false} SingleWord(s: string)
    requires forall k :: 0 <= k < |s| ==> 'a' <= s[k] <= 'z'
    ensures SplitWhitespace(s) == [s]
  {
    assert FirstWhitespace(s, 0).None?;
  }

  /** A lower-case string without surrounding white space is already
      normalised. */
  lemma {:induction false} NormalizeLowerTrimmed(s: string)
    requires forall k :: 0 <= k < |s| ==> 'a' <= s[k] <= 'z' || s[k] == ' '
    requires |s| > 0 ==> s[0] != ' ' && s[|s| - 1] != ' '
    ensures Normalize(s) == s
  {
    forall k | 0 <= k < |s| ensures LowerChar(s[k]) == s[k] {
    }
    LowerFixed(s);
    if |s| > 0 {
      assert !IsWhitespace(s[0]) && !IsWhitespace(s[|s| - 1]);
    }
  }
}

=== FILE: sheet.dfy ===
/** The tabular paste parser (use-sheet-data.ts): the pasted text is split
    into lines, the first line gives the headers, and every further line
    becomes a record from header to cell. */
module SheetData {
  import opened Text

  const TooFewMessage: string := "Premalo podatkov - potrebna je vsaj glava in ena vrstica!"

  type Row = map<string, string>

  /** What parsing the pasted text comes to. */
  datatype ParseOutcome =
    | Blank                                     // nothing but white space
    | TooFew                                    // fewer than two lines
    | Parsed(headers: seq<string>, rows: seq<Row>)

  /** Tab when the first line holds one, comma otherwise. */
  function Delimiter(firstLine: string): (d: char)
    ensures d == '\t' <==> '\t' in firstLine
    ensures d == '\t' || d == ','
  {
    if '\t' in firstLine then '\t' else ','
  }

  /** `values[index] || ""`: a missing cell reads as "". */
  function Cell(values: seq<string>, index: nat): string {
    if index < |values| then values[index] else ""
  }

  /** The record the header reduction builds from the first `n` headers:
      every header is assigned its cell in turn, so a later column of the
      same name overwrites an earlier one. */
  function RowOf(headers: seq<string>, values: seq<string>, n: nat): (row: Row)
    requires n <= |headers|
    ensures row.Keys == set k | 0 <= k < n :: headers[k]
    decreases n
  {
    if n == 0 then map[]
    else RowOf(headers, values, n - 1)[headers[n - 1] := Cell(values, n - 1)]
  }

  /** The record for one data line. */
  function MakeRow(headers: seq<string>, line: string, delimiter: char): Row {
    RowOf(headers, Split(line, delimiter), |headers|)
  }

  /** The lines of the trimmed text. */
  function Lines(text: string): (lines: seq<string>)
    ensures |lines| >= 1
  {
    Split(Trim(text), '\n')
  }

  /** `parseSheetData` as a value: blank text is ignored, a single line is
      too little, and otherwise the headers and one record per further line
      are produced. */
  function ParseSheet(text: string): (o: ParseOutcome)
    ensures o.Blank? <==> Trim(text) == ""
    ensures o.Parsed? ==> |o.rows| == |Lines(text)| - 1
  {
    if Trim(text) == "" then Blank
    else
      var lines := Lines(text);
      if |lines| < 2 then TooFew
      else
        var delimiter := Delimiter(lines[0]);
        var headers := Split(lines[0], delimiter);
        Parsed(headers, Rows(headers, lines[1..], delimiter))
  }

  /** One record per data line, in order. */
  function Rows(headers: seq<string>, dataLines: seq<string>, delimiter: char): (rows: seq<Row>)
    ensures |rows| == |dataLines|
    decreases |dataLines|
  {
    if dataLines == [] then []
    else Rows(headers, dataLines[..|dataLines| - 1], delimiter)
         + [MakeRow(headers, dataLines[|dataLines| - 1], delimiter)]
  }

  /** Record `i` is built from data line `i`. */
  lemma {:induction false} RowAt(headers: seq<string>, dataLines: seq<string>, delimiter: char, i: nat)
    requires i < |dataLines|
    ensures Rows(headers, dataLines, delimiter)[i] == MakeRow(headers, dataLines[i], delimiter)
    decreases |dataLines|
  {
    var init := dataLines[..|dataLines| - 1];
    if i < |init| {
      RowAt(headers, init, delimiter, i);
      assert init[i] == dataLines[i];
    }
  }

  // ---------------------------------------------------------------------
  // The accumulator loop of the reduction

  /** The reduction over the headers, written as the source does it, with
      an accumulator record. */
  method BuildRow(headers: seq<string>, values: seq<string>) returns (obj: Row)
    ensures obj == RowOf(headers, values, |headers|)
  {
    obj := map[];
    for index := 0 to |headers|
      invariant obj == RowOf(headers, values, index)
    {
      obj := obj[headers[index] := Cell(values, index)];
    }
  }

  /** The loop of `parseSheetData` over the data lines: one record per
      line after the first, in order. */
  method ExtractRows(headers: seq<string>, lines: seq<string>, delimiter: char) returns (rows: seq<Row>)
    requires |lines| >= 1
    ensures rows == Rows(headers, lines[1..], delimiter)
  {
    rows := [];
    for i := 1 to |lines|
      invariant rows == Rows(headers, lines[1..i], delimiter)
    {
      var row := BuildRow(headers, Split(lines[i], delimiter));
      assert lines[1..i + 1][..i - 1] == lines[1..i];
      rows := rows + [row];
    }
    assert lines[1..|lines|] == lines[1..];
  }

  // ---------------------------------------------------------------------
  // The hook state

  /** The hook's state: the pasted text, and the headers, records and error
      message the last successful or failed parse left. */
  class SheetState {
    var sheetData: string
    var headers: seq<string>
    var rows: seq<Row>
    var error: string

    constructor()
      ensures sheetData == "" && headers == [] && rows == [] && error == ""
    {
      sheetData := "";
      headers := [];
      rows := [];
      error := "";
    }

    method SetSheetData(text: string)
      modifies this
      ensures sheetData == text
      ensures headers == old(headers) && rows == old(rows) && error == old(error)
    {
      sheetData := text;
    }

    /** `parseSheetData`: blank text changes nothing; a single line sets
        the error; otherwise headers and records are replaced and the error
        cleared. */
    method ParseSheetData() returns (ok: bool)
      modifies this
      ensures sheetData == old(sheetData)
      ensures ok <==> ParseSheet(old(sheetData)).Parsed?
      ensures ParseSheet(old(sheetData)).Blank? ==>
                headers == old(headers) && rows == old(rows) && error == old(error)
      ensures ParseSheet(old(sheetData)).TooFew? ==>
                headers == old(headers) && rows == old(rows) && error == TooFewMessage
      ensures ParseSheet(old(sheetData)).Parsed? ==>
                headers == ParseSheet(old(sheetData)).headers && rows == ParseSheet(old(sheetData)).rows
                && error == ""
    {
      if Trim(sheetData) == "" {
        return false;
      }
      var lines := Split(Trim(sheetData), '\n');
      if |lines| < 2 {
        error := TooFewMessage;
        return false;
      }
      var delimiter := Delimiter(lines[0]);
      var extractedHeaders := Split(lines[0], delimiter);
      var extractedRows := ExtractRows(extractedHeaders, lines, delimiter);
      headers := extractedHeaders;
      rows := extractedRows;
      error := "";
      return true;
    }
  }

  // ---------------------------------------------------------------------
  // Properties

  /** Every record of a parse is keyed by exactly the headers. */
  lemma {:induction false} ParsedRowsKeyed(text: string)
    requires ParseSheet(text).Parsed?
    ensures var o := ParseSheet(text);
      forall i :: 0 <= i < |o.rows| ==> o.rows[i].Keys == set h | h in o.headers
  {
    var o := ParseSheet(text);
    var lines := Lines(text);
    forall i | 0 <= i < |o.rows| ensures o.rows[i].Keys == set h | h in o.headers {
      RowAt(o.headers, lines[1..], Delimiter(lines[0]), i);
      assert (set k | 0 <= k < |o.headers| :: o.headers[k]) == set h | h in o.headers;
    }
  }

  /** A text with content but no line break is too little data, and a
      line break is enough. */
  lemma {:induction false} TooFewIff(text: string)
    ensures ParseSheet(text).TooFew? <==> Trim(text) != "" && '\n' !in Trim(text)
  {
    var t := Trim(text);
    if '\n' in t {
      var i :| 0 <= i < |t| && t[i] == '\n';
      assert IndexOfChar(t, '\n', 0).Some?;
      assert |Split(t, '\n')| >= 2;
    }
  }

  /** The headers are the pieces of the first line, untrimmed and with
      duplicates kept; the delimiter is a tab exactly when the first line
      holds one, and no header holds the delimiter. */
  lemma {:induction false} HeadersOfFirstLine(text: string)
    requires ParseSheet(text).Parsed?
    ensures var first := Lines(text)[0];
      && ParseSheet(text).headers == Split(first, Delimiter(first))
      && Join(ParseSheet(text).headers, Delimiter(first)) == first
      && forall k :: 0 <= k < |ParseSheet(text).headers| ==>
           Delimiter(first) !in ParseSheet(text).headers[k]
  {
    var first := Lines(text)[0];
    JoinSplit(first, Delimiter(first));
  }

  /** The cell a record gives a header is the cell of that header's last
      column; a line with too few cells pads with "", and extra cells are
      ignored. */
  lemma {:induction false} RowOfCell(headers: seq<string>, values: seq<string>, n: nat, k: nat)
    requires k < n <= |headers|
    requires forall j :: k < j < n ==> headers[j] != headers[k]
    ensures RowOf(headers, values, n)[headers[k]] == Cell(values, k)
    ensures k >= |values| ==> RowOf(headers, values, n)[headers[k]] == ""
    decreases n
  {
    if n - 1 != k {
      RowOfCell(headers, values, n - 1, k);
    }
  }

  /** Each data line, blank ones included, gives the record of its cells
      under the headers. */
  lemma {:induction false} RowsOfLines(text: string, i: nat, k: nat)
    requires ParseSheet(text).Parsed?
    requires i < |ParseSheet(text).rows|
    requires var hs := ParseSheet(text).headers;
      k < |hs| && forall j :: k < j < |hs| ==> hs[j] != hs[k]
    ensures var lines, hs := Lines(text), ParseSheet(text).headers;
      && hs[k] in ParseSheet(text).rows[i]
      && ParseSheet(text).rows[i][hs[k]] == Cell(Split(lines[i + 1], Delimiter(lines[0])), k)
  {
    var lines, hs := Lines(text), ParseSheet(text).headers;
    assert hs == Split(lines[0], Delimiter(lines[0]));
    RowAt(hs, lines[1..], Delimiter(lines[0]), i);
    assert lines[1..][i] == lines[i + 1];
    RowOfCell(hs, Split(lines[i + 1], Delimiter(lines[0])), |hs|, k);
  }
}

=== FILE: text.dfy ===
/** String primitives the merge engine is built from: ASCII case mapping,
    trimming, literal search, splitting and joining, whitespace collapsing,
    tag stripping and the decimal integer parsing and printing used by the
    grade formatter. Each JavaScript string method or regular expression
    the source calls is written here as a small scanner. */
module Text {

  datatype Option<T> = None | Some(value: T)

  /** The outcome of an operation that can throw: the value, or the
      message of the error. */
  datatype Result<T> = Success(value: T) | Failure(error: string)

  /** A record lookup where a missing key reads as the empty string
      (`record[key] || ""`). */
  function Lookup(m: map<string, string>, key: string): (v: string)
    ensures key in m ==> v == m[key]
    ensures key !in m ==> v == ""
  {
    if key in m then m[key] else ""
  }

  /** The characters JavaScript's `\s` and `trim()` treat as white space
      (restricted to ASCII). */
  predicate IsWhitespace(c: char) {
    c == ' ' || c == '\t' || c == '\n' || c == '\r' || c == '\U{000B}' || c == '\U{000C}'
  }

  predicate IsDigit(c: char) {
    '0' <= c <= '9'
  }

  function LowerChar(c: char): char {
    if 'A' <= c <= 'Z' then (c as int + 32) as char else c
  }

  lemma {:induction false} LowerCharIdempotent(c: char)
    ensures LowerChar(LowerChar(c)) == LowerChar(c)
  {
  }

  function UpperChar(c: char): char {
    if 'a' <= c <= 'z' then (c as int - 32) as char else c
  }

  /** `toLowerCase()` on ASCII letters. */
  function Lower(s: string): (r: string)
    ensures |r| == |s|
    ensures forall i :: 0 <= i < |s| ==> r[i] == LowerChar(s[i])
  {
    seq(|s|, i requires 0 <= i < |s| => LowerChar(s[i]))
  }

  /** `toUpperCase()` on ASCII letters. */
  function Upper(s: string): (r: string)
    ensures |r| == |s|
    ensures forall i :: 0 <= i < |s| ==> r[i] == UpperChar(s[i])
  {
    seq(|s|, i requires 0 <= i < |s| => UpperChar(s[i]))
  }

  lemma {:induction false} LowerIdempotent(s: string)
    ensures Lower(Lower(s)) == Lower(s)
  {
    forall i | 0 <= i < |s| ensures Lower(Lower(s))[i] == Lower(s)[i] {
      assert LowerChar(LowerChar(s[i])) == LowerChar(s[i]);
    }
  }

  // ---------------------------------------------------------------------
  // Trimming

  /** Drops leading white space: what is cut is all white space and what
      is kept starts with a non-space (or is empty). */
  function TrimStart(s: string): (r: string)
    ensures |r| <= |s| && r == s[|s| - |r|..]
    ensures r == [] || !IsWhitespace(r[0])
    ensures forall k :: 0 <= k < |s| - |r| ==> IsWhitespace(s[k])
    decreases |s|
  {
    if |s| > 0 && IsWhitespace(s[0]) then TrimStart(s[1..]) else s
  }

  /** Drops trailing white space. */
  function TrimEnd(s: string): (r: string)
    ensures |r| <= |s| && r == s[..|r|]
    ensures r == [] || !IsWhitespace(r[|r| - 1])
    ensures forall k :: |r| <= k < |s| ==> IsWhitespace(s[k])
    decreases |s|
  {
    if |s| > 0 && IsWhitespace(s[|s| - 1]) then TrimEnd(s[..|s| - 1]) else s
  }

  /** `trim()`: no white space at either end; a string without white space
      at its ends is returned unchanged. */
  function Trim(s: string): (r: string)
    ensures |r| <= |s|
    ensures r == [] || (!IsWhitespace(r[0]) && !IsWhitespace(r[|r| - 1]))
    ensures (s == [] || (!IsWhitespace(s[0]) && !IsWhitespace(s[|s| - 1]))) ==> r == s
  {
    TrimEnd(TrimStart(s))
  }

  /** A string that is already trimmed is left alone. */
  lemma {:induction false} TrimIdempotent(s: string)
    ensures Trim(Trim(s)) == Trim(s)
  {
    var r := Trim(s);
    assert TrimStart(r) == r;
    if r != [] {
      assert !IsWhitespace(r[|r| - 1]);
    }
    assert TrimEnd(r) == r;
  }

  lemma {:induction false} AppendEmpty(a: string, b: string)
    ensures a + "" + b == a + b
  {
    assert a + "" == a;
  }

  /** The trimmed string is a slice of the original. */
  lemma {:induction false} TrimOffset(s: string) returns (a: nat)
    ensures a + |Trim(s)| <= |s| && Trim(s) == s[a..a + |Trim(s)|]
  {
    var t := TrimStart(s);
    a := |s| - |t|;
    assert Trim(s) == t[..|Trim(s)|];
  }

  /** Trimming a lower-cased string leaves it lower case. */
  lemma {:induction false} LowerTrimLower(s: string)
    ensures Lower(Trim(Lower(s))) == Trim(Lower(s))
  {
    var l := Lower(s);
    forall k | 0 <= k < |l| ensures LowerChar(l[k]) == l[k] {
      LowerCharIdempotent(s[k]);
    }
    var a := TrimOffset(l);
    LowerSlice(l, a, a + |Trim(l)|);
    LowerFixed(Trim(l));
  }

  /** A slice of a lower-case string is lower case. */
  lemma {:induction false} LowerSlice(t: string, i: nat, j: nat)
    requires i <= j <= |t|
    requires forall k :: 0 <= k < |t| ==> LowerChar(t[k]) == t[k]
    ensures forall k :: 0 <= k < j - i ==> LowerChar(t[i..j][k]) == t[i..j][k]
  {
    forall k | 0 <= k < j - i ensures LowerChar(t[i..j][k]) == t[i..j][k] {
      assert t[i..j][k] == t[i + k];
    }
  }

  /** Lower-casing a string whose every character is already lower case
      leaves it alone. */
  lemma {:induction false} LowerFixed(t: string)
    requires forall k :: 0 <= k < |t| ==> LowerChar(t[k]) == t[k]
    ensures Lower(t) == t
  {
  }

  /** A string is blank exactly when it trims to the empty string. */
  lemma {:induction false} TrimEmptyIffBlank(s: string)
    ensures Trim(s) == [] <==> forall k :: 0 <= k < |s| ==> IsWhitespace(s[k])
  {
    if forall k :: 0 <= k < |s| ==> IsWhitespace(s[k]) {
      BlankTrimStart(s);
    }
  }

  lemma {:induction false} BlankTrimStart(s: string)
    requires forall k :: 0 <= k < |s| ==> IsWhitespace(s[k])
    ensures TrimStart(s) == [] && Trim(s) == []
    decreases |s|
  {
    if |s| > 0 {
      BlankTrimStart(s[1..]);
    }
  }

  // ---------------------------------------------------------------------
  // Literal search

  /** `p` occurs in `s` starting at index `i`. */
  predicate OccursAt(s: string, p: string, i: int) {
    0 <= i && i + |p| <= |s| && s[i..i + |p|] == p
  }

  /** `startsWith`. */
  predicate StartsWith(s: string, p: string) {
    |p| <= |s| && s[..|p|] == p
  }

  /** `endsWith`. */
  predicate EndsWith(s: string, p: string) {
    |p| <= |s| && s[|s| - |p|..] == p
  }

  /** An occurrence survives text added after it, and text added before
      it shifts it by that text's length. */
  lemma {:induction false} OccursInConcat(x: string, y: string, p: string, i: int)
    ensures OccursAt(x, p, i) ==> OccursAt(x + y, p, i)
    ensures OccursAt(y, p, i) ==> OccursAt(x + y, p, |x| + i)
  {
    if OccursAt(x, p, i) {
      assert (x + y)[i..i + |p|] == x[i..i + |p|];
    }
    if OccursAt(y, p, i) {
      assert (x + y)[|x| + i..|x| + i + |p|] == y[i..i + |p|];
    }
  }

  /** An occurrence after position `r` is one in the text from `r` on. */
  lemma {:induction false} OccursInSuffix(s: string, p: string, r: nat, i: int)
    requires r <= i && r <= |s|
    ensures OccursAt(s, p, i) ==> OccursAt(s[r..], p, i - r)
  {
    if OccursAt(s, p, i) {
      assert s[r..][i - r..i - r + |p|] == s[i..i + |p|];
    }
  }

  /** `indexOf(p, from)`: the first occurrence of `p` at or after `from`. */
  function IndexOfFrom(s: string, p: string, from: nat): (r: Option<nat>)
    ensures r.Some? ==> from <= r.value && r.value + |p| <= |s|
    decreases |s| - from
  {
    if from + |p| > |s| then None
    else if s[from..from + |p|] == p then Some(from)
    else IndexOfFrom(s, p, from + 1)
  }

  /** What is found is an occurrence. */
  lemma {:induction false} IndexOfFromOccurs(s: string, p: string, from: nat)
    ensures IndexOfFrom(s, p, from).Some? ==> OccursAt(s, p, IndexOfFrom(s, p, from).value)
    decreases |s| - from
  {
    if from + |p| <= |s| && s[from..from + |p|] != p {
      IndexOfFromOccurs(s, p, from + 1);
    }
  }

  /** The occurrence found is the first at or after `from`, and when none
      is found there is none. */
  lemma {:induction false} IndexOfFromFirst(s: string, p: string, from: nat)
    ensures var r := IndexOfFrom(s, p, from);
      && (r.Some? ==> forall k :: from <= k < r.value ==> !OccursAt(s, p, k))
      && (r.None? ==> forall k :: from <= k ==> !OccursAt(s, p, k))
    decreases |s| - from
  {
    if from + |p| <= |s| && s[from..from + |p|] != p {
      IndexOfFromFirst(s, p, from + 1);
    }
  }

  /** `includes`. */
  predicate Contains(s: string, p: string) {
    IndexOfFrom(s, p, 0).Some?
  }

  lemma {:induction false} ContainsIff(s: string, p: string)
    ensures Contains(s, p) <==> exists k :: OccursAt(s, p, k)
  {
    IndexOfFromFirst(s, p, 0);
    IndexOfFromOccurs(s, p, 0);
    if exists k :: OccursAt(s, p, k) {
      var k :| OccursAt(s, p, k);
      assert 0 <= k;
    }
  }

  /** A prefix or a suffix is in particular contained. */
  lemma {:induction false} StartsOrEndsImpliesContains(s: string, p: string)
    requires StartsWith(s, p) || EndsWith(s, p)
    ensures Contains(s, p)
  {
    IndexOfFromFirst(s, p, 0);
    if StartsWith(s, p) {
      assert OccursAt(s, p, 0);
    } else {
      assert OccursAt(s, p, |s| - |p|);
    }
  }

  /** The first index of character `c`, at or after `from`. */
  function IndexOfChar(s: string, c: char, from: nat): (r: Option<nat>)
    ensures r.Some? ==> from <= r.value < |s| && s[r.value] == c
    ensures r.Some? ==> forall k :: from <= k < r.value ==> s[k] != c
    ensures r.None? ==> forall k :: from <= k < |s| ==> s[k] != c
    decreases |s| - from
  {
    if from >= |s| then None
    else if s[from] == c then Some(from)
    else IndexOfChar(s, c, from + 1)
  }

  /** The first index of `c` is the one with no `c` before it. */
  lemma {:induction false} IndexOfCharIs(s: string, c: char, from: nat, i: nat)
    requires from <= i < |s| && s[i] == c
    requires forall k :: from <= k < i ==> s[k] != c
    ensures IndexOfChar(s, c, from) == Some(i)
    decreases i - from
  {
    if from < i {
      IndexOfCharIs(s, c, from + 1, i);
    }
  }

  // ---------------------------------------------------------------------
  // Splitting and joining on a single character

  /** `split(sep)` with a one-character separator: the pieces between
      consecutive separators, at least one piece. */
  function Split(s: string, sep: char): (parts: seq<string>)
    ensures |parts| >= 1
    ensures forall k :: 0 <= k < |parts| ==> sep !in parts[k]
    decreases |s|
  {
    match IndexOfChar(s, sep, 0)
    case None => [s]
    case Some(i) => [s[..i]] + Split(s[i + 1..], sep)
  }

  /** `join(sep)`. */
  function Join(parts: seq<string>, sep: char): string
    decreases |parts|
  {
    if |parts| == 0 then ""
    else if |parts| == 1 then parts[0]
    else parts[0] + [sep] + Join(parts[1..], sep)
  }

  /** Splitting and joining again on the same character gives back the
      original string. */
  lemma {:induction false} JoinSplit(s: string, sep: char)
    ensures Join(Split(s, sep), sep) == s
    decreases |s|
  {
    match IndexOfChar(s, sep, 0)
    case None =>
    case Some(i) =>
      JoinSplit(s[i + 1..], sep);
      var rest := Split(s[i + 1..], sep);
      assert Split(s, sep) == [s[..i]] + rest;
      assert ([s[..i]] + rest)[1..] == rest;
      assert s == s[..i] + [sep] + s[i + 1..];
  }

  /** Joining pieces that do not contain the separator and splitting again
      gives back the pieces. */
  lemma {:induction false} SplitJoin(parts: seq<string>, sep: char)
    requires |parts| >= 1
    requires forall k :: 0 <= k < |parts| ==> sep !in parts[k]
    ensures Split(Join(parts, sep), sep) == parts
    decreases |parts|
  {
    if |parts| == 1 {
      assert IndexOfChar(parts[0], sep, 0).None?;
    } else {
      SplitJoin(parts[1..], sep);
      SplitCons(parts[0], Join(parts[1..], sep), sep);
      assert parts == [parts[0]] + parts[1..];
    }
  }

  /** A first piece without the separator, then the separator: splitting
      cuts there. */
  lemma {:induction false} SplitCons(p: string, rest: string, sep: char)
    requires sep !in p
    ensures Split(p + [sep] + rest, sep) == [p] + Split(rest, sep)
  {
    var s := p + [sep] + rest;
    assert s[|p|] == sep;
    assert forall k :: 0 <= k < |p| ==> s[k] == p[k] && s[k] != sep;
    IndexOfCharIs(s, sep, 0, |p|);
    assert s[|p| + 1..] == rest;
    assert s[..|p|] == p;
  }

  // ---------------------------------------------------------------------
  // White-space runs (the regular expression `\s+`)

  /** The first white-space character at or after `from`. */
  function FirstWhitespace(s: string, from: nat): (r: Option<nat>)
    ensures r.Some? ==> from <= r.value < |s| && IsWhitespace(s[r.value])
    ensures r.Some? ==> forall k :: from <= k < r.value ==> !IsWhitespace(s[k])
    ensures r.None? ==> forall k :: from <= k < |s| ==> !IsWhitespace(s[k])
    decreases |s| - from
  {
    if from >= |s| then None
    else if IsWhitespace(s[from]) then Some(from)
    else FirstWhitespace(s, from + 1)
  }

  /** The end of the white-space run that covers `from`. */
  function SkipWhitespace(s: string, from: nat): (r: nat)
    requires from <= |s|
    ensures from <= r <= |s|
    ensures forall k :: from <= k < r ==> IsWhitespace(s[k])
    ensures r < |s| ==> !IsWhitespace(s[r])
    decreases |s| - from
  {
    if from < |s| && IsWhitespace(s[from]) then SkipWhitespace(s, from + 1) else from
  }

  /** `split(/\s+/)`: the pieces between maximal white-space runs. */
  function SplitWhitespace(s: string): (words: seq<string>)
    ensures |words| >= 1
    ensures forall k, c :: 0 <= k < |words| && c in words[k] ==> !IsWhitespace(c)
    decreases |s|
  {
    match FirstWhitespace(s, 0)
    case None => [s]
    case Some(i) =>
      var j := SkipWhitespace(s, i);
      assert forall c :: c in s[..i] ==> !IsWhitespace(c);
      [s[..i]] + SplitWhitespace(s[j..])
  }

  /** `replace(/\s+/g, " ")`: every maximal white-space run becomes a single
      space. */
  function CollapseWhitespace(s: string): (r: string)
    ensures |r| <= |s|
    decreases |s|
  {
    match FirstWhitespace(s, 0)
    case None => s
    case Some(i) => s[..i] + " " + CollapseWhitespace(s[SkipWhitespace(s, i)..])
  }

  /** After collapsing, the only white space left is single spaces. */
  predicate Collapsed(s: string) {
    forall k :: 0 <= k < |s| && IsWhitespace(s[k]) ==>
      s[k] == ' ' && (k + 1 < |s| ==> !IsWhitespace(s[k + 1]))
  }

  lemma {:induction false} CollapseWhitespaceCollapses(s: string)
    ensures Collapsed(CollapseWhitespace(s))
    decreases |s|
  {
    match FirstWhitespace(s, 0)
    case None =>
    case Some(i) =>
      var j := SkipWhitespace(s, i);
      var rest := s[j..];
      CollapseWhitespaceCollapses(rest);
      var r := CollapseWhitespace(s);
      var cr := CollapseWhitespace(rest);
      assert r == s[..i] + " " + cr;
      assert cr == [] || !IsWhitespace(cr[0]) by {
        CollapseHead(rest);
      }
      assert forall k :: 0 <= k < i ==> r[k] == s[k] && !IsWhitespace(r[k]);
      forall k | 0 <= k < |r| && IsWhitespace(r[k])
        ensures r[k] == ' ' && (k + 1 < |r| ==> !IsWhitespace(r[k + 1]))
      {
        if k == i {
          if k + 1 < |r| {
            assert r[k + 1] == cr[0];
          }
        } else {
          assert k > i && r[k] == cr[k - i - 1];
          if k + 1 < |r| {
            assert r[k + 1] == cr[k - i];
          }
        }
      }
  }

  /** Collapsing keeps the first character when it is not white space. */
  lemma {:induction false} CollapseHead(s: string)
    requires s == [] || !IsWhitespace(s[0])
    ensures CollapseWhitespace(s) == [] || !IsWhitespace(CollapseWhitespace(s)[0])
  {
    match FirstWhitespace(s, 0)
    case None =>
    case Some(i) =>
      if i == 0 {
      } else {
        assert CollapseWhitespace(s)[0] == s[0];
      }
  }

  /** Collapsing a collapsed string changes nothing. */
  lemma {:induction false} CollapseWhitespaceIdempotent(s: string)
    requires Collapsed(s)
    ensures CollapseWhitespace(s) == s
    decreases |s|
  {
    match FirstWhitespace(s, 0)
    case None =>
    case Some(i) =>
      var j := SkipWhitespace(s, i);
      assert s[i] == ' ';
      assert j == i + 1 by {
        if i + 1 < |s| {
          assert !IsWhitespace(s[i + 1]);
        }
      }
      var rest := s[j..];
      assert Collapsed(rest) by {
        forall k | 0 <= k < |rest| && IsWhitespace(rest[k])
          ensures rest[k] == ' ' && (k + 1 < |rest| ==> !IsWhitespace(rest[k + 1]))
        {
          assert rest[k] == s[j + k];
          if k + 1 < |rest| {
            assert rest[k + 1] == s[j + k + 1];
          }
        }
      }
      CollapseWhitespaceIdempotent(rest);
      assert s == s[..i] + " " + rest;
  }

  // ---------------------------------------------------------------------
  // Removing characters and markup

  /** `replace(/[...]/g, "")` for a character class: every character of
      `cs` is removed, the others keep their order. */
  function RemoveChars(s: string, cs: set<char>): (r: string)
    ensures |r| <= |s|
    ensures forall k :: 0 <= k < |r| ==> r[k] !in cs
    ensures (forall k :: 0 <= k < |s| ==> s[k] !in cs) ==> r == s
    decreases |s|
  {
    if |s| == 0 then ""
    else (if s[0] in cs then "" else [s[0]]) + RemoveChars(s[1..], cs)
  }

  /** The brace characters. */
  const Braces: set<char> := {'{', '}'}

  /** `replace(/<[^>]*>/g, "")`, scanning left to right: a `<` with a `>`
      after it is removed together with everything up to and including the
      first such `>`; any other character is kept. */
  function StripTags(s: string): (r: string)
    ensures |r| <= |s|
    decreases |s|
  {
    if |s| == 0 then ""
    else if s[0] == '<' then
      match IndexOfChar(s, '>', 1)
      case Some(g) => StripTags(s[g + 1..])
      case None => s   // no `>` left: no later `<` can open a tag either
    else [s[0]] + StripTags(s[1..])
  }

  /** What is left holds no complete tag: no `<` is followed by a `>`. */
  lemma {:induction false} StripTagsLeavesNoTag(s: string)
    ensures forall k :: 0 <= k < |StripTags(s)| && StripTags(s)[k] == '<' ==> '>' !in StripTags(s)[k + 1..]
    decreases |s|
  {
    if |s| > 0 {
      if s[0] == '<' {
        match IndexOfChar(s, '>', 1)
        case Some(g) =>
          assert StripTags(s) == StripTags(s[g + 1..]);
          StripTagsLeavesNoTag(s[g + 1..]);
        case None =>
          assert '>' !in s[1..];
          forall k | 0 <= k < |s| && s[k] == '<' ensures '>' !in s[k + 1..] {
            assert s[k + 1..] == s[1..][k..];
          }
      } else {
        var rest := StripTags(s[1..]);
        StripTagsLeavesNoTag(s[1..]);
        var r := [s[0]] + rest;
        forall k | 0 <= k < |r| && r[k] == '<' ensures '>' !in r[k + 1..] {
          assert k > 0;
          assert r[k] == rest[k - 1];
          assert '>' !in rest[k - 1 + 1..];
          assert r[k + 1..] == rest[k..];
        }
      }
    }
  }

  /** Text without markup brackets is left alone by tag stripping. */
  lemma {:induction false} StripTagsNoMarkup(s: string)
    requires '<' !in s
    ensures StripTags(s) == s
    decreases |s|
  {
    if |s| > 0 {
      assert s[0] in s;
      StripTagsNoMarkup(s[1..]);
      assert [s[0]] + s[1..] == s;
    }
  }

  /** Removing characters distributes over concatenation. */
  lemma {:induction false} RemoveCharsConcat(a: string, b: string, cs: set<char>)
    ensures RemoveChars(a + b, cs) == RemoveChars(a, cs) + RemoveChars(b, cs)
    decreases |a|
  {
    if |a| > 0 {
      assert (a + b)[1..] == a[1..] + b;
      RemoveCharsConcat(a[1..], b, cs);
    } else {
      assert a + b == b;
    }
  }

  /** Tag stripping only removes characters. */
  lemma {:induction false} StripTagsChars(s: string)
    ensures forall c :: c in StripTags(s) ==> c in s
    decreases |s|
  {
    if |s| > 0 {
      if s[0] == '<' {
        match IndexOfChar(s, '>', 1)
        case Some(g) =>
          StripTagsChars(s[g + 1..]);
          assert forall c :: c in s[g + 1..] ==> c in s;
        case None =>
      } else {
        StripTagsChars(s[1..]);
        assert forall c :: c in s[1..] ==> c in s;
      }
    }
  }

  /** Text without `<` in front of a string passes through tag stripping. */
  lemma {:induction false} StripTagsPrepend(a: string, b: string)
    requires '<' !in a
    ensures StripTags(a + b) == a + StripTags(b)
    decreases |a|
  {
    if |a| == 0 {
      assert a + b == b;
    } else {
      assert a[0] in a;
      assert a + b == [a[0]] + (a[1..] + b);
      StripTagsCons(a[0], a[1..] + b);
      StripTagsPrepend(a[1..], b);
      assert a == [a[0]] + a[1..];
    }
  }

  /** A character other than `<` in front is kept. */
  lemma {:induction false} StripTagsCons(c: char, t: string)
    requires c != '<'
    ensures StripTags([c] + t) == [c] + StripTags(t)
  {
    assert ([c] + t)[1..] == t;
  }

  /** A tail without `<` or `>` passes through tag stripping. */
  lemma {:induction false} StripTagsAppend(x: string, z: string)
    requires '<' !in z && '>' !in z
    ensures StripTags(x + z) == StripTags(x) + z
    decreases |x|
  {
    var s := x + z;
    if |x| == 0 {
      assert s == z;
      StripTagsNoMarkup(z);
    } else if x[0] == '<' {
      match IndexOfChar(x, '>', 1)
      case Some(g) =>
        assert s[0] == '<';
        IndexOfCharIs(s, '>', 1, g);
        assert s[g + 1..] == x[g + 1..] + z;
        assert StripTags(s) == StripTags(s[g + 1..]);
        StripTagsAppend(x[g + 1..], z);
      case None =>
        forall j | 1 <= j < |s| ensures s[j] != '>' {
          if j < |x| {
            assert s[j] == x[j];
          } else {
            assert s[j] == z[j - |x|];
          }
        }
        assert IndexOfChar(s, '>', 1).None?;
        assert s[0] == '<';
        assert StripTags(s) == s;
    } else {
      assert s[0] == x[0];
      assert s[1..] == x[1..] + z;
      assert StripTags(s) == [x[0]] + StripTags(x[1..] + z);
      StripTagsAppend(x[1..], z);
    }
  }

  // ---------------------------------------------------------------------
  // Decimal integers (`parseInt(s, 10)` and number-to-string)

  function DigitValue(c: char): nat
    requires IsDigit(c)
  {
    c as int - '0' as int
  }

  function DigitChar(d: nat): (c: char)
    requires d < 10
    ensures IsDigit(c) && DigitValue(c) == d
  {
    ('0' as int + d) as char
  }

  predicate AllDigits(s: string) {
    forall k :: 0 <= k < |s| ==> IsDigit(s[k])
  }

  /** The value of a string of decimal digits, most significant first. */
  function DigitsValue(ds: string): nat
    requires AllDigits(ds)
    decreases |ds|
  {
    if |ds| == 0 then 0 else 10 * DigitsValue(ds[..|ds| - 1]) + DigitValue(ds[|ds| - 1])
  }

  /** The longest run of digits at the start of `s`. */
  function LeadingDigits(s: string): (ds: string)
    ensures |ds| <= |s| && ds == s[..|ds|] && AllDigits(ds)
    ensures |ds| < |s| ==> !IsDigit(s[|ds|])
    decreases |s|
  {
    if |s| > 0 && IsDigit(s[0]) then [s[0]] + LeadingDigits(s[1..]) else ""
  }

  /** `parseInt(s, 10)` on a string with no leading white space: an optional
      sign followed by at least one digit; anything after the digits is
      ignored. `None` stands for `NaN`. */
  function ParseLeadingInt(s: string): Option<int> {
    var neg := |s| > 0 && s[0] == '-';
    var body := if |s| > 0 && (s[0] == '-' || s[0] == '+') then s[1..] else s;
    var ds := LeadingDigits(body);
    if |ds| == 0 then None
    else Some(if neg then -(DigitsValue(ds) as int) else DigitsValue(ds) as int)
  }

  /** A string that starts with neither a sign nor a digit reads as `NaN`. */
  lemma {:induction false} ParseNoLeadingDigit(s: string)
    requires |s| > 0 && s[0] != '-' && s[0] != '+' && !IsDigit(s[0])
    ensures ParseLeadingInt(s).None?
  {
    assert LeadingDigits(s) == "";
  }

  /** The decimal digits of `n`, without leading zeros. */
  function NatToString(n: nat): (s: string)
    ensures |s| >= 1 && AllDigits(s)
    ensures s[0] != '0' || n == 0
    decreases n
  {
    if n < 10 then [DigitChar(n)] else NatToString(n / 10) + [DigitChar(n % 10)]
  }

  /** `${n}` for an integer: a minus sign for negative values. */
  function IntToString(i: int): string {
    if i < 0 then "-" + NatToString(-i) else NatToString(i)
  }

  /** Printing and then reading back the digits gives the number. */
  lemma {:induction false} NatToStringValue(n: nat)
    ensures DigitsValue(NatToString(n)) == n
    decreases n
  {
    var s := NatToString(n);
    if n >= 10 {
      NatToStringValue(n / 10);
      assert s[..|s| - 1] == NatToString(n / 10);
    }
  }

  /** `parseInt` reads back what `${n}` prints, whatever non-digit text
      follows. */
  lemma {:induction false} ParsePrintedInt(i: int, rest: string)
    requires rest == [] || !IsDigit(rest[0])
    ensures ParseLeadingInt(IntToString(i) + rest) == Some(i)
  {
    if i < 0 {
      ParseNegated(-i, rest);
    } else {
      ParsePrintedNat(i, rest);
    }
  }

  lemma {:induction false} ParseNegated(n: nat, rest: string)
    requires n > 0
    requires rest == [] || !IsDigit(rest[0])
    ensures ParseLeadingInt("-" + NatToString(n) + rest) == Some(-(n as int))
  {
    var ds := NatToString(n);
    var body := ds + rest;
    ParsePrintedNat(n, rest);
    var s := "-" + ds + rest;
    assert s[0] == '-' && s[1..] == body;
  }

  lemma {:induction false} ParsePrintedNat(n: nat, rest: string)
    requires rest == [] || !IsDigit(rest[0])
    ensures LeadingDigits(NatToString(n) + rest) == NatToString(n)
    ensures DigitsValue(NatToString(n)) == n
    ensures ParseLeadingInt(NatToString(n) + rest) == Some(n)
  {
    var ds := NatToString(n);
    NatToStringValue(n);
    LeadingDigitsOf(ds, rest);
    var s := ds + rest;
    assert s[0] == ds[0] && IsDigit(s[0]);
  }

  lemma {:induction false} LeadingDigitsOf(ds: string, rest: string)
    requires AllDigits(ds)
    requires rest == [] || !IsDigit(rest[0])
    ensures LeadingDigits(ds + rest) == ds
    decreases |ds|
  {
    if |ds| > 0 {
      LeadingDigitsOf(ds[1..], rest);
      assert (ds + rest)[1..] == ds[1..] + rest;
      assert ds == [ds[0]] + ds[1..];
    }
  }
}
